=== FILE: README.md ===
# Mr Zhuge control logic, modelled in Dafny

This project models the control logic of the Mr Zhuge military-history teaching
application. The application is a browser front end (audio engine, formation and
tactic animations, teaching assessment, drawing overlay, window manager, army
rendering) backed by FastAPI helpers. The helpers cover battle lookups and
analyses, dynasty searches, a military knowledge base, battle deduction through a
language model, mock image generation, and a cached battle endpoint.

Each source file becomes one Dafny module, written as immutable datatypes and pure
functions:

- Timers, animation frames and audio "ended" callbacks become explicit events that
  the caller applies (`NaturalEnd`, `ExecuteFrame`, `CompleteFormationAnimation`,
  `Tick`).
- Random and clock-based ids come from a counter held in the state record.
- File reads, JSON decoding, the language-model call and `json.loads` are
  parameters or already-parsed `Json` values.
- Python `str.lower()` is modelled as ASCII lower-casing and `str.strip()` with
  Python's white-space set (`Text`).
- A Python dict is modelled as an insertion-ordered association list wherever
  iteration order matters.

Shared modules:

- `Wrappers` holds `Option` and `Result`. The error case of `Result` carries an
  HTTP status and a detail string.
- `Text` holds substring search, ASCII lower-casing, Python `strip`, `replace`,
  decimal rendering and `join`.
- `Json` holds a parsed JSON value.

## Model

| member | source | states |
|---|---|---|
| Audio.ParseGroup | static/js/audio-system.js:47-52 | A group name resolves to exactly the one mix group that carries it, and to nothing otherwise |
| Audio.Clamp01 | static/js/audio-system.js:776-782 | The clamped volume lies in [0,1], equals the input inside that range, and is the nearer bound outside it |
| Audio.BufferKeyInjective | static/js/audio-system.js:117-121 | Two preloaded sounds share a `"<group>_<name>"` cache key only if they have the same group and the same name |
| Audio.Loaded | static/js/audio-system.js:7-124 | After set-up the engine is initialised and unmuted and has no voices; the buffer cache holds exactly the `"<group>_<name>"` keys of the four preset lists, and every group holds its fixed default base volume, with gain 1 |
| Audio.ResolveGroup | static/js/audio-system.js:647-648 | A missing or empty group option selects `effects`; any other name is looked up, so an unknown name has no group |
| Audio.MakeVoice | static/js/audio-system.js:647-676 | The voice gain is the requested volume, except that a missing volume or 0 gives 1.0. A panner exists exactly when a position is given, and the stored panner sits at the origin |
| Audio.PlaySound | static/js/audio-system.js:617-640 | Nothing plays and nothing changes when the engine is uninitialised or muted, or the buffer is missing. An unknown group throws. Otherwise exactly one voice is registered, under a fresh id that is returned |
| Audio.NaturalEnd | static/js/audio-system.js:634-636 | The ended hook deletes exactly the given voice id and keeps every other voice |
| Audio.PlayThenEndRestores | static/js/audio-system.js:617-640 | A voice started by `playSound` and then ended leaves the voice registry as it was before the call |
| Audio.StopSound | static/js/audio-system.js:759-765 | Stopping an unknown id changes nothing; stopping a live id removes that id and no other |
| Audio.StopAllSounds | static/js/audio-system.js:768-773 | The voice registry becomes empty and nothing else changes |
| Audio.ToggleMute | static/js/audio-system.js:794-802 | The flag flips and the new value is returned; entering mute empties the registry, leaving mute keeps the voices |
| Audio.ToggleTwiceRestoresFlag | static/js/audio-system.js:794-802 | Two toggles restore the original flag, and no voice survives them |
| Audio.MutedPlaysNothing | static/js/audio-system.js:618-619 | While muted, `playSound` leaves the engine unchanged and returns no voice, whatever it is asked to play |
| Audio.SetVolume | static/js/audio-system.js:776-782 | The named group's base volume and gain both become the clamped value; an unknown group name leaves the engine unchanged |
| Audio.SetMasterVolume | static/js/audio-system.js:785-791 | The clamped master is stored, and each group is set to its fixed default times the master |
| Audio.MasterVolumeDoesNotCompound | static/js/audio-system.js:785-791 | A second master-volume call erases the effect of the first |
| Audio.FullMasterRestoresDefaults | static/js/audio-system.js:785-791 | Master volume 1 puts every group back at its category default (ambient 0.3, effects 0.7, music 0.5, tactical 0.8) |
| Audio.UpdateSoundPosition | static/js/audio-system.js:805-810 | The position update moves the panner stored on the voice, if the voice has one, and touches nothing else |
| Audio.UpdateSoundPositionInaudible | static/js/audio-system.js:805-810 | After a position update, the position of the panner wired into the audio graph is unchanged for every voice |
| Audio.UpdateSoundPositionCounterexample | static/js/audio-system.js:675 | A voice started at (1,2,3) and moved to (4,5,6) is still heard from (1,2,3) |
| Audio.UpdateSoundPositionRouted | static/js/audio-system.js:805-810 | The corrected update moves the routed panner of a positioned voice to the new position and keeps the set of voices |
| Audio.PlayAmbientSound | static/js/audio-system.js:681-689 | A voice starts exactly when the engine is live and the ambient buffer exists; it plays in group ambient at volume 0.6, without a position |
| Audio.PlayBattleSound | static/js/audio-system.js:692-700 | A voice starts exactly when the engine is live and the effects buffer exists; it plays in group effects at volume 0.8, at the given position |
| Audio.PlayTacticalSound | static/js/audio-system.js:703-711 | A voice starts exactly when the engine is live and the tactical buffer exists; it plays in group tactical at volume 0.7, at the given position |
| Audio.PlayMusic | static/js/audio-system.js:714-728 | A voice starts exactly when the engine is live and the music buffer exists; it plays in group music at volume 0.6 |
| Audio.BattleSequencesWellFormed | static/js/audio-system.js:813-835 | Exactly the three known sequences have cues. Every cue names a preloaded sound of the battle or tactical preset, and the cues start at once and never go back in time |
| Audio.LoadedCueHasBuffer | static/js/audio-system.js:68-121 | A battle or tactical cue whose name is in its preset's list finds its buffer under `"<group>_<name>"` among the keys the preloading stores |
| Formation.ParseFormation | static/js/formation-animations.js:17-224 | A key resolves to exactly the formation that carries it; any other key, such as `"dispersed"`, has no entry |
| Formation.KeyframesWellFormed | static/js/formation-animations.js:125-153 | Keyframes start at 0 and strictly increase. Completion fires at the last keyframe, which equals the setup time for every formation except the linear one (2000 against 2500) |
| Formation.IsFormationCompatible | static/js/formation-animations.js:306-311 | A source without a rule accepts any target. A known source accepts a known target exactly when it is in the compatible list, and rejects an unknown target |
| Formation.CompatibleNamesMatch | static/js/formation-animations.js:227-252 | A key is in a compatible-name list exactly when it names a formation of that list |
| Formation.CompatibilityIgnoresIncompatibleList | static/js/formation-animations.js:306-311 | Between two known formations, compatibility is decided by the compatible list alone |
| Formation.CompatibilityTableShape | static/js/formation-animations.js:227-252 | The compatible relation is symmetric and irreflexive, and it never lists a formation that the same rule also calls incompatible |
| Formation.ColsIsCeilSqrt50 | static/js/formation-animations.js:656 | The column count 8 is the ceiling of the square root of 50 |
| Formation.GridOffset | static/js/formation-animations.js:654-666 | Units fill an 8-column grid row by row; the offset counts columns and rows from the centre (4, 4) and scales them by the formation's spacing |
| Formation.FormationOffset | static/js/formation-animations.js:648-667 | An unknown type gives (0,0); a known type gives the grid offset for that formation |
| Formation.FormationOffsetColumnRange | static/js/formation-animations.js:648-667 | The column multiplier lies in [-4,3], so x offsets stay within four spacings of the centre |
| Formation.FormationOffsetNextRow | static/js/formation-animations.js:648-667 | A unit eight places later stands in the same column, one row spacing further back |
| Formation.ToInt32 | static/js/formation-animations.js:750-758 | The 32-bit conversion lands in [-2^31, 2^31) and is congruent to its input modulo 2^32 |
| Formation.HashFold | static/js/formation-animations.js:750-758 | The hashing loop always holds a 32-bit signed value |
| Formation.HashStepIsTimes31 | static/js/formation-animations.js:753-755 | The shift, subtract, add and mask step is 32-bit multiplication by 31 plus the character code |
| Formation.HashFoldIsTruncatedPoly | static/js/formation-animations.js:750-758 | The loop computes the polynomial hash (base 31) of the string truncated to 32 bits |
| Formation.HashCode | static/js/formation-animations.js:750-758 | The hash is the absolute value of the truncated polynomial hash: at most 2^31, and 0 for the empty string |
| Formation.GatherPolar | static/js/formation-animations.js:635-645 | The gather angle in whole degrees lies in [0,359] and the radius in [50,99], both taken from the unit id's hash |
| Formation.ClampSpeed | static/js/formation-animations.js:844-847 | The speed lies in [0.1,5.0], equals the input inside that range, and is the nearer bound outside it |
| Formation.ClampSpeedIdempotent | static/js/formation-animations.js:844-847 | Clamping a clamped speed changes nothing |
| Formation.EmptyRegistry | static/js/formation-animations.js:7-14 | The initial registry has no groups and no animations, runs at speed 1, and satisfies the registry invariant |
| Formation.AddUnitGroup | static/js/formation-animations.js:802-814 | The group is (re)created as dispersed with frame -1 and no action; every other group is unchanged |
| Formation.CreateFormationAnimation | static/js/formation-animations.js:256-303 | An unknown type or group gives null and no change. Otherwise a transitioning animation with a fresh id is registered, and an incompatible transition still proceeds with compatibility false |
| Formation.DispersedAcceptsAnyFormation | static/js/formation-animations.js:284-292 | A freshly added group starts any formation with compatibility true |
| Formation.ExecuteFrame | static/js/formation-animations.js:490-545 | The registered animation always records the frame. The frame throws exactly when the group is gone, or when it is a "gathering" frame over at least one unit; then the group is unchanged. Otherwise the group shows that frame index and action |
| Formation.OnlyPhalanxGatheringThrows | static/js/formation-animations.js:17-224 | On a present group, the only frame that throws is the phalanx's second keyframe, and only when the group has units |
| Formation.ExecuteFrameKeepsValid | static/js/formation-animations.js:490-509 | A frame keeps the registry invariant, whether or not it throws |
| Formation.CompleteFormationAnimation | static/js/formation-animations.js:761-782 | The group, if still present, adopts the formation and goes idle with frame -1; exactly that animation leaves the registry |
| Formation.CreateThenCompleteAdoptsFormation | static/js/formation-animations.js:761-782 | Creating and then completing an animation leaves the group in the new formation and the animation map as it was |
| Formation.RemoveUnitGroup | static/js/formation-animations.js:817-831 | An unknown id changes nothing; otherwise the group and exactly the animations that belong to it are removed |
| Formation.SetAnimationSpeed | static/js/formation-animations.js:844-847 | Only the speed changes, to the clamped value |
| Formation.StopAllAnimations | static/js/formation-animations.js:850-858 | The animation map is emptied and the groups keep their state |
| Tactical.ParseTactic | static/js/tactical-animations.js:15-278 | A key resolves to exactly the tactic that carries it, and to nothing otherwise |
| Tactical.SequencesWellFormed | static/js/tactical-animations.js:15-278 | Each sequence starts at time 0 with strictly increasing times, and its last step falls at the tactic's duration, when completion is scheduled |
| Tactical.CheckWindDirection | static/js/tactical-animations.js:375-378 | Passes exactly when a wind direction is given and contains "southeast"; a missing or empty value fails |
| Tactical.CheckDryWeather | static/js/tactical-animations.js:381-383 | Passes exactly when the weather contains "clear" or "dry" |
| Tactical.CheckFlatTerrain | static/js/tactical-animations.js:386-388 | Passes exactly when the terrain contains "plain" or "flat" |
| Tactical.CheckOpenTerrain | static/js/tactical-animations.js:401-403 | Passes exactly when the terrain contains "open" or "field" |
| Tactical.CheckEnemyProximity | static/js/tactical-animations.js:391-393 | Passes exactly when a distance is given, is non-zero and is below 200, so a distance of 0 fails |
| Tactical.CheckEnemyEngagement | static/js/tactical-animations.js:396-398 | Passes exactly when the engagement is the string "active" |
| Tactical.CheckLineOfSight | static/js/tactical-animations.js:406-408 | Passes exactly when the line of sight is the string "clear" |
| Tactical.CheckEnemyConcentration | static/js/tactical-animations.js:411-413 | Passes exactly when a concentration is given and is strictly above 0.7 |
| Tactical.CheckRequirement | static/js/tactical-animations.js:323-372 | A requirement name without a case in the switch imposes nothing |
| Tactical.CheckTacticRequirements | static/js/tactical-animations.js:323-372 | The early-exit scan succeeds exactly when every recognised requirement of the list holds |
| Tactical.TacticRequirementsMet | static/js/tactical-animations.js:307 | A tactic is admitted exactly when all of its listed requirements hold |
| Tactical.TacticRequirementsMeaning | static/js/tactical-animations.js:323-372 | Per tactic, the named checks that decide admission; artillery barrage needs none, because its requirement names are unrecognised |
| Tactical.ExecuteTacticalAnimation | static/js/tactical-animations.js:280-320 | An unknown tactic gives null and no change. A tactic whose requirements fail comes back as failed with reason requirements_not_met and is not registered. Otherwise it is registered as executing under a fresh id |
| Tactical.ExecuteTacticalFrame | static/js/tactical-animations.js:421-440 | A frame timer sets the current frame of that run only, and keeps the set of active runs |
| Tactical.CompleteTacticalAnimation | static/js/tactical-animations.js:822-839 | The run is marked completed and exactly that id leaves the active map |
| Tactical.ExecuteThenCompleteRestores | static/js/tactical-animations.js:822-839 | Starting a tactic and then completing it leaves the active map as it was |
| Tactical.StopTacticalAnimation | static/js/tactical-animations.js:887-894 | An unknown id changes nothing; a live id is removed and no other run is touched |
| Tactical.StopAllTacticalAnimations | static/js/tactical-animations.js:897-905 | The active map is emptied |
| Education.PrerequisitesPrecede | static/js/educational-system.js:30-167 | Every prerequisite is declared before its module, so the prerequisite graph is acyclic, and ancient_tactics needs nothing |
| Education.CountCorrect | static/js/educational-system.js:438-442 | The count is the number of true entries of the answer list. It is at most the number of answers, and equals it exactly when all are correct |
| Education.CalculateScore | static/js/educational-system.js:438-442 | An empty answer list gives NaN. Otherwise the score is 100 times the number of correct answers over the number of answers; it lies in [0,100] and is 100 exactly when every answer is correct |
| Education.FractionBounds | static/js/educational-system.js:438-442 | A fraction of correct answers lies in [0,1] and reaches 1 only when the counts agree |
| Education.GetGrade | static/js/educational-system.js:444-450 | A for at least 90, B for [80,90), C for [70,80), D for [60,70), F below 60 or for NaN |
| Education.GradeMonotone | static/js/educational-system.js:444-450 | A higher score never earns a lower grade |
| Education.Evaluate | static/js/educational-system.js:424-436 | The assessment carries the score and its grade, and is completed exactly when the score reaches 70; no answers means not completed, grade F |
| Education.PassIffGoodGrade | static/js/educational-system.js:424-450 | Passing an assessment is the same as earning A, B or C |
| Education.InitialProfile | static/js/educational-system.js:195-214 | A new student has no completed modules or lessons, no current module, and score 0 |
| Education.AllIn | static/js/educational-system.js:245-255 | The front-to-back check succeeds exactly when every needed module is present |
| Education.CheckPrerequisites | static/js/educational-system.js:245-255 | A module is open exactly when all its prerequisites are completed; ancient_tactics is always open |
| Education.EarlierModulesSuffice | static/js/educational-system.js:245-255 | A student who has completed every earlier module may take any module |
| Education.IsModuleComplete | static/js/educational-system.js:375-382 | False without a current module; otherwise true exactly when the recorded lessons, duplicates included, are at least as many as the module has |
| Education.CompleteModule | static/js/educational-system.js:385-390 | The module ends up completed, is appended only if it was not there, and nothing else in the profile changes |
| Education.CompleteModuleKeepsDistinct | static/js/educational-system.js:385-390 | Completing keeps the completed list free of duplicates, and completing the same module twice is the same as once |
| Education.Average | static/js/educational-system.js:358 | The new score is the midpoint of the old and the new; NaN on either side gives NaN |
| Education.UpdateStudentProgress | static/js/educational-system.js:354-372 | The score becomes the average. A passed lesson is appended without de-duplication; a failed one changes nothing else. The module is completed exactly when the lesson count then suffices |
| Education.RepeatedLessonCounts | static/js/educational-system.js:354-382 | Passing the same lesson twice completes a two-lesson module |
| Drawing.Initial | static/js/drawing-system.js:6-23 | The overlay starts with every mode off, no strokes, red colour, weight 5 and full opacity |
| Drawing.SetColor | static/js/drawing-system.js:31-35 | The colour is set and eraser mode is left; nothing else changes |
| Drawing.ToggleEraser | static/js/drawing-system.js:45-57 | Eraser mode flips; entering it turns drawing off, leaving it keeps drawing as it was |
| Drawing.ModesExclusiveAfterToggle | static/js/drawing-system.js:45-113 | After toggling the eraser or enabling drawing, drawing and erasing are never both on |
| Drawing.EnableDrawing | static/js/drawing-system.js:104-113 | Drawing is on and the eraser off; nothing else changes |
| Drawing.DisableDrawing | static/js/drawing-system.js:115-125 | Drawing, eraser and recording are all off; nothing else changes |
| Drawing.RecordPoint | static/js/drawing-system.js:147-167 | The point is appended to the current path and nothing else changes |
| Drawing.StartStroke | static/js/drawing-system.js:127-145 | Recording starts on a fresh overlay with the given point as the only one; strokes and modes are kept |
| Drawing.EndStroke | static/js/drawing-system.js:169-181 | A non-empty path is appended as a stroke with the current style; an empty one adds nothing. Recording and the current overlay are always cleared, the path is not |
| Drawing.EndStrokeTwiceDuplicates | static/js/drawing-system.js:169-181 | Ending a stroke twice records its points twice, the second time without an overlay |
| Drawing.LastHit | static/js/drawing-system.js:202-220 | The index found is the most recent stroke under the click; none is found exactly when no stroke is hit |
| Drawing.EraseAt | static/js/drawing-system.js:183-221 | Erasing touches only the stroke list and keeps every stroke non-empty; a click on no stroke changes nothing |
| Drawing.EraseAtRemovesLastHit | static/js/drawing-system.js:183-221 | A click on some stroke removes exactly the most recent stroke under it, and the other strokes keep their order |
| Drawing.EraseRemovesAtMostOne | static/js/drawing-system.js:183-221 | Erasing removes at most one stroke |
| Drawing.Clear | static/js/drawing-system.js:223-228 | Every recorded stroke is forgotten and nothing else changes |
| Drawing.MouseDown | static/js/drawing-system.js:64-71 | A press erases in eraser mode and starts a stroke while drawing, keeping the state well formed |
| Drawing.MouseMove | static/js/drawing-system.js:73-79 | A move drag-erases with the primary button in eraser mode and records a point while a stroke is open |
| Drawing.MouseUp | static/js/drawing-system.js:81-85 | A release ends the stroke while drawing |
| Drawing.PressDragReleaseRecordsOneStroke | static/js/drawing-system.js:59-102 | A press, a drag and a release in drawing mode add exactly one stroke holding the three points |
| Drawing.Play | static/js/drawing-system.js:230-268 | Playback does nothing while already playing or with nothing recorded; otherwise it starts with every index at 0 and the first point's time as origin |
| Drawing.SimulatedTime | static/js/drawing-system.js:242-276 | The recorded time shown is the first point's time plus the elapsed clock time |
| Drawing.Advance | static/js/drawing-system.js:284-294 | The index moves forward over exactly the leading points already due and stops at the first later one |
| Drawing.Tick | static/js/drawing-system.js:271-307 | A tick outside playback does nothing. Otherwise each index moves forward over the due points and stays within its path, and playback stops exactly when every path is drawn to the end |
| Drawing.LateTickFinishes | static/js/drawing-system.js:271-307 | A tick late enough for every recorded point ends the playback |
| Windows.NewManager | static/js/window-manager.js:6-11 | A new manager, over any page, has no windows and no dock items, its z-index counter starts at 100, and it has written no z-index yet |
| Windows.Find | static/js/window-manager.js:152-173 | The window found is the first registered one with the id; none is found exactly when no window has it |
| Windows.Register | static/js/window-manager.js:106-149 | An id without a page element changes nothing; otherwise exactly one window record is appended, with the given icon or "📦" when none is passed |
| Windows.BringToFront | static/js/window-manager.js:198-201 | The counter rises by one and becomes the element's z-index, above every other z-index the manager has written; z-indexes the page set itself are not compared |
| Windows.FirstFrontIs101 | static/js/window-manager.js:198-201 | On a fresh manager, the first window brought to the front gets z-index 101 |
| Windows.AddToDock | static/js/window-manager.js:184-196 | An id already docked changes nothing; otherwise one item is appended. Either way the id is then docked |
| Windows.Minimize | static/js/window-manager.js:151-157 | An unknown id changes nothing. Otherwise the element is hidden and keeps its other style properties, and every other page element is unchanged. The dock is kept, with the window's item appended unless its id was already docked |
| Windows.Close | static/js/window-manager.js:159-170 | An unknown id changes nothing; otherwise the element is hidden, and the dock never changes |
| Windows.RemoveDockItem | static/js/window-manager.js:178-179 | Only an item with the id can disappear, every other item stays, and without such an item the dock is unchanged |
| Windows.RemoveDockItemClears | static/js/window-manager.js:178-179 | In a dock without repeated ids, removing an id leaves no item with it, and the ids stay distinct |
| Windows.Restore | static/js/window-manager.js:172-182 | An unknown id changes nothing. Otherwise the element is shown and brought to the front, keeping its other style properties, and every other page element is unchanged. No dock item has its id, and the dock items with other ids are kept and no new item appears |
| Windows.MinimizeThenRestore | static/js/window-manager.js:151-182 | Minimising and then restoring a window leaves it shown, undocked and frontmost |
| Windows.ClampEdge | static/js/window-manager.js:265-270 | A dragged edge lies between 0 and the limit (or 0 when the limit is negative) and is unchanged when already inside |
| Windows.DragPosition | static/js/window-manager.js:265-270 | Left stays in [0, max(0, width-100)] and top in [0, max(0, height-50)]; a move that stays inside is taken as is |
| Windows.ResizeDimensions | static/js/window-manager.js:313-321 | Width never falls below 300 nor height below 200; larger sizes are taken as is |
| UnitCatalog.FindInSubcategories | static/js/large-scale-rendering.js:118-122 | The subcategory found holds the key; none is found exactly when no subcategory holds it |
| UnitCatalog.FindInPeriods | static/js/large-scale-rendering.js:112-123 | The location found holds the key in a scanned period; none is found only when no scanned table holds it |
| UnitCatalog.GetUnitTypeData | static/js/large-scale-rendering.js:108-125 | Without the unit tables the lookup is null; otherwise it finds a place of the key, and finds none only when no table holds it |
| UnitCatalog.AllPeriodsScanned | static/js/large-scale-rendering.js:112 | The scan order names every period |
| UnitCatalog.LocationOfIsAt | static/js/unit-system.js:11-605 | The reference location of a key is a place where the tables hold it |
| UnitCatalog.AncientAt | static/js/unit-system.js:11-605 | A key in an ancient subcategory has that place as its reference location |
| UnitCatalog.MedievalAt | static/js/unit-system.js:11-605 | A key in a medieval subcategory has that place as its reference location |
| UnitCatalog.ModernAt | static/js/unit-system.js:11-605 | A key in a modern subcategory has that place as its reference location |
| UnitCatalog.AtIffLocationOf | static/js/unit-system.js:11-605 | A key sits at a location exactly when that is its reference location |
| UnitCatalog.LocationUnique | static/js/unit-system.js:11-605 | No unit key appears in two places of the tables |
| UnitCatalog.GetUnitTypeDataIsLocationOf | static/js/large-scale-rendering.js:108-125 | With the tables loaded, the scanning lookup returns the reference location, so the scan order does not matter |
| LargeScale.UnitId | static/js/large-scale-rendering.js:53-97 | A unit's own non-empty id is kept; otherwise the id is the army name, "_", and the input position. It is never empty |
| LargeScale.BuildUnits | static/js/large-scale-rendering.js:53-102 | The list is no longer than the input, every entry's data is the lookup of its type, and with no known type it is empty |
| LargeScale.UnitTypeLookup | static/js/large-scale-rendering.js:108-125 | The lookup used is `getUnitTypeData` with the tables present or absent |
| LargeScale.CreateArmyUnits | static/js/large-scale-rendering.js:45-103 | Only the named army's list is replaced; it is empty without units or without the tables, and otherwise holds the known-type units in input order |
| LargeScale.BuildUnitsSound | static/js/large-scale-rendering.js:53-102 | Every entry comes from an input unit of known type, built at that unit's input position |
| LargeScale.BuildUnitsComplete | static/js/large-scale-rendering.js:53-102 | Every input unit of known type has its entry in the list |
| LargeScale.DefaultIdsDistinct | static/js/large-scale-rendering.js:53-97 | When no unit brings its own id, the generated ids are pairwise distinct |
| LargeScale.IndexSuffixDiffers | static/js/large-scale-rendering.js:97 | Two generated ids of one army with different positions differ |
| LargeScale.ApplyUnitMovements | static/js/large-scale-rendering.js:213-235 | Only moves for a known army and an index within its list are animated. The loop aborts exactly when a move gets past the army and length tests with a negative or null index or without a destination. Moves for unknown armies are ignored |
| LargeScale.ApplyWithoutThrows | static/js/large-scale-rendering.js:213-235 | When no move that passes the tests throws, exactly the moves with a known army, an index inside its list and a destination are animated, in order |
| LargeScale.ThrowingMoveAborts | static/js/large-scale-rendering.js:224-232 | A null index for a non-empty army, or a valid index without `to`, ends the loop before anything is animated |
| LargeScale.MissingIndexMovesFirst | static/js/large-scale-rendering.js:224 | A move without unit_index, but with a destination, animates the army's first unit |
| LargeScale.ProgressAt | static/js/large-scale-rendering.js:244 | For a positive duration, progress lies in [0,1], reaches 1 exactly when the duration has elapsed, and is the elapsed fraction before that |
| LargeScale.ProgressStops | static/js/large-scale-rendering.js:244-252 | For a positive duration, frames are requested exactly until the duration has elapsed |
| GameBattle.FindPeriod | src/api/game_battle_api.py:82-84 | The period found is the first that holds the id; none is found exactly when no period holds it |
| GameBattle.GetBattleDetails | src/api/game_battle_api.py:77-99 | 404 with "战役 <id> 不存在" exactly when no period holds the id; otherwise the battle of the first period holding it, or 500 with "获取战役详情失败" when that battle has no period field |
| GameBattle.EarlierPeriodWins | src/api/game_battle_api.py:82-91 | When two periods hold the same id, the earlier period's battle is returned |
| GameBattle.FindPeriodIs | src/api/game_battle_api.py:82-84 | The first period holding the id is the one found |
| GameBattle.FetchForAnalysis | src/api/game_battle_api.py:118-138 | The analysis handler sees the same battle as the details lookup and turns every failure into 500 with "战术分析失败" |
| GameBattle.GetUnitsByPeriod | src/api/game_battle_api.py:101-116 | Only ancient, medieval and modern are accepted, others get 400 with "不支持的历史时期: <period>"; the answer is the `<period>_units` entry, or the empty object when absent |
| GameBattle.UnitsAlwaysEmpty | src/api/game_battle_api.py:41-51 | With the units data the API loads, every accepted period answers with the empty object |
| GameBattle.GetGameInfo | src/api/game_battle_api.py:279-310 | Difficulty is always medium with historical AI; a known period gets exactly three special rules, any other period none |
| GameBattle.RulesPerPeriodDisjoint | src/api/game_battle_api.py:290-308 | No special rule belongs to two periods |
| GameBattle.ExtractKeyTactics | src/api/game_battle_api.py:336-341 | The result is exactly the set of tactics used by some participant |
| GameBattle.Classify | src/api/game_battle_api.py:380-405 | Offensive exactly when the name contains charge, assault or attack; otherwise defensive exactly when it contains defense, shield or wall |
| GameBattle.UsesOf | src/api/game_battle_api.py:391-393 | Each of a participant's tactics is paired with the participant's name, in order |
| GameBattle.OfKind | src/api/game_battle_api.py:380-405 | The uses of a kind are exactly the uses whose tactic is classified that way |
| GameBattle.Partition | src/api/game_battle_api.py:391-403 | The classifying pass puts each use into at most one list |
| GameBattle.PartitionIsFilter | src/api/game_battle_api.py:391-403 | The single pass fills the offensive list with exactly the offensive uses and the defensive list with exactly the defensive ones, in order |
| GameBattle.AnalyzeTacticalElements | src/api/game_battle_api.py:380-405 | Offensive and defensive uses in order, never both for one use; the innovative and success lists stay empty |
| GameBattle.AddTo | src/api/game_battle_api.py:349-351 | The value at the formation rises by the count and every other value stays. A new formation is appended at the end, an existing one keeps its place, and the total rises by the count |
| GameBattle.CountFormations | src/api/game_battle_api.py:345-351 | The counting loop never creates a duplicate formation key |
| GameBattle.CountFormationsSums | src/api/game_battle_api.py:345-351 | Counting adds exactly the unit counts to the total and exactly the formations used to the keys |
| GameBattle.CountFormationsValues | src/api/game_battle_api.py:345-351 | Counting adds to each formation exactly the counts of the unit types that use it |
| GameBattle.CountFormationsOrder | src/api/game_battle_api.py:345-351 | Counting appends each formation at its first use and never reorders the keys |
| GameBattle.AnalyzeFormations | src/api/game_battle_api.py:343-352 | One entry per formation used, "default" standing for a missing formation, in order of first use. Each value is the sum of the counts of the unit types with that formation, a missing count being 0 |
| GameBattle.ExtractKeyMoments | src/api/game_battle_api.py:431-437 | One description per decisive manoeuvre, retreat or victory event, "" when missing, in timeline order: the key event at index i gives the moment at the position that counts the key events before i |
| GameBattle.NoKeyEventsNoMoments | src/api/game_battle_api.py:431-437 | A timeline without key events yields no moments |
| GameBattle.AnalyzeTerrainImpact | src/api/game_battle_api.py:354-378 | The four known terrains give three advantages and two disadvantages; any other or missing terrain gives two empty lists |
| GameBattle.ParticleEffects | src/api/game_battle_api.py:439-454 | Fire is very high and smoke high exactly when the name contains 火 or, ignoring case, "fire"; otherwise high and medium. Explosions are medium and dust low |
| GameBattle.FireSwitchIgnoresCase | src/api/game_battle_api.py:451 | If a name's lower-cased form is fire-named, so is the name itself |
| GameBattle.ModifyParticipant | src/api/game_battle_api.py:505-510 | A participant whose force id has changes gets each listed unit count overwritten and keeps the others; other participants keep their composition |
| GameBattle.ModifyEvent | src/api/game_battle_api.py:513-516 | The event's weather becomes the new value; an event without effects fails |
| GameBattle.ModifyTimeline | src/api/game_battle_api.py:513-516 | The timeline is rewritten event by event, and fails exactly when some event has no effects |
| GameBattle.WriteWeather | src/api/game_battle_api.py:513-516 | Run in place, the weather loop rewrites the events before the first one without effects and leaves that one and the later ones as they were; when it finishes, it agrees with the rewrite of the whole timeline |
| GameBattle.ApplyScenarioModifications | src/api/game_battle_api.py:500-518 | Without changes the battle is returned as is. Participants change only through their force ids. Every event takes the named weather, or the timeline is kept when no weather is named. Name, period and terrain are kept. Failure, reported as 500 with "战役模拟失败", happens exactly when a weather is named and some event has no effects |
| GameBattle.WrittenBattle | src/api/game_battle_api.py:500-518 | The battle as the in-place writes leave it: every participant change, then the weather up to the first event without effects; when the modifications succeed, it is their result |
| GameBattle.SimulateAsWritten | src/api/game_battle_api.py:500-518 | With the shallow copy, the stored battle afterwards holds every change written before the outcome was decided, also when the weather loop fails; on success a later lookup returns the modified battle |
| GameBattle.SimulationLeaksIntoStore | src/api/game_battle_api.py:502-510 | A simulation raising one unit count leaves the raised count in the stored battle |
| GameBattle.FailedSimulationLeaksIntoStore | src/api/game_battle_api.py:502-516 | A simulation that fails on an event without effects still leaves its raised unit count in the stored battle |
| GameBattle.Simulate | src/api/game_battle_api.py:256-275 | The corrected simulation leaves the store unchanged and succeeds exactly when the lookup and the modifications succeed; every failure is 500 with "战役模拟失败" |
| GameBattle.SimulateKeepsLookups | src/api/game_battle_api.py:256-275 | After the corrected simulation, every battle lookup answers as before |
| Dynasty.GetDynasty | src/api/dynasty_api.py:45-48 | The first dynasty with the id is returned; 404 with "朝代 '<id>' 未找到" exactly when there is none |
| Dynasty.EmptyModernNameMatchesAll | src/api/dynasty_api.py:176-187 | A city whose modern name is empty or absent matches every query |
| Dynasty.EmptyQueryMatchesAll | src/api/dynasty_api.py:176-187 | An empty stripped query matches every city |
| Dynasty.CityHits | src/api/dynasty_api.py:176-199 | The search fails exactly when a matching city has no modern name. Otherwise every hit is the entry of a matching city (its name, modern name, and the dynasty's name, id and period), every matching city yields its entry, and there is one hit per matching city |
| Dynasty.CityHitsInOrder | src/api/dynasty_api.py:180-199 | The entry of the i-th city, when it matches, is at the position given by the number of matching cities before it, so hits follow city order |
| Dynasty.AllCityHits | src/api/dynasty_api.py:175-199 | The loop over all dynasties fails exactly when some dynasty's matching city has no modern name. Otherwise every hit is the entry of a matching city of some dynasty, every matching city of every dynasty yields its entry, and the number of hits is the number of matching cities |
| Dynasty.AllCityHitsInOrder | src/api/dynasty_api.py:179-199 | The entry of city j of dynasty i sits after the hits of all earlier dynasties and of the earlier cities of dynasty i, so hits follow dynasty-then-city order |
| Dynasty.Dedup | src/api/dynasty_api.py:201-215 | The kept hits have distinct names, each is the first hit of its name, they keep the order of their first occurrences, and together they cover every name found |
| Dynasty.SearchHistoricalCity | src/api/dynasty_api.py:154-221 | On success the results have distinct names, each the first hit of its name in dynasty and city order, kept in that order; every matching city's name appears among them and each result is the entry of a matching city; the count is their number. Otherwise 500 with "服务器内部错误: 'modernName'", the text of the `KeyError` |
| Dynasty.MissingModernNameFailsEverySearch | src/api/dynasty_api.py:176-199 | A city without a modern name anywhere in the data makes every city search fail |
| Dynasty.DynastyHits | src/api/dynasty_api.py:320-331 | Exactly the matching dynasties are reported, with their id, name and period |
| Dynasty.QuickSearch | src/api/dynasty_api.py:293-362 | A stripped query shorter than 2 returns empty lists and total 0; otherwise the matching dynasties and cities, with the total their sum |
| Dynasty.QuickSearchCityTerm | src/api/dynasty_api.py:315-348 | The city part of the quick search is the city search for the stripped query |
| Dynasty.Insert | src/api/dynasty_api.py:245 | Insertion adds exactly the one event |
| Dynasty.InsertSorted | src/api/dynasty_api.py:245 | Inserting into a year-sorted list keeps it sorted |
| Dynasty.SortByYear | src/api/dynasty_api.py:245 | The result is sorted by year and is a permutation of the input |
| Dynasty.SortKeepsDates | src/api/dynasty_api.py:245 | Sorting dated events yields dated events |
| Dynasty.GetHistoricalEvents | src/api/dynasty_api.py:223-262 | An unknown dynasty gives its 404. Otherwise the answer succeeds exactly when every event has a year, and is then a year-sorted permutation with the count equal to its length; an undated event gives 500 with "服务器内部错误: 'year'" |
| KnowledgeBase.Lookup | src/ai_agent/military_knowledge_base.py:83 | A key maps to a stored record, and to none exactly when it is absent |
| KnowledgeBase.Put | src/ai_agent/military_knowledge_base.py:83 | A store without repeated keys keeps that property; a new key is appended, an existing key keeps its position |
| KnowledgeBase.PutLookup | src/ai_agent/military_knowledge_base.py:83 | After storing, the key answers with the new record and every other key as before |
| KnowledgeBase.LookupIsToMap | src/ai_agent/military_knowledge_base.py:83 | The ordered store answers lookups like the map it represents |
| KnowledgeBase.PutIsUpdate | src/ai_agent/military_knowledge_base.py:83 | Storing is a map update of the represented map |
| KnowledgeBase.Iterate | src/ai_agent/military_knowledge_base.py:70 | A list yields its items, an object its keys, a string its characters; other values cannot be iterated |
| KnowledgeBase.NameOf | src/ai_agent/military_knowledge_base.py:73-83 | A missing name is "", a string name is itself, and any other name aborts the load |
| KnowledgeBase.Insert | src/ai_agent/military_knowledge_base.py:70-87 | The loaded store has no repeated keys and each key is its record's lower-cased name; figures never get an empty key |
| KnowledgeBase.Load | src/ai_agent/military_knowledge_base.py:43-91 | A missing file loads nothing. Any load gives distinct keys, each the lower-cased name of its record, and no figure is keyed by "" |
| KnowledgeBase.InsertIsUpdates | src/ai_agent/military_knowledge_base.py:70-83 | The loading loop is the sequence of map updates, one per named object entry |
| KnowledgeBase.LaterDuplicateReplaces | src/ai_agent/military_knowledge_base.py:83 | Of two entries with the same lower-cased name, the later one is kept |
| KnowledgeBase.NonObjectsSkipped | src/ai_agent/military_knowledge_base.py:71 | Entries that are not objects contribute nothing |
| KnowledgeBase.PrimaryKeyWins | src/ai_agent/military_knowledge_base.py:57-62 | A document with both "major_battles" and "battles" loads from the first |
| KnowledgeBase.NonArrayListLoadsNothing | src/ai_agent/military_knowledge_base.py:59-71 | A list field that holds an object or a string yields no records |
| KnowledgeBase.SingleObjectIsOneEntry | src/ai_agent/military_knowledge_base.py:63-64 | An object with neither list key is loaded as one record |
| KnowledgeBase.ScalarLoadsNothing | src/ai_agent/military_knowledge_base.py:67-68 | A document that is neither object nor list loads nothing |
| KnowledgeBase.SearchIndex | src/ai_agent/military_knowledge_base.py:181-203 | The entry found is the first in insertion order that matches the lower-cased query; none is found exactly when no entry matches |
| KnowledgeBase.Search | src/ai_agent/military_knowledge_base.py:181-203 | The search fails exactly when no entry's key or name contains the lower-cased query; otherwise it returns the record of the first entry in insertion order that matches |
| KnowledgeBase.StoredNameIsFound | src/ai_agent/military_knowledge_base.py:181-203 | In a loaded store, searching for a stored name finds an entry |
| KnowledgeBase.SearchHitContainsQuery | src/ai_agent/military_knowledge_base.py:181-203 | In a loaded store, the key of the entry found contains the lower-cased query |
| KnowledgeBase.EmptyQueryFindsFirst | src/ai_agent/military_knowledge_base.py:181-203 | An empty query finds the first stored entry |
| KnowledgeBase.Strings | src/ai_agent/military_knowledge_base.py:214-220 | The items are all strings exactly when the join can proceed |
| KnowledgeBase.JoinField | src/ai_agent/military_knowledge_base.py:214-220 | A missing list field joins to ""; a null field fails |
| KnowledgeBase.NotFoundMessage | src/ai_agent/military_knowledge_base.py:209 | The error message names the battle asked for |
| KnowledgeBase.GetBattleAnalysis | src/ai_agent/military_knowledge_base.py:205-221 | An error exactly when the search fails. Otherwise the record's name and its date, location, outcome and significance (each "" when missing) and casualties ({} when missing), with participants, tactics and sources joined by ", ", and a failure exactly when one of them cannot be joined |
| KnowledgeBase.TwoParticipantsJoin | src/ai_agent/military_knowledge_base.py:214 | Two participants are reported as "A, B" |
| Deduction.StripFences | src/api/deduction_api.py:84-90 | The cleaned text is a substring of the input, at most 10 characters shorter, and unchanged when the input neither starts nor ends with a fence |
| Deduction.JsonFenceRoundTrip | src/api/deduction_api.py:84-90 | A body in a "```json" fence comes back unwrapped |
| Deduction.BareFenceRoundTrip | src/api/deduction_api.py:84-90 | A body in a bare fence comes back unwrapped, unless it begins with "json" |
| Deduction.PromptOf | src/api/deduction_api.py:24-25 | An undecodable body or a non-object body cannot give a prompt; a missing prompt is "" |
| Deduction.GetMockDeduction | src/api/deduction_api.py:103-205 | The demonstration's title contains the query; it is set at (113.9, 29.8) with zoom 11 and has 12 steps |
| Deduction.MockStepsNumbered | src/api/deduction_api.py:113-196 | The demonstration's steps are labelled 阶段 1 to 阶段 12, in order |
| Deduction.SimulateBattle | src/api/deduction_api.py:17-101 | A blank prompt gets the error before any model call. A parsable cleaned reply is returned; a failed call or an unparsable reply gets the demonstration for the stripped prompt; a prompt that cannot be read gives 500 |
| Deduction.BlankPromptIgnoresModel | src/api/deduction_api.py:27-28 | A blank prompt is answered the same whatever the model would reply |
| Deduction.FencedReplyParsed | src/api/deduction_api.py:84-94 | A reply fenced as JSON is parsed from the text inside the fence |
| ImageGeneration.SafePrompt | src/ai_agent/image_generation_service.py:44 | The text put into the URL contains neither ' ' nor ':' |
| ImageGeneration.Generate | src/ai_agent/image_generation_service.py:22-48 | A blank prompt raises ValueError; otherwise mock mode gives the placeholder prefix followed by text without ' ' or ':', and real mode raises NotImplementedError |
| ImageGeneration.BlankPromptRefused | src/ai_agent/image_generation_service.py:39-40 | A white-space-only prompt is refused in either mode |
| ImageGeneration.DefaultModeYieldsUrl | src/ai_agent/image_generation_service.py:20-45 | With the default mode every non-blank prompt yields a URL |
| ImageGeneration.StyleAndSizeIgnored | src/ai_agent/image_generation_service.py:22-48 | Style and size do not affect the result |
| ImageGeneration.PlainPromptVerbatim | src/ai_agent/image_generation_service.py:42-45 | A trimmed prompt without spaces or colons appears in the URL unchanged |
| ImageGeneration.GenerateDecodes | src/ai_agent/image_generation_service.py:42-45 | For a prompt without '%', reading every "%20" of the URL text back as a space gives the trimmed prompt with its colons deleted |
| BattleApi.Normalize | src/api/battle_api.py:19 | The cache key contains no space and no ASCII upper-case letter |
| BattleApi.ValidateResponse | src/api/battle_api.py:11-17 | The `BattleResponse` model accepts a document exactly when it is an object whose metadata and terrain are objects and whose forces and timeline are lists of objects; the answer then holds exactly those four fields in declared order with the document's values, and a rejected document is a 500 |
| BattleApi.ValidatedConforms | src/api/battle_api.py:11-17 | A validated answer is itself accepted and validates to itself |
| BattleApi.ExtraKeysDropped | src/api/battle_api.py:11-17 | Keys other than the four declared ones change neither the verdict nor the answer |
| BattleApi.Serve | src/api/battle_api.py:17-24 | A cached sample is answered as it is; a cached document is answered with its validated projection, or 500 when it does not fit the model |
| BattleApi.GetBattleData | src/api/battle_api.py:17-80 | A cached key answers through the response model and leaves the cache as it was. Otherwise the sample is returned and cached exactly when the name selects it, and 404 is returned exactly when it does not. The only other error is the 500 of a failed validation. Other cache entries are kept |
| BattleApi.MissingFieldIs500 | src/api/battle_api.py:11-24 | A cached empty object, lacking the declared fields, is answered with 500 |
| BattleApi.RepeatRequestSameAnswer | src/api/battle_api.py:17-80 | Asking again gives the same answer and leaves the cache as the first request left it |
| BattleApi.PlainNameIsKey | src/api/battle_api.py:19 | A name without upper-case letters, spaces or "之战" is its own key |
| BattleApi.NormalizeNotIdempotent | src/api/battle_api.py:19 | "之之战战" normalises to "之战" and then to "", so normalising is not idempotent |
| BattleApi.RedCliffsChineseName | src/api/battle_api.py:19-78 | "赤壁之战" with an empty cache selects the sample and caches it under "赤壁" |

## Left out

- Audio synthesis (static/js/audio-system.js:418-614), the Web Audio node graph, fades, looping sounds and the random sample data: floating point synthesis and timing with no control logic.
- Audio.BattleSequence: `sequences` is an object literal (static/js/audio-system.js:814-830), so a name inherited from `Object.prototype` passes the truthiness test at :832. For "__proto__", the call at :833 throws a `TypeError`, because the prototype object is not a function; "__defineGetter__" and "__defineSetter__" throw too when called without arguments. The model plays nothing for every name outside the table.
- Audio.PlayMusic: the fade-in ramp after `playSound` is not modelled.
- Audio.Loaded: the engine set-up (`AudioContext` creation and its failure path) is folded into one state; for the play helpers an engine without a context is the `initialized == false` state.
- Audio.SetVolume: the source throws a `TypeError` while `soundGroups` does not exist yet (before set-up reaches it, or after `AudioContext` creation fails), and for a name inherited from `Object.prototype` such as "constructor", whose `gainNode` is undefined. The model treats the groups as always present and such names as unknown.
- Audio.SetMasterVolume: its four `setVolume` calls throw the same `TypeError` while `soundGroups` does not exist; the model always updates the mix.
- All Cesium, AMap, canvas and DOM rendering: particle systems, entities, dialogs and event wiring. Only the state each handler writes is modelled.
- Ids made from `Date.now()` or `Math.random()` are modelled as a counter in the state record, so they are fresh by construction.
- Timers and `requestAnimationFrame` are explicit events the caller applies, and their order is up to the caller.
- Tactical frame dispatchers (`executeFireAttackFrame` and the others) call methods the file does not define; only the frame index they record is modelled.
- Education: `completeCurrentModule` and `assessStudentPerformance` go on to call undefined methods and throw after their state update. Only the state update is modelled. `startLearningModule` and `startLesson` are DOM-driven and are not modelled.
- Formation.IsFormationCompatible: `transitionRules` is a plain object (static/js/formation-animations.js:227), so a `from` name inherited from `Object.prototype`, such as "constructor", finds a truthy rule without a `compatible` list, and the call at :310 throws a TypeError. The model returns true for every name outside the table. Within the module the argument is a group's current formation, which starts as "dispersed" and later holds a type that passed the guard of createFormationAnimation.
- Formation.CreateFormationAnimation: a plain-object lookup also sees names inherited from `Object.prototype`. For a type such as "constructor", the guard at static/js/formation-animations.js:257 passes and the call rejects later, at :325. The model returns null with no change for every name outside the table.
- Formation.FormationOffset: takes the unit's index as a natural number. Its only caller (static/js/formation-animations.js:551) passes `unit.id`, the same value :537 hashes as a string. JavaScript turns such an id into a number only when it is numeric text; any other id makes `unitIndex / cols` and `unitIndex % cols` NaN (:657-658), and so both offsets. The model covers only ids that convert to a non-negative integer.
- Formation.HashCode: `charCodeAt` folds UTF-16 code units, while a Dafny string holds Unicode scalar values. An id holding a character above U+FFFF therefore hashes differently, and so does its `Formation.GatherPolar` offset.
- Tactical.ExecuteTacticalAnimation: for a tactic name inherited from `Object.prototype`, such as "constructor", the source passes the guard at static/js/tactical-animations.js:282 and registers an executing run at :316. It then rejects at :422, and the run stays in the active map. The model returns null with no change for every name outside the table.
- UnitCatalog.GetUnitTypeData: an inherited name such as "constructor" is truthy in every subcategory object, so the source returns the `Object` function. The model finds only the table's own keys and returns none.
- LargeScale.CreateArmyUnits: a unit whose type is an inherited name such as "constructor" passes the lookup and then throws at static/js/large-scale-rendering.js:71, leaving only the earlier units. The model skips that unit and goes on.
- LargeScale.ApplyUnitMovements: a move for the army "constructor" finds a function of length 1, and `undefined.entity` aborts the loop. The model ignores a move for any army outside the map.
- Education: `startLearningModule` calls `.get` on `learningModules`, which the constructor has replaced by a plain object (static/js/educational-system.js:22, :218). So it throws before setting the current module at :232-233, and in the running program the module-completed branch of `IsModuleComplete` and `UpdateStudentProgress` is never reached. The model keeps that branch as written.
- Drawing.Tick: the canvas drawing of each segment is left out; only the index stepping and the end of playback are modelled.
- Drawing.EraseAt: the geometric hit test of a click against a polyline is a parameter (the set of overlays under the click).
- Windows.DragPosition and Windows.ResizeDimensions: mouse event wiring is left out; only the clamps are modelled.
- LargeScale.CreateArmyUnits: a unit without a position raises a `TypeError` in the source; the model takes positions as given.
- LargeScale.ApplyUnitMovements: a non-integer `unit_index` is not modelled; indices are integers. A `to` that is present is taken as a longitude and latitude pair; a `to` object without `lon` or `lat` is not represented.
- LargeScale.ProgressAt: `Date.now()` is the `elapsed` parameter, and the linear interpolation (`Cartesian3.lerp`) of the entity's position is left out.
- UnitCatalog: the unit tables keep only their keys per subcategory; the unit statistics are not part of the model.
- GameBattle: the derived fields `get_battle_details` writes into the record (`game_info`, effect configuration), `generate_battle_simulation` and the other canned analysis texts are left out; they are fixed tables with no branching.
- GameBattle.ApplyScenarioModifications: the source also raises `KeyError` for a battle without "participants" (src/api/game_battle_api.py:507), and for a participant without "force_id" (:509). It raises again for a matching participant without "composition" (:510). A `weather_changes` that is not a dict is tested with `in` as whatever type it is (:515-516). The typed records always carry these fields, and the weather changes are always a map.
- GameBattle.AnalyzeFormations: an absent key and a JSON `null` are one case in the model, because `UnitType` holds its fields as `Option`s. In the source, `"formation": null` counts under the key `None` rather than "default" (src/api/game_battle_api.py:348). `"count": null` raises a `TypeError` at :351, which the analysis handler reports as 500, where the model adds 0.
- GameBattle.ExtractKeyMoments: likewise a key event with `"description": null` contributes `None` to the moments in the source (src/api/game_battle_api.py:436), where the model contributes "".
- GameBattle.GetGameInfo: a battle without `historical_period` raises `KeyError` in the source; the model takes the period as given.
- Dynasty.SortByYear: Python's sort is stable; the model proves sortedness and permutation but not stability.
- Dynasty: a dynasty or city entry missing a read key raises in the source. This covers the dynasty's `id`, `name` and `period`, and a matching city's `position`, `type` and `importance`. In the model, records always carry those fields, and `position`, `type` and `importance` are not part of a hit.
- Dynasty: Python's `str.lower()` folds every cased character; the model lower-cases ASCII letters only, so the case-insensitive matches ignore the case of other scripts.
- KnowledgeBase: keys and queries are lower-cased ASCII-only in the model, unlike Python's `str.lower()`, so names differing only in non-ASCII case give different keys.
- BattleApi.Normalize: lower-casing is ASCII-only, so a battle name with non-ASCII upper-case letters keeps them in the cache key.
- GameBattle.ParticleEffects: the "fire" test lower-cases ASCII only, so a name with a non-ASCII letter that Python lower-cases differently may switch differently.
- KnowledgeBase.GetBattleAnalysis: `str(casualties)` is not rendered; the raw JSON value is kept.
- KnowledgeBase: `get_weapon_evolution` and the statistics helpers are not modelled; JSON objects are taken with duplicate keys already merged by the parser.
- Deduction: the language-model call and `json.loads` are parameters. The mock's step descriptions, actions and unit lists are left out; only its step labels, title, location and zoom are modelled.
- ImageGeneration: the real image service and src/api/image_api.py, a thin wrapper, are not modelled; the real path raises `NotImplementedError`.
- BattleApi: the cache directory is a map from normalised name to document; paths, file I/O and JSON round-tripping of the sample are left out. A cache file that is not valid JSON, which makes `json.load` raise, is not represented: the cache holds parsed documents.
- BattleApi.ValidateResponse: follows pydantic 2, whose `Dict` field accepts only an object. The repository pins no pydantic version, and pydantic 1 would also coerce some other values into a dict, such as a list of key-value pairs.
- Network and language-model clients, application wiring and the canned analysers (model_service, video_generation_service, llm_api, multimodal_api, diagnostic_key, main, battle_analyzer, weapon_analyzer, geopolitical_analyzer) are not part of this model.
- static/js/weather-environment.js only toggles the renderer's fog and is not modelled.

## Findings

| source | as written | input that shows it | evidently intended | confidence | as-written member | corrected member |
|---|---|---|---|---|---|---|
| static/js/audio-system.js:675 | `createSound` stores a second, freshly created panner on the voice instead of the panner wired into the graph, so `updateSoundPosition` moves a node nobody hears | play a positioned sound at (1,2,3), then move it to (4,5,6): it is still heard from (1,2,3) | the voice keeps the routed panner, and position updates move the sound | not executed | Audio.UpdateSoundPositionCounterexample | Audio.UpdateSoundPositionRouted |
| src/api/game_battle_api.py:502 | `battle_data.copy()` is shallow, so the participants' composition dicts are shared with the stored battle and a simulation rewrites the stored data | simulate with `unit_modifications = {"wei": {"infantry": 1000}}` on a battle whose participant "wei" has an empty composition: the stored battle now has infantry 1000 | a simulation leaves the stored battle as it was | not executed | GameBattle.SimulationLeaksIntoStore | GameBattle.SimulateKeepsLookups |

=== FILE: audio.dfy ===
/**
  Control logic of the procedural audio engine (static/js/audio-system.js): the buffer
  cache keyed `"<group>_<name>"`, the four mix groups and their clamped volumes, the
  mute flag, and the registry of active voices. Sample synthesis, the Web Audio graph
  and the fade ramps are outside the model; the host's natural-end notification is an
  explicit event.
 */
module Audio {
  import opened Wrappers

  /** The four mix groups created at initialisation. */
  datatype Group = Ambient | Effects | Music | Tactical

  function GroupName(g: Group): string {
    match g
    case Ambient => "ambient"
    case Effects => "effects"
    case Music => "music"
    case Tactical => "tactical"
  }

  /** Looks a group up by the name a caller passes (`this.soundGroups[name]`). */
  function ParseGroup(name: string): (r: Option<Group>)
    ensures r.Some? ==> GroupName(r.value) == name
    ensures forall g: Group :: name == GroupName(g) ==> r == Some(g)
  {
    if name == "ambient" then Some(Ambient)
    else if name == "effects" then Some(Effects)
    else if name == "music" then Some(Music)
    else if name == "tactical" then Some(Tactical)
    else None
  }

  /** The constructor's fixed per-category volumes; `tactical` is the literal 0.8. */
  function DefaultVolume(g: Group): real {
    match g
    case Ambient => 0.3
    case Effects => 0.7
    case Music => 0.5
    case Tactical => 0.8
  }

  /** `Math.max(0, Math.min(1, v))`. */
  function Clamp01(v: real): (r: real)
    ensures 0.0 <= r <= 1.0
    ensures 0.0 <= v <= 1.0 ==> r == v
    ensures v < 0.0 ==> r == 0.0
    ensures v > 1.0 ==> r == 1.0
  {
    if v < 0.0 then 0.0 else if v > 1.0 then 1.0 else v
  }

  // ---------------------------------------------------------------- catalog

  /** The sound names preloaded for each group, in declaration order. */
  function CatalogNames(g: Group): seq<string> {
    match g
    case Ambient =>
      ["wind_gentle", "wind_strong", "rain_light", "rain_heavy", "thunder", "fire_crackling", "forest_ambience"]
    case Effects =>
      ["sword_clash", "arrow_whistle", "cavalry_charge", "explosion", "battle_cry", "siege_impact", "fire_attack"]
    case Tactical =>
      ["footsteps", "shield_bump", "spear_thrust", "bow_release", "cavalry_hooves", "formation_move"]
    case Music =>
      ["ancient_theme", "medieval_theme", "battle_theme", "victory_theme", "tactical_theme"]
  }

  /** The buffer-cache key of a sound: `"<group>_<name>"`. */
  function BufferKey(g: Group, name: string): string {
    GroupName(g) + "_" + name
  }

  /** Distinct (group, name) pairs never share a cache key: the group names differ in their first letter. */
  lemma BufferKeyInjective(g1: Group, n1: string, g2: Group, n2: string)
    requires BufferKey(g1, n1) == BufferKey(g2, n2)
    ensures g1 == g2 && n1 == n2
  {
    assert BufferKey(g1, n1)[0] == GroupName(g1)[0];
    assert BufferKey(g2, n2)[0] == GroupName(g2)[0];
    assert g1 == g2;
    var p := |GroupName(g1) + "_"|;
    assert BufferKey(g1, n1)[p..] == n1;
    assert BufferKey(g2, n2)[p..] == n2;
  }

  function KeysOf(g: Group): set<string> {
    set n | n in CatalogNames(g) :: BufferKey(g, n)
  }

  /** Every key `preloadSounds` stores once the engine has a context. */
  function CatalogKeys(): set<string> {
    KeysOf(Ambient) + KeysOf(Effects) + KeysOf(Tactical) + KeysOf(Music)
  }

  // ---------------------------------------------------------------- state

  datatype Position = Position(x: real, y: real, z: real)

  /** A freshly created panner node sits at the origin. */
  const Origin := Position(0.0, 0.0, 0.0)

  /** A mix group: the stored `baseVolume` and the value of its gain node. */
  datatype MixGroup = MixGroup(baseVolume: real, gain: real)

  datatype Mix = Mix(ambient: MixGroup, effects: MixGroup, music: MixGroup, tactical: MixGroup) {
    function Get(g: Group): MixGroup {
      match g
      case Ambient => ambient
      case Effects => effects
      case Music => music
      case Tactical => tactical
    }

    function Set(g: Group, m: MixGroup): (r: Mix)
      ensures r.Get(g) == m
      ensures forall h :: h != g ==> r.Get(h) == Get(h)
    {
      match g
      case Ambient => this.(ambient := m)
      case Effects => this.(effects := m)
      case Music => this.(music := m)
      case Tactical => this.(tactical := m)
    }
  }

  /** `options` of `playSound`: a group name, a volume and a 3D position, each optional. */
  datatype PlayOptions = PlayOptions(group: Option<string>, volume: Option<real>, position: Option<Position>)

  /**
    One active voice. `routed` is the panner wired between source and gain;
    `handle` is the panner object stored on the voice for later position updates.
   */
  datatype Voice = Voice(key: string, group: Group, gain: real, routed: Option<Position>, handle: Option<Position>)

  type VoiceId = nat

  datatype Engine = Engine(
    initialized: bool,
    muted: bool,
    buffers: set<string>,
    mix: Mix,
    master: Option<real>,
    voices: map<VoiceId, Voice>,
    nextId: VoiceId)
  {
    /** Every registered id was handed out by the fresh-id supply. */
    ghost predicate Valid() {
      forall id :: id in voices ==> id < nextId
    }
  }

  /** The engine once `setupAudioContext` has finished: all groups at their defaults, every catalog buffer cached. */
  function Loaded(): (e: Engine)
    ensures e.Valid() && e.initialized && !e.muted && e.voices == map[]
    ensures e.buffers == CatalogKeys()
    ensures forall g :: e.mix.Get(g).baseVolume == DefaultVolume(g) && e.mix.Get(g).gain == 1.0
  {
    var mix := Mix(MixGroup(0.3, 1.0), MixGroup(0.7, 1.0), MixGroup(0.5, 1.0), MixGroup(0.8, 1.0));
    DefaultMix(mix);
    Engine(true, false, CatalogKeys(), mix, None, map[], 0)
  }

  /** The constructor's mix holds every group at its default volume with unit gain. */
  lemma DefaultMix(mix: Mix)
    requires mix == Mix(MixGroup(0.3, 1.0), MixGroup(0.7, 1.0), MixGroup(0.5, 1.0), MixGroup(0.8, 1.0))
    ensures forall g :: mix.Get(g) == MixGroup(DefaultVolume(g), 1.0)
  {
    forall g ensures mix.Get(g) == MixGroup(DefaultVolume(g), 1.0) {
      match g
      case Ambient =>
      case Effects =>
      case Music =>
      case Tactical =>
    }
  }

  // ---------------------------------------------------------------- playback

  /** `options.group || 'effects'`: a missing or empty name selects `effects`; an unknown name has no group. */
  function ResolveGroup(group: Option<string>): (r: Option<Group>)
    ensures group == None || group == Some("") ==> r == Some(Effects)
    ensures group.Some? && group.value != "" ==> r == ParseGroup(group.value)
  {
    match group
    case None => Some(Effects)
    case Some(name) => if name == "" then Some(Effects) else ParseGroup(name)
  }

  /** `createSound` for a resolved group. */
  function MakeVoice(key: string, g: Group, opts: PlayOptions): (v: Voice)
    ensures v.key == key && v.group == g
    ensures opts.volume.Some? && opts.volume.value != 0.0 ==> v.gain == opts.volume.value
    ensures opts.volume == None || opts.volume == Some(0.0) ==> v.gain == 1.0
    ensures v.routed == opts.position
    ensures v.handle.Some? <==> opts.position.Some?
    ensures v.handle.Some? ==> v.handle.value == Origin
  {
    var gain := match opts.volume
      case Some(x) => if x != 0.0 then x else 1.0
      case None => 1.0;
    Voice(key, g, gain, opts.position, if opts.position.Some? then Some(Origin) else None)
  }

  /** What `playSound` hands back: nothing, a fresh voice id, or a thrown `TypeError`. */
  datatype PlayResult = NoVoice | Started(id: VoiceId) | Threw

  /** `playSound(name, options)`. */
  function PlaySound(e: Engine, name: string, opts: PlayOptions): (out: (Engine, PlayResult))
    requires e.Valid()
    ensures out.0.Valid()
    ensures !e.initialized || e.muted ==> out == (e, NoVoice)
    ensures name !in e.buffers ==> out == (e, NoVoice)
    ensures out.1.Started? <==> e.initialized && !e.muted && name in e.buffers && ResolveGroup(opts.group).Some?
    ensures out.1.Threw? <==> e.initialized && !e.muted && name in e.buffers && ResolveGroup(opts.group).None?
    ensures !out.1.Started? ==> out.0 == e
    ensures out.1.Started? ==>
      && out.1.id !in e.voices
      && out.0.voices == e.voices[out.1.id := MakeVoice(name, ResolveGroup(opts.group).value, opts)]
      && out.0 == e.(voices := out.0.voices, nextId := out.0.nextId)
  {
    if !e.initialized || e.muted then (e, NoVoice)
    else if name !in e.buffers then (e, NoVoice)
    else match ResolveGroup(opts.group)
      case None => (e, Threw)
      case Some(g) =>
        var id := e.nextId;
        (e.(voices := e.voices[id := MakeVoice(name, g, opts)], nextId := id + 1), Started(id))
  }

  /** The source's `onended` hook: the voice leaves the registry. */
  function NaturalEnd(e: Engine, id: VoiceId): (r: Engine)
    ensures id !in r.voices
    ensures forall k :: k != id ==> (k in r.voices <==> k in e.voices)
    ensures forall k :: k in r.voices ==> r.voices[k] == e.voices[k]
    ensures r == e.(voices := r.voices)
  {
    e.(voices := e.voices - {id})
  }

  /** A started voice that ends on its own leaves the registry exactly as it was before the call. */
  lemma PlayThenEndRestores(e: Engine, name: string, opts: PlayOptions)
    requires e.Valid()
    ensures var (e1, res) := PlaySound(e, name, opts);
      res.Started? ==> NaturalEnd(e1, res.id).voices == e.voices
  {
    var (e1, res) := PlaySound(e, name, opts);
    if res.Started? {
      assert res.id !in e.voices;
      assert NaturalEnd(e1, res.id).voices == e.voices;
    }
  }

  /** `stopSound(id)`: unknown ids are ignored, a live id is removed and nothing else. */
  function StopSound(e: Engine, id: VoiceId): (r: Engine)
    ensures id !in e.voices ==> r == e
    ensures id !in r.voices
    ensures forall k :: k != id && k in e.voices ==> k in r.voices && r.voices[k] == e.voices[k]
    ensures forall k :: k in r.voices ==> k in e.voices
    ensures r == e.(voices := r.voices)
  {
    if id in e.voices then e.(voices := e.voices - {id}) else e
  }

  function StopAllSounds(e: Engine): (r: Engine)
    ensures r.voices == map[] && r == e.(voices := map[])
  {
    e.(voices := map[])
  }

  /** `toggleMute()`: flips and returns the flag; entering mute stops every voice. */
  function ToggleMute(e: Engine): (out: (Engine, bool))
    ensures out.1 == !e.muted && out.0.muted == out.1
    ensures out.1 ==> out.0.voices == map[]
    ensures !out.1 ==> out.0.voices == e.voices
    ensures out.0 == e.(muted := out.1, voices := out.0.voices)
  {
    var m := !e.muted;
    var e1 := e.(muted := m);
    if m then (StopAllSounds(e1), m) else (e1, m)
  }

  /** Two toggles restore the flag; whichever of the two enters mute leaves no voice behind. */
  lemma ToggleTwiceRestoresFlag(e: Engine)
    ensures ToggleMute(ToggleMute(e).0).0.muted == e.muted
    ensures ToggleMute(ToggleMute(e).0).0.voices == map[]
  {
  }

  /** While muted, no call to `playSound` can register a voice. */
  lemma MutedPlaysNothing(e: Engine, name: string, opts: PlayOptions)
    requires e.Valid() && e.muted
    ensures PlaySound(e, name, opts) == (e, NoVoice)
  {
  }

  // ---------------------------------------------------------------- volume

  /** `setVolume(groupName, v)`: base volume and gain both become the clamped value; unknown names are ignored. */
  function SetVolume(e: Engine, groupName: string, v: real): (r: Engine)
    ensures ParseGroup(groupName).None? ==> r == e
    ensures ParseGroup(groupName).Some? ==>
      var g := ParseGroup(groupName).value;
      && r.mix.Get(g) == MixGroup(Clamp01(v), Clamp01(v))
      && (forall h :: h != g ==> r.mix.Get(h) == e.mix.Get(h))
      && r == e.(mix := r.mix)
  {
    match ParseGroup(groupName)
    case None => e
    case Some(g) =>
      var c := Clamp01(v);
      e.(mix := e.mix.Set(g, MixGroup(c, c)))
  }

  /** `setMasterVolume(v)`: the clamped master times each group's fixed default, written through `setVolume`. */
  function SetMasterVolume(e: Engine, v: real): (r: Engine)
    ensures r.master == Some(Clamp01(v))
    ensures forall g :: r.mix.Get(g) == MixGroup(DefaultVolume(g) * Clamp01(v), DefaultVolume(g) * Clamp01(v))
    ensures r == e.(master := r.master, mix := r.mix)
  {
    var m := Clamp01(v);
    var e1 := e.(master := Some(m));
    var e2 := SetVolume(e1, "ambient", 0.3 * m);
    var e3 := SetVolume(e2, "effects", 0.7 * m);
    var e4 := SetVolume(e3, "music", 0.5 * m);
    SetVolume(e4, "tactical", 0.8 * m)
  }

  /** Master volume is recomputed from the defaults, so earlier calls leave no trace. */
  lemma MasterVolumeDoesNotCompound(e: Engine, a: real, b: real)
    ensures SetMasterVolume(SetMasterVolume(e, a), b) == SetMasterVolume(e, b)
  {
    var l := SetMasterVolume(SetMasterVolume(e, a), b);
    var r := SetMasterVolume(e, b);
    assert l.mix.Get(Ambient) == r.mix.Get(Ambient);
    assert l.mix.Get(Effects) == r.mix.Get(Effects);
    assert l.mix.Get(Music) == r.mix.Get(Music);
    assert l.mix.Get(Tactical) == r.mix.Get(Tactical);
    assert l.mix == r.mix;
  }

  /** Master volume 1 puts every group's base volume and gain at its category default. */
  lemma FullMasterRestoresDefaults(e: Engine)
    ensures forall g :: SetMasterVolume(e, 1.0).mix.Get(g) == MixGroup(DefaultVolume(g), DefaultVolume(g))
  {
  }

  // ---------------------------------------------------------------- position

  /** `updateSoundPosition(id, p)`: moves the panner stored on the voice, if it has one. */
  function UpdateSoundPosition(e: Engine, id: VoiceId, p: Position): (r: Engine)
    ensures id in e.voices && e.voices[id].handle.Some? ==>
      r.voices == e.voices[id := e.voices[id].(handle := Some(p))]
    ensures !(id in e.voices && e.voices[id].handle.Some?) ==> r == e
    ensures r == e.(voices := r.voices)
  {
    if id in e.voices && e.voices[id].handle.Some? then
      e.(voices := e.voices[id := e.voices[id].(handle := Some(p))])
    else e
  }

  /**
    The stored panner is a second node that `createSound` never wires into the
    graph, so an update leaves the audible position of every voice where it was.
   */
  lemma UpdateSoundPositionInaudible(e: Engine, id: VoiceId, p: Position)
    ensures forall k :: k in e.voices ==>
      k in UpdateSoundPosition(e, id, p).voices && UpdateSoundPosition(e, id, p).voices[k].routed == e.voices[k].routed
  {
  }

  /** The concrete case: a voice started at (1,2,3) and moved to (4,5,6) is still heard at (1,2,3). */
  lemma UpdateSoundPositionCounterexample()
    ensures var (e1, res) := PlaySound(Loaded(), "effects_explosion",
                                PlayOptions(Some("effects"), Some(0.8), Some(Position(1.0, 2.0, 3.0))));
      && res == Started(0)
      && UpdateSoundPosition(e1, 0, Position(4.0, 5.0, 6.0)).voices[0].routed == Some(Position(1.0, 2.0, 3.0))
  {
    assert "effects_explosion" == BufferKey(Effects, "explosion");
    assert "effects_explosion" in KeysOf(Effects);
  }

  /** The intended update: the voice keeps one panner, the one wired into the graph, and that node moves. */
  function UpdateSoundPositionRouted(e: Engine, id: VoiceId, p: Position): (r: Engine)
    ensures id in e.voices && e.voices[id].routed.Some? ==>
      && id in r.voices && r.voices[id].routed == Some(p) && r.voices[id].handle == Some(p)
      && (forall k :: k in e.voices && k != id ==> k in r.voices && r.voices[k] == e.voices[k])
    ensures !(id in e.voices && e.voices[id].routed.Some?) ==> r == e
    ensures r.voices.Keys == e.voices.Keys
  {
    if id in e.voices && e.voices[id].routed.Some? then
      e.(voices := e.voices[id := e.voices[id].(routed := Some(p), handle := Some(p))])
    else e
  }

  // ---------------------------------------------------------------- presets

  /** `playAmbientSound(name)`: group `ambient`, volume 0.6, no position. */
  function PlayAmbientSound(e: Engine, name: string): (out: (Engine, PlayResult))
    requires e.Valid()
    ensures out.1.Started? ==> out.1.id in out.0.voices && out.0.voices[out.1.id] == Voice(BufferKey(Ambient, name), Ambient, 0.6, None, None)
    ensures out.1.Started? <==> e.initialized && !e.muted && BufferKey(Ambient, name) in e.buffers
  {
    PlaySound(e, BufferKey(Ambient, name), PlayOptions(Some("ambient"), Some(0.6), None))
  }

  /** `playBattleSound(name, position)`: group `effects`, volume 0.8. */
  function PlayBattleSound(e: Engine, name: string, position: Option<Position>): (out: (Engine, PlayResult))
    requires e.Valid()
    ensures out.1.Started? ==>
      && out.1.id in out.0.voices
      && out.0.voices[out.1.id].key == BufferKey(Effects, name)
      && out.0.voices[out.1.id].group == Effects
      && out.0.voices[out.1.id].gain == 0.8
      && out.0.voices[out.1.id].routed == position
    ensures out.1.Started? <==> e.initialized && !e.muted && BufferKey(Effects, name) in e.buffers
  {
    PlaySound(e, BufferKey(Effects, name), PlayOptions(Some("effects"), Some(0.8), position))
  }

  /** `playTacticalSound(name, position)`: group `tactical`, volume 0.7. */
  function PlayTacticalSound(e: Engine, name: string, position: Option<Position>): (out: (Engine, PlayResult))
    requires e.Valid()
    ensures out.1.Started? ==>
      && out.1.id in out.0.voices
      && out.0.voices[out.1.id].key == BufferKey(Tactical, name)
      && out.0.voices[out.1.id].group == Tactical
      && out.0.voices[out.1.id].gain == 0.7
      && out.0.voices[out.1.id].routed == position
    ensures out.1.Started? <==> e.initialized && !e.muted && BufferKey(Tactical, name) in e.buffers
  {
    PlaySound(e, BufferKey(Tactical, name), PlayOptions(Some("tactical"), Some(0.7), position))
  }

  /** The `playSound` part of `playMusic(name)`: group `music`, volume 0.6 (the fade-in ramp that follows is not modelled). */
  function PlayMusic(e: Engine, name: string): (out: (Engine, PlayResult))
    requires e.Valid()
    ensures out.1.Started? ==> out.1.id in out.0.voices && out.0.voices[out.1.id] == Voice(BufferKey(Music, name), Music, 0.6, None, None)
    ensures out.1.Started? <==> e.initialized && !e.muted && BufferKey(Music, name) in e.buffers
  {
    PlaySound(e, BufferKey(Music, name), PlayOptions(Some("music"), Some(0.6), None))
  }

  // ---------------------------------------------------------------- sequences

  /** One step of a battle sequence: after `delayMs`, a battle (`effects`) or tactical preset plays `name`. */
  datatype Cue = Cue(delayMs: nat, group: Group, name: string)

  /** The `playBattleSequence` table; an unknown sequence name plays nothing. */
  function BattleSequence(sequenceName: string): seq<Cue> {
    if sequenceName == "fire_attack" then
      [Cue(0, Effects, "fire_attack"), Cue(1000, Effects, "explosion"), Cue(2000, Effects, "battle_cry")]
    else if sequenceName == "cavalry_charge" then
      [Cue(0, Tactical, "cavalry_hooves"), Cue(500, Effects, "cavalry_charge"), Cue(1000, Effects, "battle_cry")]
    else if sequenceName == "archer_volley" then
      [Cue(0, Tactical, "bow_release"), Cue(200, Effects, "arrow_whistle"), Cue(400, Effects, "arrow_whistle")]
    else []
  }

  /** A cue starts a battle or tactical preset sound that `preloadSounds` loads. */
  predicate CueLoaded(c: Cue) {
    c.group in {Effects, Tactical} && c.name in CatalogNames(c.group)
  }

  /** The cues start at once, play preloaded sounds, and never go back in time. */
  predicate SequenceWellFormed(s: seq<Cue>) {
    && (s != [] ==> s[0].delayMs == 0)
    && (forall i :: 0 <= i < |s| ==> CueLoaded(s[i]))
    && (forall i, j :: 0 <= i < j < |s| ==> s[i].delayMs <= s[j].delayMs)
  }

  /** The buffer a loaded cue asks for is among the keys stored by `preloadSounds`. */
  lemma LoadedCueHasBuffer(c: Cue)
    requires CueLoaded(c)
    ensures BufferKey(c.group, c.name) in CatalogKeys()
  {
    assert BufferKey(c.group, c.name) in KeysOf(c.group);
  }

  /** Three catalogued cues, the first at time zero, in order of time. */
  lemma ThreeCuesWellFormed(a: Cue, b: Cue, c: Cue)
    requires CueLoaded(a) && CueLoaded(b) && CueLoaded(c)
    requires a.delayMs == 0 && a.delayMs <= b.delayMs <= c.delayMs
    ensures SequenceWellFormed([a, b, c])
  {
    var s := [a, b, c];
    assert forall i :: 0 <= i < |s| ==> s[i] == a || s[i] == b || s[i] == c;
  }

  /**
    Exactly the three known sequences have cues, and every one of them is well formed.
   */
  lemma BattleSequencesWellFormed(sequenceName: string)
    ensures SequenceWellFormed(BattleSequence(sequenceName))
    ensures BattleSequence(sequenceName) != [] <==> sequenceName in {"fire_attack", "cavalry_charge", "archer_volley"}
  {
    var s := BattleSequence(sequenceName);
    if s != [] {
      ThreeCuesWellFormed(s[0], s[1], s[2]);
    }
  }
}

=== FILE: battle_api.dfy ===
/**
  The battle-data endpoint (src/api/battle_api.py): the battle name is normalised
  into a cache-file name; a cached document is checked against the declared
  `BattleResponse` and answered with its four declared fields only (500 when it
  does not fit), the built-in Red Cliffs sample is returned (and cached) for names
  that mention it, and any other name is a 404. The cache directory is a map from
  normalised name to the document stored there.
 */
module BattleApi {
  import opened Wrappers
  import opened Text
  import opened Json

  /** A cache entry: the sample as this handler wrote it, or a document placed there otherwise. */
  datatype BattleData = Sample | Stored(doc: Json)

  type Cache = map<string, BattleData>

  const NotFoundDetail := "战役未找到，请尝试'赤壁之战'"

  /** Lower-case, every ' ' to '_', then every "之战" removed in one left-to-right pass. */
  function Normalize(battleName: string): (r: string)
    ensures ' ' !in r
    ensures forall c :: 'A' <= c <= 'Z' ==> c !in r
  {
    var underscored := ReplaceAll(Lower(battleName), " ", "_");
    ReplaceCharRemoves(Lower(battleName), ' ', "_");
    ReplaceKeepsAbsent(underscored, "之战", "", ' ');
    NoUpperAfterReplacing(battleName);
    ReplaceAll(underscored, "之战", "")
  }

  /** Neither replacement brings back an ASCII upper-case letter that lower-casing removed. */
  lemma NoUpperAfterReplacing(battleName: string)
    ensures forall c :: 'A' <= c <= 'Z' ==> c !in ReplaceAll(ReplaceAll(Lower(battleName), " ", "_"), "之战", "")
  {
    forall c | 'A' <= c <= 'Z' ensures c !in ReplaceAll(ReplaceAll(Lower(battleName), " ", "_"), "之战", "") {
      LowerHasNoUpper(battleName, c);
      ReplaceKeepsAbsent(Lower(battleName), " ", "_", c);
      ReplaceKeepsAbsent(ReplaceAll(Lower(battleName), " ", "_"), "之战", "", c);
    }
  }

  /** Names that select the built-in sample. */
  predicate SelectsSample(battleName: string) {
    Contains(Normalize(battleName), "chibi") || Contains(battleName, "赤壁")
  }

  /** The fields of `BattleResponse`, in declared order. */
  const ResponseFields: seq<string> := ["battle_metadata", "military_forces", "battle_timeline", "terrain_data"]

  /** The detail FastAPI sends when a returned value fails its response model. */
  const ValidationFailedDetail := "Internal Server Error"

  /** A `List[Dict[str, Any]]` field: a list whose every item is an object. */
  predicate IsObjectList(v: Json) {
    v.JArr? && forall i :: 0 <= i < |v.items| ==> v.items[i].JObj?
  }

  /** The value bound to `key` is a `Dict[str, Any]`. */
  predicate ObjectField(fields: seq<(string, Json)>, key: string) {
    Get(fields, key).Some? && Get(fields, key).value.JObj?
  }

  /** The value bound to `key` is a `List[Dict[str, Any]]`. */
  predicate ObjectListField(fields: seq<(string, Json)>, key: string) {
    Get(fields, key).Some? && IsObjectList(Get(fields, key).value)
  }

  /** A document `BattleResponse` accepts: an object whose four declared fields have their declared shapes. */
  predicate Conforms(doc: Json) {
    && doc.JObj?
    && ObjectField(doc.fields, "battle_metadata")
    && ObjectListField(doc.fields, "military_forces")
    && ObjectListField(doc.fields, "battle_timeline")
    && ObjectField(doc.fields, "terrain_data")
  }

  /**
    The `response_model` step: a conforming document is answered with exactly the
    declared fields, in declared order, other keys dropped; anything else is a 500.
   */
  function ValidateResponse(doc: Json): (r: Result<Json>)
    ensures r.Ok? <==> Conforms(doc)
    ensures r.Err? ==> r == Err(500, ValidationFailedDetail)
    ensures r.Ok? ==> r.value.JObj? && |r.value.fields| == |ResponseFields|
    ensures r.Ok? ==> forall i :: 0 <= i < |ResponseFields| ==>
      r.value.fields[i].0 == ResponseFields[i] && Get(doc.fields, ResponseFields[i]) == Some(r.value.fields[i].1)
  {
    if Conforms(doc) then
      Ok(Response(Get(doc.fields, "battle_metadata").value, Get(doc.fields, "military_forces").value,
        Get(doc.fields, "battle_timeline").value, Get(doc.fields, "terrain_data").value))
    else Err(500, ValidationFailedDetail)
  }

  /** What a cache entry answers: the sample fits the response model as it is; a stored document is validated. */
  function Serve(entry: BattleData): (r: Result<BattleData>)
    ensures entry.Sample? ==> r == Ok(Sample)
    ensures entry.Stored? ==> (r.Ok? <==> Conforms(entry.doc))
    ensures entry.Stored? && r.Ok? ==> r.value.Stored? && Ok(r.value.doc) == ValidateResponse(entry.doc)
    ensures r.Err? ==> r.status == 500
  {
    match entry
    case Sample => Ok(Sample)
    case Stored(doc) =>
      match ValidateResponse(doc)
      case Ok(v) => Ok(Stored(v))
      case Err(s, d) => Err(s, d)
  }

  /** `get_battle_data`: the answer and the cache afterwards. */
  function GetBattleData(cache: Cache, battleName: string): (r: (Result<BattleData>, Cache))
    ensures Normalize(battleName) in cache ==> r == (Serve(cache[Normalize(battleName)]), cache)
    ensures Normalize(battleName) !in cache ==>
      if SelectsSample(battleName) then r == (Ok(Sample), cache[Normalize(battleName) := Sample])
      else r == (Err(404, NotFoundDetail), cache)
    ensures r.0.Err? && r.0.status == 404 <==> Normalize(battleName) !in cache && !SelectsSample(battleName)
    ensures r.0.Err? && r.0.status != 404 ==> r.0 == Err(500, ValidationFailedDetail)
    ensures Normalize(battleName) in r.1 ==> r.0 == Serve(r.1[Normalize(battleName)])
    ensures forall k :: k != Normalize(battleName) && k in cache ==> k in r.1 && r.1[k] == cache[k]
  {
    var key := Normalize(battleName);
    if key in cache then (Serve(cache[key]), cache)
    else if SelectsSample(battleName) then (Ok(Sample), cache[key := Sample])
    else (Err(404, NotFoundDetail), cache)
  }

  /** The answer object built from the four field values, in declared order. */
  function Response(metadata: Json, forces: Json, timeline: Json, terrain: Json): Json {
    JObj([("battle_metadata", metadata), ("military_forces", forces),
          ("battle_timeline", timeline), ("terrain_data", terrain)])
  }

  /** Each declared field of a built answer reads back the value it was built from. */
  lemma {:induction false} ResponseGet(metadata: Json, forces: Json, timeline: Json, terrain: Json)
    ensures Get(Response(metadata, forces, timeline, terrain).fields, "battle_metadata") == Some(metadata)
    ensures Get(Response(metadata, forces, timeline, terrain).fields, "military_forces") == Some(forces)
    ensures Get(Response(metadata, forces, timeline, terrain).fields, "battle_timeline") == Some(timeline)
    ensures Get(Response(metadata, forces, timeline, terrain).fields, "terrain_data") == Some(terrain)
  {
    var f := Response(metadata, forces, timeline, terrain).fields;
    var f1 := [("military_forces", forces), ("battle_timeline", timeline), ("terrain_data", terrain)];
    var f2 := [("battle_timeline", timeline), ("terrain_data", terrain)];
    var f3 := [("terrain_data", terrain)];
    assert f[1..] == f1 && f1[1..] == f2 && f2[1..] == f3;
    assert "battle_metadata"[7] != "battle_timeline"[7] && "battle_metadata"[0] != "terrain_data"[0];
    assert "military_forces"[0] != "battle_timeline"[0] && "military_forces"[0] != "terrain_data"[0];
    assert "battle_timeline"[0] != "terrain_data"[0];
    assert Get(f, "military_forces") == Get(f1, "military_forces");
    assert Get(f, "battle_timeline") == Get(f1, "battle_timeline") == Get(f2, "battle_timeline");
    assert Get(f, "terrain_data") == Get(f1, "terrain_data") == Get(f2, "terrain_data") == Get(f3, "terrain_data");
  }

  /** The validated answer passes validation again unchanged. */
  lemma ValidatedConforms(doc: Json)
    requires Conforms(doc)
    ensures Conforms(ValidateResponse(doc).value)
    ensures ValidateResponse(ValidateResponse(doc).value) == ValidateResponse(doc)
  {
    var fs := doc.fields;
    ResponseGet(Get(fs, "battle_metadata").value, Get(fs, "military_forces").value,
      Get(fs, "battle_timeline").value, Get(fs, "terrain_data").value);
  }

  /** A stored document that is not an object, or lacks a declared field, is answered with 500. */
  lemma MissingFieldIs500(cache: Cache, battleName: string)
    requires Normalize(battleName) in cache && cache[Normalize(battleName)] == Stored(JObj([]))
    ensures GetBattleData(cache, battleName) == (Err(500, ValidationFailedDetail), cache)
  {
  }

  /** Bindings of other keys placed in front do not change what `key` reads. */
  lemma {:induction false} GetSkips(extra: seq<(string, Json)>, fields: seq<(string, Json)>, key: string)
    requires forall i :: 0 <= i < |extra| ==> extra[i].0 != key
    ensures Get(extra + fields, key) == Get(fields, key)
    decreases |extra|
  {
    if |extra| > 0 {
      assert (extra + fields)[0] == extra[0];
      assert (extra + fields)[1..] == extra[1..] + fields;
      assert Get(extra + fields, key) == Get(extra[1..] + fields, key);
      GetSkips(extra[1..], fields, key);
    } else {
      assert extra + fields == fields;
    }
  }

  /** Keys outside the declared four change neither the verdict nor the answer. */
  lemma ExtraKeysDropped(extra: seq<(string, Json)>, fields: seq<(string, Json)>)
    requires forall i :: 0 <= i < |extra| ==> extra[i].0 !in ResponseFields
    ensures ValidateResponse(JObj(extra + fields)) == ValidateResponse(JObj(fields))
  {
    GetSkips(extra, fields, "battle_metadata");
    GetSkips(extra, fields, "military_forces");
    GetSkips(extra, fields, "battle_timeline");
    GetSkips(extra, fields, "terrain_data");
  }

  /** Asking again gives the same answer and leaves the cache as the first request left it. */
  lemma RepeatRequestSameAnswer(cache: Cache, battleName: string)
    ensures var (r1, c1) := GetBattleData(cache, battleName);
      GetBattleData(c1, battleName) == (r1, c1)
  {
  }

  /** A name with no letters to lower, no spaces and no "之战" is its own cache key. */
  lemma PlainNameIsKey(battleName: string)
    requires forall i :: 0 <= i < |battleName| ==> !('A' <= battleName[i] <= 'Z') && battleName[i] != ' '
    requires !Contains(battleName, "之战")
    ensures Normalize(battleName) == battleName
  {
    assert Lower(battleName) == battleName;
    assert !Contains(battleName, " ") by {
      forall i | 0 <= i < |battleName| ensures !OccursAt(battleName, " ", i) {
        assert battleName[i..i + 1][0] == battleName[i];
      }
    }
    ReplaceAbsent(battleName, " ", "_");
    ReplaceAbsent(battleName, "之战", "");
  }

  /** The one pass can leave a "之战" behind, so normalising twice differs from once. */
  lemma NormalizeNotIdempotent()
    ensures Normalize("之之战战") == "之战"
    ensures Normalize(Normalize("之之战战")) == ""
  {
    var s := "之之战战";
    assert Lower(s) == s;
    assert !StartsWith(s, " ") && !StartsWith(s[1..], " ") && !StartsWith(s[2..], " ") && !StartsWith(s[3..], " ");
    assert ReplaceAll(s[4..], " ", "_") == [];
    assert ReplaceAll(s, " ", "_") == s;
    assert !StartsWith(s, "之战") && StartsWith(s[1..], "之战") && s[1..][2..] == s[3..];
    assert !StartsWith(s[3..], "之战") && s[3..][1..] == [];
    assert ReplaceAll(s, "之战", "") == "之战";
    var t := "之战";
    assert Lower(t) == t;
    assert !StartsWith(t, " ") && !StartsWith(t[1..], " ") && t[1..][1..] == [];
    assert ReplaceAll(t, " ", "_") == t;
    assert StartsWith(t, "之战") && t[2..] == [];
  }

  /** The Chinese name of Red Cliffs selects the sample and is cached under "赤壁". */
  lemma RedCliffsChineseName(cache: Cache)
    requires "赤壁" !in cache
    ensures GetBattleData(cache, "赤壁之战") == (Ok(Sample), cache["赤壁" := Sample])
  {
    var s := "赤壁之战";
    assert Lower(s) == s;
    assert !StartsWith(s, " ") && !StartsWith(s[1..], " ") && !StartsWith(s[2..], " ") && !StartsWith(s[3..], " ");
    assert s[1..][1..] == s[2..] && s[2..][1..] == s[3..] && s[3..][1..] == [] && s[1..] == s[1..][..];
    assert ReplaceAll(s, " ", "_") == s;
    assert !StartsWith(s, "之战") && !StartsWith(s[1..], "之战") && StartsWith(s[2..], "之战") && s[2..][2..] == [];
    assert ReplaceAll(s, "之战", "") == "赤壁";
    assert OccursAt(s, "赤壁", 0);
  }
}

=== FILE: deduction.dfy ===
/**
  The battle-deduction endpoint (src/api/deduction_api.py): the prompt guard, the
  clean-up of the language model's reply (trimming and removal of a Markdown code
  fence), and the fall-back to the built-in Red Cliffs demonstration when the reply
  is not JSON or the model call fails. The model call is the `reply` parameter and
  `json.loads` is the `parse` parameter.
 */
module Deduction {
  import opened Wrappers
  import opened Text
  import opened Json

  /** The request body as `await request.json()` sees it. */
  datatype Request = Undecodable | Body(data: Json)

  /** What the chat-completion call gave back. */
  datatype Reply = Answered(text: string) | CallFailed

  /** The demonstration sequence; only the step labels of its steps are modelled. */
  datatype MockDeduction = MockDeduction(title: string, longitude: real, latitude: real, zoom: nat, stepTimes: seq<string>)

  datatype Response =
    | PromptMissing(error: string)
    | Parsed(value: Json)
    | Fallback(mock: MockDeduction)
    /** The handler's own fall-back raised (NameError on an unbound query): HTTP 500. */
    | ServerError

  const PromptMissingText := "Please provide a battle name or query."

  /**
    The model-output clean-up: a leading "```json", otherwise a leading "```", is
    cut off, then one trailing "```".
   */
  function StripFences(t: string): (r: string)
    ensures |t| - 10 <= |r| <= |t|
    ensures !StartsWith(t, "```") && !EndsWith(t, "```") ==> r == t
    ensures exists i :: OccursAt(t, r, i)
  {
    var i := if StartsWith(t, "```json") then 7 else if StartsWith(t, "```") then 3 else 0;
    var a := t[i..];
    var r := if EndsWith(a, "```") then a[..|a| - 3] else a;
    assert t[i..i + |r|] == r;
    assert OccursAt(t, r, i);
    r
  }

  /** A body wrapped in a "```json" fence comes back unwrapped. */
  lemma JsonFenceRoundTrip(b: string)
    ensures StripFences("```json" + b + "```") == b
  {
    var t := "```json" + b + "```";
    assert StartsWith(t, "```json") by { assert t[..7] == "```json"; }
    assert t[7..] == b + "```";
    assert (b + "```")[..|b|] == b;
  }

  /** A body wrapped in a bare fence comes back unwrapped, unless it itself begins with "json". */
  lemma BareFenceRoundTrip(b: string)
    requires !StartsWith(b, "json")
    ensures StripFences("```" + b + "```") == b
  {
    var t := "```" + b + "```";
    assert t[..3] == "```";
    assert !StartsWith(t, "```json") by {
      if |b| < 4 {
        assert t[3 + |b|] == '`';
      } else {
        assert t[3..7] == b[..4];
      }
    }
    assert t[3..] == b + "```";
    assert (b + "```")[..|b|] == b;
  }

  /** The reply text the handler hands to `json.loads`. */
  function Cleaned(text: string): string {
    StripFences(Strip(text))
  }

  /** `data.get("prompt", "")` when `.strip()` can be applied; None where evaluating it raises. */
  function PromptOf(req: Request): (r: Option<string>)
    ensures req.Undecodable? ==> r.None?
    ensures req.Body? && !req.data.JObj? ==> r.None?
    ensures req.Body? && req.data.JObj? && !Has(req.data.fields, "prompt") ==> r == Some("")
  {
    match req
    case Undecodable => None
    case Body(JObj(fs)) =>
      if !Has(fs, "prompt") then Some("")
      else (match Get(fs, "prompt").value
            case JStr(s) => Some(s)
            case _ => None)
    case Body(_) => None
  }

  /** `get_mock_deduction(query)`: the Red Cliffs demonstration with the query in its title. */
  function GetMockDeduction(query: string): (r: MockDeduction)
    ensures Contains(r.title, query)
    ensures r.longitude == 113.9 && r.latitude == 29.8 && r.zoom == 11
    ensures |r.stepTimes| == 12
  {
    var title := "赤壁之战 (演示数据 - 原请求: " + query + ")";
    assert OccursAt(title, query, 18);
    MockDeduction(title, 113.9, 29.8, 11, [
      "阶段 1: 战前部署 (建安十三年冬)",
      "阶段 2: 联军集结",
      "阶段 3: 草船借箭 (前奏)",
      "阶段 4: 苦肉计与诈降",
      "阶段 5: 东南风起",
      "阶段 6: 黄盖进军",
      "阶段 7: 点火突袭",
      "阶段 8: 火烧连营",
      "阶段 9: 联军总攻",
      "阶段 10: 曹操败退",
      "阶段 11: 追击与拦截",
      "阶段 12: 战后格局"])
  }

  /** The label that opens step `n` (counting from 1). */
  function StepPrefix(n: nat): string {
    "阶段 " + NatToString(n) + ":"
  }

  /** The demonstration's steps are numbered 1 to 12 in order. */
  lemma MockStepsNumbered(query: string)
    ensures forall i :: 0 <= i < 12 ==> StartsWith(GetMockDeduction(query).stepTimes[i], StepPrefix(i + 1))
  {
    var ts := GetMockDeduction(query).stepTimes;
    forall i | 0 <= i < 12 ensures StartsWith(ts[i], StepPrefix(i + 1)) {
      if i < 9 {
        OneDigitStep(ts[i], i + 1);
      } else {
        TwoDigitStep(ts[i], i + 1);
      }
    }
  }

  /** A label "阶段 d:" with a single digit d opens step d. */
  lemma OneDigitStep(t: string, n: nat)
    requires 1 <= n <= 9 && |t| >= 5
    requires t[..3] == "阶段 " && t[3] == '0' + n as char && t[4] == ':'
    ensures StartsWith(t, StepPrefix(n))
  {
    assert StepPrefix(n) == t[..5];
  }

  /** A label "阶段 1d:" opens step 10 + d. */
  lemma TwoDigitStep(t: string, n: nat)
    requires 10 <= n <= 19 && |t| >= 6
    requires t[..3] == "阶段 " && t[3] == '1' && t[4] == '0' + (n - 10) as char && t[5] == ':'
    ensures StartsWith(t, StepPrefix(n))
  {
    assert NatToString(n) == ['1', '0' + (n - 10) as char];
    assert StepPrefix(n) == t[..6];
  }

  /** `simulate_battle`. */
  function SimulateBattle(req: Request, reply: Reply, parse: string -> Option<Json>): (r: Response)
    ensures PromptOf(req).None? <==> r.ServerError?
    ensures r.PromptMissing? <==> PromptOf(req).Some? && Strip(PromptOf(req).value) == ""
    ensures r.PromptMissing? ==> r.error == PromptMissingText
    ensures r.Parsed? ==> reply.Answered? && parse(Cleaned(reply.text)) == Some(r.value)
    ensures r.Fallback? ==> r.mock == GetMockDeduction(Strip(PromptOf(req).value))
    ensures r.Fallback? <==>
      && PromptOf(req).Some? && Strip(PromptOf(req).value) != ""
      && (reply.CallFailed? || parse(Cleaned(reply.text)).None?)
  {
    match PromptOf(req)
    case None => ServerError
    case Some(prompt) =>
      var query := Strip(prompt);
      if query == "" then PromptMissing(PromptMissingText)
      else match reply
        case CallFailed => Fallback(GetMockDeduction(query))
        case Answered(text) =>
          match parse(Cleaned(text))
          case Some(j) => Parsed(j)
          case None => Fallback(GetMockDeduction(query))
  }

  /** A blank prompt is answered before the model is consulted: the reply plays no part. */
  lemma BlankPromptIgnoresModel(fs: seq<(string, Json)>, p: string, r1: Reply, r2: Reply, parse: string -> Option<Json>)
    requires Get(fs, "prompt") == Some(JStr(p))
    requires forall k :: 0 <= k < |p| ==> IsSpace(p[k])
    ensures SimulateBattle(Body(JObj(fs)), r1, parse) == SimulateBattle(Body(JObj(fs)), r2, parse) == PromptMissing(PromptMissingText)
  {
    assert Has(fs, "prompt");
    var req := Body(JObj(fs));
    assert PromptOf(req) == Some(p);
    StripEmptyIff(p);
    assert Strip(p) == "";
    assert SimulateBattle(req, r1, parse) == PromptMissing(PromptMissingText);
    assert SimulateBattle(req, r2, parse) == PromptMissing(PromptMissingText);
  }

  /** A fenced JSON reply is parsed from the text inside the fence. */
  lemma FencedReplyParsed(req: Request, b: string, j: Json, parse: string -> Option<Json>)
    requires PromptOf(req).Some? && Strip(PromptOf(req).value) != ""
    requires parse(b) == Some(j)
    ensures SimulateBattle(req, Answered("```json" + b + "```"), parse) == Parsed(j)
  {
    var t := "```json" + b + "```";
    assert t[0] == '`' && t[|t| - 1] == '`';
    StripUnpadded(t);
    JsonFenceRoundTrip(b);
  }
}

=== FILE: drawing.dfy ===
/**
  The map annotation tool (static/js/drawing-system.js): drawing and eraser modes,
  stroke recording, erasing the most recent stroke under the cursor, and the
  time-stepped playback of recorded strokes. Map overlays are named by abstract
  polyline ids, the geometric hit test is an input (the set of polyline ids within
  tolerance of the click), and each animation frame is an explicit tick at a given
  clock time.
 */
module Drawing {
  import opened Wrappers

  datatype Point = Point(lng: real, lat: real, time: int)

  /** A recorded stroke: its points, the style it was drawn with, and its overlay (if any). */
  datatype Stroke = Stroke(points: seq<Point>, color: string, weight: int, opacity: real, polyline: Option<nat>)

  datatype State = State(
    drawing: bool,
    eraser: bool,
    recording: bool,
    playing: bool,
    currentPath: seq<Point>,
    strokes: seq<Stroke>,
    currentPolyline: Option<nat>,
    color: string,
    weight: int,
    opacity: real,
    nextPolyline: nat)
  {
    /** Only non-empty paths are ever recorded. */
    ghost predicate Valid() {
      forall i :: 0 <= i < |strokes| ==> |strokes[i].points| > 0
    }
  }

  /** The constructor's state: every mode off, red, weight 5, fully opaque. */
  function Initial(): (s: State)
    ensures s.Valid() && !s.drawing && !s.eraser && !s.recording && !s.playing
    ensures s.strokes == [] && s.currentPath == [] && s.currentPolyline == None
    ensures s.color == "#ff0000" && s.weight == 5 && s.opacity == 1.0
  {
    State(false, false, false, false, [], [], None, "#ff0000", 5, 1.0, 0)
  }

  // ---------------------------------------------------------------- modes

  /** `setColor(c)` also leaves eraser mode. */
  function SetColor(s: State, c: string): (r: State)
    ensures r.color == c && !r.eraser
    ensures r == s.(color := c, eraser := false)
  {
    s.(color := c, eraser := false)
  }

  /** `toggleEraser()`: flips eraser mode; entering it stops drawing. */
  function ToggleEraser(s: State): (r: State)
    ensures r.eraser == !s.eraser
    ensures r.eraser ==> !r.drawing
    ensures !r.eraser ==> r.drawing == s.drawing
    ensures r == s.(eraser := r.eraser, drawing := r.drawing)
  {
    if !s.eraser then s.(eraser := true, drawing := false) else s.(eraser := false)
  }

  /** Drawing and eraser mode are never on together once either toggle has run. */
  lemma ModesExclusiveAfterToggle(s: State)
    ensures !(ToggleEraser(s).eraser && ToggleEraser(s).drawing)
    ensures !(EnableDrawing(s).eraser && EnableDrawing(s).drawing)
  {
  }

  function EnableDrawing(s: State): (r: State)
    ensures r.drawing && !r.eraser
    ensures r == s.(drawing := true, eraser := false)
  {
    s.(drawing := true, eraser := false)
  }

  function DisableDrawing(s: State): (r: State)
    ensures !r.drawing && !r.eraser && !r.recording
    ensures r == s.(drawing := false, eraser := false, recording := false)
  {
    s.(drawing := false, eraser := false, recording := false)
  }

  // ---------------------------------------------------------------- strokes

  /** `recordPoint(p)`: the point is appended to the current path. */
  function RecordPoint(s: State, p: Point): (r: State)
    ensures r.currentPath == s.currentPath + [p]
    ensures r == s.(currentPath := r.currentPath)
  {
    s.(currentPath := s.currentPath + [p])
  }

  /** `startStroke(p)`: recording starts on a fresh overlay, with `p` as the only point. */
  function StartStroke(s: State, p: Point): (r: State)
    requires s.Valid()
    ensures r.Valid()
    ensures r.recording && r.currentPath == [p]
    ensures r.currentPolyline == Some(s.nextPolyline)
    ensures r.strokes == s.strokes && r.drawing == s.drawing && r.eraser == s.eraser
  {
    var s1 := s.(recording := true, currentPath := [], currentPolyline := Some(s.nextPolyline),
                 nextPolyline := s.nextPolyline + 1);
    RecordPoint(s1, p)
  }

  /**
    `endStroke()`: a non-empty path becomes a stroke in the current style; recording
    stops and the overlay reference is dropped. The path itself is left in place.
   */
  function EndStroke(s: State): (r: State)
    requires s.Valid()
    ensures r.Valid()
    ensures !r.recording && r.currentPolyline == None && r.currentPath == s.currentPath
    ensures |s.currentPath| == 0 ==> r.strokes == s.strokes
    ensures |s.currentPath| > 0 ==>
      r.strokes == s.strokes + [Stroke(s.currentPath, s.color, s.weight, s.opacity, s.currentPolyline)]
  {
    var s1 := s.(recording := false);
    var s2 := if |s.currentPath| > 0
      then s1.(strokes := s.strokes + [Stroke(s.currentPath, s.color, s.weight, s.opacity, s.currentPolyline)])
      else s1;
    s2.(currentPolyline := None)
  }

  /**
    Because the path is not reset, a second `endStroke` (a stray `mouseup` or
    `touchend`) records the same points again, as a stroke with no overlay.
   */
  lemma EndStrokeTwiceDuplicates(s: State)
    requires s.Valid() && |s.currentPath| > 0
    ensures var r := EndStroke(EndStroke(s));
      && |r.strokes| == |s.strokes| + 2
      && r.strokes[|r.strokes| - 1].points == r.strokes[|r.strokes| - 2].points
      && r.strokes[|r.strokes| - 1].polyline == None
  {
  }

  // ---------------------------------------------------------------- eraser

  /** The most recent stroke whose overlay is among the `near` ids, scanning from the end. */
  function LastHit(strokes: seq<Stroke>, near: set<nat>): (r: Option<nat>)
    ensures r.Some? ==> r.value < |strokes| && Hit(strokes[r.value], near)
    ensures r.Some? ==> forall j :: r.value < j < |strokes| ==> !Hit(strokes[j], near)
    ensures r.None? ==> forall j :: 0 <= j < |strokes| ==> !Hit(strokes[j], near)
  {
    if |strokes| == 0 then None
    else if Hit(strokes[|strokes| - 1], near) then Some(|strokes| - 1)
    else LastHit(strokes[..|strokes| - 1], near)
  }

  /** A stroke is hit when it still has an overlay and the click lies on it. */
  predicate Hit(st: Stroke, near: set<nat>) {
    st.polyline.Some? && st.polyline.value in near
  }

  /** `eraseAt(click)`: removes the most recent stroke under the click, if any. */
  function EraseAt(s: State, near: set<nat>): (r: State)
    requires s.Valid()
    ensures r.Valid()
    ensures r == s.(strokes := r.strokes)
    ensures (forall j :: 0 <= j < |s.strokes| ==> !Hit(s.strokes[j], near)) ==> r == s
  {
    match LastHit(s.strokes, near)
    case None => s
    case Some(i) =>
      var rest := s.strokes[..i] + s.strokes[i + 1..];
      RemoveKeepsPoints(s.strokes, i, rest);
      s.(strokes := rest)
  }

  /** Removing one stroke leaves every remaining stroke with its points. */
  lemma RemoveKeepsPoints(ss: seq<Stroke>, i: nat, r: seq<Stroke>)
    requires i < |ss| && forall k :: 0 <= k < |ss| ==> |ss[k].points| > 0
    requires r == ss[..i] + ss[i + 1..]
    ensures forall k :: 0 <= k < |r| ==> |r[k].points| > 0
  {
    assert forall k :: 0 <= k < i ==> r[k] == ss[k];
    assert forall k :: i <= k < |r| ==> r[k] == ss[k + 1];
  }

  /** A click on some stroke removes the most recent stroke under it; the rest keep their order. */
  lemma EraseAtRemovesLastHit(s: State, near: set<nat>, j: nat)
    requires s.Valid() && j < |s.strokes| && Hit(s.strokes[j], near)
    ensures exists i ::
      && 0 <= i < |s.strokes| && Hit(s.strokes[i], near)
      && (forall k :: i < k < |s.strokes| ==> !Hit(s.strokes[k], near))
      && EraseAt(s, near).strokes == s.strokes[..i] + s.strokes[i + 1..]
  {
    var lh := LastHit(s.strokes, near);
    assert lh.Some?;
    var i := lh.value;
    var rest := s.strokes[..i] + s.strokes[i + 1..];
    assert EraseAt(s, near) == s.(strokes := rest);
    assert 0 <= i < |s.strokes| && Hit(s.strokes[i], near);
  }

  /** Erasing removes at most one stroke. */
  lemma EraseRemovesAtMostOne(s: State, near: set<nat>)
    requires s.Valid()
    ensures |EraseAt(s, near).strokes| == |s.strokes| || |EraseAt(s, near).strokes| == |s.strokes| - 1
  {
  }

  /** `clear()` forgets every recorded stroke. */
  function Clear(s: State): (r: State)
    ensures r.Valid() && r.strokes == [] && r == s.(strokes := [])
  {
    s.(strokes := [])
  }

  // ---------------------------------------------------------------- mouse events

  /** `mousedown`: erase in eraser mode, else start a stroke when drawing. */
  function MouseDown(s: State, near: set<nat>, p: Point): (r: State)
    requires s.Valid()
    ensures r.Valid()
  {
    if s.eraser then EraseAt(s, near)
    else if !s.drawing then s
    else StartStroke(s, p)
  }

  /** `mousemove`: drag-erase with the primary button held in eraser mode, else record while drawing. */
  function MouseMove(s: State, near: set<nat>, primaryButton: bool, p: Point): (r: State)
    requires s.Valid()
    ensures r.Valid()
  {
    if s.eraser && primaryButton then EraseAt(s, near)
    else if !s.drawing || !s.recording then s
    else RecordPoint(s, p)
  }

  /** `mouseup`: ends the stroke when drawing (whether or not one was started). */
  function MouseUp(s: State): (r: State)
    requires s.Valid()
    ensures r.Valid()
  {
    if s.eraser || !s.drawing then s else EndStroke(s)
  }

  /** A press, a drag and a release in drawing mode record exactly one new stroke with the three points. */
  lemma PressDragReleaseRecordsOneStroke(s: State, near: set<nat>, p: Point, q: Point)
    requires s.Valid() && s.drawing && !s.eraser
    ensures var r := MouseUp(MouseMove(MouseDown(s, near, p), near, false, q));
      && r.strokes == s.strokes + [Stroke([p, q], s.color, s.weight, s.opacity, Some(s.nextPolyline))]
      && !r.recording
  {
    var s1 := MouseDown(s, near, p);
    assert s1.currentPath == [p] && s1.recording && s1.drawing;
    var s2 := MouseMove(s1, near, false, q);
    assert s2.currentPath == [p, q];
  }

  // ---------------------------------------------------------------- playback

  /** What `play()` captures: its start time, the first recorded point's time, the paths, and one index per path. */
  datatype Playback = Playback(startTime: int, globalStart: int, paths: seq<seq<Point>>, indices: seq<nat>) {
    ghost predicate Valid() {
      && |indices| == |paths|
      && forall k :: 0 <= k < |paths| ==> indices[k] <= |paths[k]|
    }
  }

  /** `play()` at clock time `now`: a no-op while playing or with nothing recorded. */
  function Play(s: State, now: int): (out: (State, Option<Playback>))
    requires s.Valid()
    ensures out.0.Valid()
    ensures s.playing || |s.strokes| == 0 ==> out == (s, None)
    ensures !s.playing && |s.strokes| > 0 ==>
      && out.0 == DisableDrawing(s).(playing := true)
      && out.1.Some?
      && out.1.value.Valid()
      && out.1.value.startTime == now
      && out.1.value.globalStart == s.strokes[0].points[0].time
      && |out.1.value.paths| == |s.strokes|
      && (forall k :: 0 <= k < |s.strokes| ==> out.1.value.paths[k] == s.strokes[k].points && out.1.value.indices[k] == 0)
  {
    if s.playing || |s.strokes| == 0 then (s, None)
    else
      var paths := seq(|s.strokes|, k requires 0 <= k < |s.strokes| => s.strokes[k].points);
      var idx := seq(|s.strokes|, k => 0);
      (DisableDrawing(s).(playing := true), Some(Playback(now, s.strokes[0].points[0].time, paths, idx)))
  }

  /** The recorded time shown at clock time `now`: the first point's time plus the elapsed time. */
  function SimulatedTime(pb: Playback, now: int): (t: int)
    ensures t - pb.globalStart == now - pb.startTime
  {
    pb.globalStart + (now - pb.startTime)
  }

  /** The inner `while` of the animation frame: skips forward over points already due. */
  function Advance(points: seq<Point>, i: nat, sim: int): (j: nat)
    requires i <= |points|
    ensures i <= j <= |points|
    ensures forall k :: i <= k < j ==> points[k].time <= sim
    ensures j == |points| || points[j].time > sim
    decreases |points| - i
  {
    if i < |points| && points[i].time <= sim then Advance(points, i + 1, sim) else i
  }

  /** All paths are drawn to the end. */
  predicate Finished(pb: Playback) {
    forall k :: 0 <= k < |pb.paths| && k < |pb.indices| ==> pb.indices[k] == |pb.paths[k]|
  }

  /**
    One animation frame at clock time `now`: each index advances over the points due
    by the simulated time; when all are at the end, playing stops.
   */
  function Tick(s: State, pb: Playback, now: int): (out: (State, Playback))
    requires pb.Valid()
    ensures out.1.Valid()
    ensures !s.playing ==> out == (s, pb)
    ensures s.playing ==>
      && out.1 == pb.(indices := out.1.indices)
      && (forall k :: 0 <= k < |pb.paths| ==>
            && pb.indices[k] <= out.1.indices[k] <= |pb.paths[k]|
            && (forall m :: pb.indices[k] <= m < out.1.indices[k] ==> pb.paths[k][m].time <= SimulatedTime(pb, now))
            && (out.1.indices[k] == |pb.paths[k]| || pb.paths[k][out.1.indices[k]].time > SimulatedTime(pb, now)))
      && (out.0.playing <==> !Finished(out.1))
      && out.0 == s.(playing := out.0.playing)
  {
    if !s.playing then (s, pb)
    else
      var sim := SimulatedTime(pb, now);
      var idx := seq(|pb.paths|, k requires 0 <= k < |pb.paths| => Advance(pb.paths[k], pb.indices[k], sim));
      var pb1 := pb.(indices := idx);
      (s.(playing := !Finished(pb1)), pb1)
  }

  /** A tick late enough for every recorded point ends the playback. */
  lemma LateTickFinishes(s: State, pb: Playback, now: int)
    requires pb.Valid() && s.playing
    requires forall k, m :: 0 <= k < |pb.paths| && 0 <= m < |pb.paths[k]| ==> pb.paths[k][m].time <= SimulatedTime(pb, now)
    ensures !Tick(s, pb, now).0.playing
  {
  }
}

=== FILE: dynasty.dfy ===
/**
  The query logic of the dynasty API (src/api/dynasty_api.py) over the parsed
  dynasty list: lookup by id, the fuzzy city search with its de-duplication, the
  quick search that combines dynasty and city hits, and the year-sorted event
  list. Reading the data file is outside the model; a lookup that cannot read it
  is represented by the 500 results the handlers produce.
 */
module Dynasty {
  import opened Wrappers
  import Text

  /** A `majorCities` entry; `modernName` may be absent. */
  datatype City = City(name: string, modernName: Option<string>)

  /** A `historicalEvents` entry; `year` may be absent. */
  datatype HistoricalEvent = HistoricalEvent(year: Option<int>, title: string)

  datatype DynastyRecord = DynastyRecord(
    id: string,
    name: string,
    period: string,
    majorCities: seq<City>,
    historicalEvents: seq<HistoricalEvent>)

  // ---------------------------------------------------------------- lookup

  /** The 404 detail of `get_dynasty_data`, naming the id. */
  function DynastyNotFoundDetail(id: string): string {
    "朝代 '" + id + "' 未找到"
  }

  /** The 500 detail of a handler that caught `KeyError(key)`: the prefix and the quoted key. */
  function MissingKeyDetail(key: string): string {
    "服务器内部错误: '" + key + "'"
  }

  /** `next(d for d in dynasties if d["id"] == id)`, else 404. */
  function GetDynasty(ds: seq<DynastyRecord>, id: string): (r: Result<DynastyRecord>)
    ensures r.Err? <==> forall i :: 0 <= i < |ds| ==> ds[i].id != id
    ensures r.Err? ==> r == Err(404, DynastyNotFoundDetail(id))
    ensures r.Ok? ==> r.value.id == id
    ensures r.Ok? ==> exists i :: 0 <= i < |ds| && ds[i] == r.value && (forall j :: 0 <= j < i ==> ds[j].id != id)
  {
    if |ds| == 0 then Err(404, DynastyNotFoundDetail(id))
    else if ds[0].id == id then Ok(ds[0])
    else
      var r := GetDynasty(ds[1..], id);
      assert forall j :: 1 <= j < |ds| ==> ds[j] == ds[1..][j - 1];
      if r.Ok? then
        var i :| 0 <= i < |ds[1..]| && ds[1..][i] == r.value && (forall j :: 0 <= j < i ==> ds[1..][j].id != id);
        assert ds[i + 1] == r.value;
        r
      else r
  }

  // ---------------------------------------------------------------- city search

  /** `a in b` after lower-casing both. */
  predicate InIgnoringCase(a: string, b: string) {
    Text.Contains(Text.Lower(b), Text.Lower(a))
  }

  /** The fuzzy match: query and name, or query and modern name, contain one another. */
  predicate CityMatches(term: string, c: City) {
    var modern := c.modernName.GetOr("");
    InIgnoringCase(term, c.name) || InIgnoringCase(c.name, term) ||
    InIgnoringCase(term, modern) || InIgnoringCase(modern, term)
  }

  /** Every string contains the empty string. */
  lemma ContainsEmpty(s: string)
    ensures Text.Contains(s, "")
  {
    assert Text.OccursAt(s, "", 0);
  }

  /** A city whose modern name is empty or absent matches every query. */
  lemma EmptyModernNameMatchesAll(term: string, c: City)
    requires c.modernName.GetOr("") == ""
    ensures CityMatches(term, c)
  {
    assert Text.Lower("") == "";
    ContainsEmpty(Text.Lower(term));
  }

  /** An empty (stripped) query matches every city. */
  lemma EmptyQueryMatchesAll(c: City)
    ensures CityMatches("", c)
  {
    assert Text.Lower("") == "";
    ContainsEmpty(Text.Lower(c.name));
  }

  /** One entry of the city search results. */
  datatype CityHit = CityHit(cityName: string, modernName: string, dynasty: string, dynastyId: string, period: string)

  /** The entry a matching city `c` of dynasty `d` contributes. */
  function HitOf(d: DynastyRecord, c: City): CityHit {
    CityHit(c.name, c.modernName.GetOr(""), d.name, d.id, d.period)
  }

  /** The number of cities of `cities` matching `term`. */
  function MatchCount(term: string, cities: seq<City>): nat {
    if |cities| == 0 then 0
    else (if CityMatches(term, cities[0]) then 1 else 0) + MatchCount(term, cities[1..])
  }

  /** The number of matching cities over all of `ds`. */
  function HitsBefore(term: string, ds: seq<DynastyRecord>): nat {
    if |ds| == 0 then 0
    else MatchCount(term, ds[0].majorCities) + HitsBefore(term, ds[1..])
  }

  /** The hits among `cities` of dynasty `d`; `None` when a matching city has no modern name (`KeyError`). */
  function CityHits(term: string, d: DynastyRecord, cities: seq<City>): (r: Option<seq<CityHit>>)
    ensures r.None? <==> exists i :: 0 <= i < |cities| && CityMatches(term, cities[i]) && cities[i].modernName.None?
    ensures r.Some? ==> |r.value| == MatchCount(term, cities) <= |cities|
    ensures r.Some? ==> forall h :: h in r.value ==> exists c :: c in cities && CityMatches(term, c) && h == HitOf(d, c)
    ensures r.Some? ==> forall c :: c in cities && CityMatches(term, c) ==> HitOf(d, c) in r.value
  {
    if |cities| == 0 then Some([])
    else
      var c := cities[0];
      var rest := CityHits(term, d, cities[1..]);
      assert forall i :: 1 <= i < |cities| ==> cities[i] == cities[1..][i - 1];
      assert forall x :: x in cities[1..] ==> x in cities;
      assert forall x :: x in cities && x != c ==> x in cities[1..];
      if !CityMatches(term, c) then rest
      else match c.modernName
        case None => None
        case Some(m) =>
          match rest
          case None => None
          case Some(hs) => Some([CityHit(c.name, m, d.name, d.id, d.period)] + hs)
  }

  /** The hit of the i-th city, when it matches, sits after the hits of the matching cities before it. */
  lemma {:induction false} CityHitsInOrder(term: string, d: DynastyRecord, cities: seq<City>)
    requires CityHits(term, d, cities).Some?
    ensures forall i :: 0 <= i < |cities| && CityMatches(term, cities[i]) ==>
      MatchCount(term, cities[..i]) < |CityHits(term, d, cities).value| &&
      CityHits(term, d, cities).value[MatchCount(term, cities[..i])] == HitOf(d, cities[i])
    decreases |cities|
  {
    if |cities| > 0 {
      var r := CityHits(term, d, cities).value;
      assert CityHits(term, d, cities[1..]).Some? by {
        assert forall i :: 1 <= i < |cities| ==> cities[i] == cities[1..][i - 1];
      }
      var rest := CityHits(term, d, cities[1..]).value;
      CityHitsInOrder(term, d, cities[1..]);
      CityHitsInOrderStep(term, d, cities, r, rest);
    }
  }

  /** One step of `CityHitsInOrder`: a matching head goes in front, which shifts the later hits by one. */
  lemma CityHitsInOrderStep(term: string, d: DynastyRecord, cities: seq<City>, r: seq<CityHit>, rest: seq<CityHit>)
    requires |cities| > 0
    requires r == if CityMatches(term, cities[0]) then [HitOf(d, cities[0])] + rest else rest
    requires forall i :: 0 <= i < |cities[1..]| && CityMatches(term, cities[1..][i]) ==>
      MatchCount(term, cities[1..][..i]) < |rest| && rest[MatchCount(term, cities[1..][..i])] == HitOf(d, cities[1..][i])
    ensures forall i :: 0 <= i < |cities| && CityMatches(term, cities[i]) ==>
      MatchCount(term, cities[..i]) < |r| && r[MatchCount(term, cities[..i])] == HitOf(d, cities[i])
  {
    forall i | 0 <= i < |cities| && CityMatches(term, cities[i])
      ensures MatchCount(term, cities[..i]) < |r| && r[MatchCount(term, cities[..i])] == HitOf(d, cities[i])
    {
      if i == 0 {
        assert cities[..0] == [];
      } else {
        assert cities[..i][0] == cities[0];
        assert cities[..i][1..] == cities[1..][..i - 1];
        assert cities[1..][i - 1] == cities[i];
      }
    }
  }

  /** `h` is the hit of some matching city of some dynasty of `ds`. */
  predicate FromMatchingCity(term: string, ds: seq<DynastyRecord>, h: CityHit) {
    exists i, j :: 0 <= i < |ds| && 0 <= j < |ds[i].majorCities| &&
      CityMatches(term, ds[i].majorCities[j]) && h == HitOf(ds[i], ds[i].majorCities[j])
  }

  /** The search loop over all dynasties, in order. */
  function AllCityHits(term: string, ds: seq<DynastyRecord>): (r: Option<seq<CityHit>>)
    ensures r.None? <==>
      exists i, j :: 0 <= i < |ds| && 0 <= j < |ds[i].majorCities| &&
        CityMatches(term, ds[i].majorCities[j]) && ds[i].majorCities[j].modernName.None?
    ensures r.Some? ==> |r.value| == HitsBefore(term, ds)
    ensures r.Some? ==> forall h :: h in r.value ==> FromMatchingCity(term, ds, h)
    ensures r.Some? ==> forall i, j ::
      (0 <= i < |ds| && 0 <= j < |ds[i].majorCities| && CityMatches(term, ds[i].majorCities[j])) ==>
        HitOf(ds[i], ds[i].majorCities[j]) in r.value
  {
    if |ds| == 0 then Some([])
    else
      var rest := AllCityHits(term, ds[1..]);
      assert forall i :: 1 <= i < |ds| ==> ds[i] == ds[1..][i - 1];
      match CityHits(term, ds[0], ds[0].majorCities)
      case None => None
      case Some(hs) =>
        match rest
        case None => None
        case Some(more) =>
          AllCityHitsCons(term, ds, hs, more);
          Some(hs + more)
  }

  /** The hits of the first dynasty followed by those of the others are sound and complete for all of them. */
  lemma AllCityHitsCons(term: string, ds: seq<DynastyRecord>, hs: seq<CityHit>, more: seq<CityHit>)
    requires |ds| > 0
    requires forall i :: 1 <= i < |ds| ==> ds[i] == ds[1..][i - 1]
    requires forall h :: h in hs ==> exists c :: c in ds[0].majorCities && CityMatches(term, c) && h == HitOf(ds[0], c)
    requires forall c :: c in ds[0].majorCities && CityMatches(term, c) ==> HitOf(ds[0], c) in hs
    requires forall h :: h in more ==> FromMatchingCity(term, ds[1..], h)
    requires forall i, j ::
      (0 <= i < |ds[1..]| && 0 <= j < |ds[1..][i].majorCities| && CityMatches(term, ds[1..][i].majorCities[j])) ==>
        HitOf(ds[1..][i], ds[1..][i].majorCities[j]) in more
    ensures forall h :: h in hs + more ==> FromMatchingCity(term, ds, h)
    ensures forall i, j ::
      (0 <= i < |ds| && 0 <= j < |ds[i].majorCities| && CityMatches(term, ds[i].majorCities[j])) ==>
        HitOf(ds[i], ds[i].majorCities[j]) in hs + more
  {
    forall h | h in hs + more
      ensures FromMatchingCity(term, ds, h)
    {
      if h in hs {
        var c :| c in ds[0].majorCities && CityMatches(term, c) && h == HitOf(ds[0], c);
        var j :| 0 <= j < |ds[0].majorCities| && ds[0].majorCities[j] == c;
        assert CityMatches(term, ds[0].majorCities[j]) && h == HitOf(ds[0], ds[0].majorCities[j]);
      } else {
        var i, j :| 0 <= i < |ds[1..]| && 0 <= j < |ds[1..][i].majorCities| &&
          CityMatches(term, ds[1..][i].majorCities[j]) && h == HitOf(ds[1..][i], ds[1..][i].majorCities[j]);
        assert ds[i + 1] == ds[1..][i];
        assert CityMatches(term, ds[i + 1].majorCities[j]) && h == HitOf(ds[i + 1], ds[i + 1].majorCities[j]);
      }
    }
    forall i, j | 0 <= i < |ds| && 0 <= j < |ds[i].majorCities| && CityMatches(term, ds[i].majorCities[j])
      ensures HitOf(ds[i], ds[i].majorCities[j]) in hs + more
    {
      if i == 0 {
        assert ds[0].majorCities[j] in ds[0].majorCities;
      } else {
        assert ds[i] == ds[1..][i - 1];
      }
    }
  }

  /** Where the search loop puts the hit of city j of dynasty i: after the hits of every city before it. */
  function Position(term: string, ds: seq<DynastyRecord>, i: nat, j: nat): nat
    requires i < |ds| && j <= |ds[i].majorCities|
  {
    HitsBefore(term, ds[..i]) + MatchCount(term, ds[i].majorCities[..j])
  }

  /** The hit of each matching city sits at its position in dynasty-then-city order. */
  lemma {:induction false} AllCityHitsInOrder(term: string, ds: seq<DynastyRecord>)
    requires AllCityHits(term, ds).Some?
    ensures forall i, j ::
      (0 <= i < |ds| && 0 <= j < |ds[i].majorCities| && CityMatches(term, ds[i].majorCities[j])) ==>
        Position(term, ds, i, j) < |AllCityHits(term, ds).value| &&
        AllCityHits(term, ds).value[Position(term, ds, i, j)] == HitOf(ds[i], ds[i].majorCities[j])
    decreases |ds|
  {
    if |ds| > 0 {
      var hs := CityHits(term, ds[0], ds[0].majorCities).value;
      var more := AllCityHits(term, ds[1..]).value;
      CityHitsInOrder(term, ds[0], ds[0].majorCities);
      AllCityHitsInOrder(term, ds[1..]);
      AllCityHitsInOrderStep(term, ds, AllCityHits(term, ds).value, hs, more);
    }
  }

  /** One step of `AllCityHitsInOrder`: the first dynasty's hits come first and shift the others by their number. */
  lemma AllCityHitsInOrderStep(term: string, ds: seq<DynastyRecord>, r: seq<CityHit>, hs: seq<CityHit>, more: seq<CityHit>)
    requires |ds| > 0 && r == hs + more && |hs| == MatchCount(term, ds[0].majorCities)
    requires forall j :: 0 <= j < |ds[0].majorCities| && CityMatches(term, ds[0].majorCities[j]) ==>
      MatchCount(term, ds[0].majorCities[..j]) < |hs| &&
      hs[MatchCount(term, ds[0].majorCities[..j])] == HitOf(ds[0], ds[0].majorCities[j])
    requires forall i, j ::
      (0 <= i < |ds[1..]| && 0 <= j < |ds[1..][i].majorCities| && CityMatches(term, ds[1..][i].majorCities[j])) ==>
        Position(term, ds[1..], i, j) < |more| &&
        more[Position(term, ds[1..], i, j)] == HitOf(ds[1..][i], ds[1..][i].majorCities[j])
    ensures forall i, j ::
      (0 <= i < |ds| && 0 <= j < |ds[i].majorCities| && CityMatches(term, ds[i].majorCities[j])) ==>
        Position(term, ds, i, j) < |r| && r[Position(term, ds, i, j)] == HitOf(ds[i], ds[i].majorCities[j])
  {
    forall i, j | 0 <= i < |ds| && 0 <= j < |ds[i].majorCities| && CityMatches(term, ds[i].majorCities[j])
      ensures Position(term, ds, i, j) < |r| && r[Position(term, ds, i, j)] == HitOf(ds[i], ds[i].majorCities[j])
    {
      if i == 0 {
        assert ds[..0] == [];
      } else {
        assert ds[1..][i - 1] == ds[i];
        HitsBeforeCons(term, ds, i);
        assert Position(term, ds, i, j) == |hs| + Position(term, ds[1..], i - 1, j);
      }
    }
  }

  /** The hits before dynasty i are the first dynasty's and those before it among the others. */
  lemma HitsBeforeCons(term: string, ds: seq<DynastyRecord>, i: nat)
    requires 0 < i <= |ds|
    ensures HitsBefore(term, ds[..i]) == MatchCount(term, ds[0].majorCities) + HitsBefore(term, ds[1..][..i - 1])
  {
    assert ds[..i][0] == ds[0];
    assert ds[..i][1..] == ds[1..][..i - 1];
  }

  /** The first hit named `name`. */
  function FirstNamed(hs: seq<CityHit>, name: string): Option<CityHit> {
    if |hs| == 0 then None
    else if hs[0].cityName == name then Some(hs[0])
    else FirstNamed(hs[1..], name)
  }

  /** The index of the first hit named `name`, or `|hs|` when there is none. */
  function FirstIndex(hs: seq<CityHit>, name: string): (k: nat)
    ensures k <= |hs|
    ensures k < |hs| ==> hs[k].cityName == name
    ensures forall j :: 0 <= j < k ==> hs[j].cityName != name
  {
    if |hs| == 0 then 0
    else if hs[0].cityName == name then 0
    else 1 + FirstIndex(hs[1..], name)
  }

  /** The names of the hits. */
  function Names(hs: seq<CityHit>): set<string> {
    set i | 0 <= i < |hs| :: hs[i].cityName
  }

  /** The de-duplication loop with `seen` the names already kept. */
  function Dedup(hs: seq<CityHit>, seen: set<string>): (r: seq<CityHit>)
    ensures |r| <= |hs|
    ensures forall i, j :: 0 <= i < j < |r| ==> r[i].cityName != r[j].cityName
    ensures forall i :: 0 <= i < |r| ==> r[i].cityName !in seen && FirstNamed(hs, r[i].cityName) == Some(r[i])
    ensures Names(r) == Names(hs) - seen
    ensures forall i, j :: 0 <= i < j < |r| ==> FirstIndex(hs, r[i].cityName) < FirstIndex(hs, r[j].cityName)
  {
    if |hs| == 0 then []
    else
      var h := hs[0];
      NamesCons(hs);
      if h.cityName in seen then
        var r := Dedup(hs[1..], seen);
        DedupShift(hs, r);
        DedupSkip(hs, seen, r);
        r
      else
        var rest := Dedup(hs[1..], seen + {h.cityName});
        var r := [h] + rest;
        DedupShift(hs, rest);
        DedupKeep(hs, seen, rest, r);
        r
  }

  /** The names of a list are its head's and its tail's. */
  lemma NamesCons(hs: seq<CityHit>)
    requires |hs| > 0
    ensures Names(hs) == {hs[0].cityName} + Names(hs[1..])
  {
    forall n | n in Names(hs) ensures n in {hs[0].cityName} + Names(hs[1..]) {
      var i :| 0 <= i < |hs| && hs[i].cityName == n;
      if i > 0 { assert hs[1..][i - 1].cityName == n; }
    }
    forall n | n in Names(hs[1..]) ensures n in Names(hs) {
      var i :| 0 <= i < |hs[1..]| && hs[1..][i].cityName == n;
      assert hs[i + 1].cityName == n;
    }
  }

  /** A head already seen is skipped, and the first hits of the tail are those of the list. */
  lemma DedupSkip(hs: seq<CityHit>, seen: set<string>, r: seq<CityHit>)
    requires |hs| > 0 && hs[0].cityName in seen
    requires Names(hs) == {hs[0].cityName} + Names(hs[1..])
    requires forall i :: 0 <= i < |r| ==> r[i].cityName !in seen && FirstNamed(hs[1..], r[i].cityName) == Some(r[i])
    requires Names(r) == Names(hs[1..]) - seen
    ensures forall i :: 0 <= i < |r| ==> r[i].cityName !in seen && FirstNamed(hs, r[i].cityName) == Some(r[i])
    ensures Names(r) == Names(hs) - seen
  {
  }

  /** A new head is kept in front of the tail's de-duplication. */
  lemma DedupKeep(hs: seq<CityHit>, seen: set<string>, rest: seq<CityHit>, r: seq<CityHit>)
    requires |hs| > 0 && hs[0].cityName !in seen && r == [hs[0]] + rest
    requires Names(hs) == {hs[0].cityName} + Names(hs[1..])
    requires |rest| <= |hs[1..]|
    requires forall i, j :: 0 <= i < j < |rest| ==> rest[i].cityName != rest[j].cityName
    requires forall i :: 0 <= i < |rest| ==>
      rest[i].cityName !in seen + {hs[0].cityName} && FirstNamed(hs[1..], rest[i].cityName) == Some(rest[i])
    requires Names(rest) == Names(hs[1..]) - (seen + {hs[0].cityName})
    ensures |r| <= |hs|
    ensures forall i, j :: 0 <= i < j < |r| ==> r[i].cityName != r[j].cityName
    ensures forall i :: 0 <= i < |r| ==> r[i].cityName !in seen && FirstNamed(hs, r[i].cityName) == Some(r[i])
    ensures Names(r) == Names(hs) - seen
  {
    assert r[1..] == rest && r[0] == hs[0];
    forall i | 0 <= i < |r| ensures r[i].cityName !in seen && FirstNamed(hs, r[i].cityName) == Some(r[i]) {
      if i > 0 { assert r[i] == rest[i - 1]; }
    }
    assert Names(r) == {hs[0].cityName} + Names(rest) by {
      NamesCons(r);
    }
  }

  /** Names other than the head's are found one place later in the whole list than in its tail. */
  lemma DedupShift(hs: seq<CityHit>, r: seq<CityHit>)
    requires |hs| > 0
    requires forall i :: 0 <= i < |r| ==> r[i].cityName != hs[0].cityName
    requires forall i, j :: 0 <= i < j < |r| ==> FirstIndex(hs[1..], r[i].cityName) < FirstIndex(hs[1..], r[j].cityName)
    ensures forall i :: 0 <= i < |r| ==> FirstIndex(hs, r[i].cityName) == 1 + FirstIndex(hs[1..], r[i].cityName)
    ensures forall i, j :: 0 <= i < j < |r| ==> FirstIndex(hs, r[i].cityName) < FirstIndex(hs, r[j].cityName)
  {
  }

  /** The search response: the query as given, and the de-duplicated hits. */
  datatype CitySearch = CitySearch(query: string, count: nat, results: seq<CityHit>)

  /**
    `search_historical_city(city_name)`: the stripped query is matched against every
    city of every dynasty, the hits are de-duplicated by city name keeping the first,
    and a matching city without a modern name turns the request into a 500.
   */
  function SearchHistoricalCity(ds: seq<DynastyRecord>, cityName: string): (r: Result<CitySearch>)
    ensures r.Err? ==> r == Err(500, MissingKeyDetail("modernName"))
    ensures r.Ok? <==> AllCityHits(Text.Strip(cityName), ds).Some?
    ensures r.Ok? ==> r.value.count == |r.value.results| && r.value.query == cityName
    ensures r.Ok? ==> forall i, j :: 0 <= i < j < |r.value.results| ==> r.value.results[i].cityName != r.value.results[j].cityName
    ensures r.Ok? ==> Names(r.value.results) == Names(AllCityHits(Text.Strip(cityName), ds).value)
    ensures r.Ok? ==> forall i :: 0 <= i < |r.value.results| ==>
      FirstNamed(AllCityHits(Text.Strip(cityName), ds).value, r.value.results[i].cityName) == Some(r.value.results[i])
    ensures r.Ok? ==> forall i, j :: 0 <= i < j < |r.value.results| ==>
      var hs := AllCityHits(Text.Strip(cityName), ds).value;
      FirstIndex(hs, r.value.results[i].cityName) < FirstIndex(hs, r.value.results[j].cityName)
    ensures r.Ok? ==> forall i, j ::
      (0 <= i < |ds| && 0 <= j < |ds[i].majorCities| && CityMatches(Text.Strip(cityName), ds[i].majorCities[j])) ==>
        ds[i].majorCities[j].name in Names(r.value.results)
    ensures r.Ok? ==> forall k :: 0 <= k < |r.value.results| ==> FromMatchingCity(Text.Strip(cityName), ds, r.value.results[k])
  {
    match AllCityHits(Text.Strip(cityName), ds)
    case None => Err(500, MissingKeyDetail("modernName"))
    case Some(hs) =>
      var u := Dedup(hs, {});
      HitNamesCovered(Text.Strip(cityName), ds);
      ResultsFromMatchingCities(Text.Strip(cityName), ds, u);
      Ok(CitySearch(cityName, |u|, u))
  }

  /** The name of every matching city is among the names of the hits. */
  lemma HitNamesCovered(term: string, ds: seq<DynastyRecord>)
    requires AllCityHits(term, ds).Some?
    ensures forall i, j ::
      (0 <= i < |ds| && 0 <= j < |ds[i].majorCities| && CityMatches(term, ds[i].majorCities[j])) ==>
        ds[i].majorCities[j].name in Names(AllCityHits(term, ds).value)
  {
    var hs := AllCityHits(term, ds).value;
    forall i, j | 0 <= i < |ds| && 0 <= j < |ds[i].majorCities| && CityMatches(term, ds[i].majorCities[j])
      ensures ds[i].majorCities[j].name in Names(hs)
    {
      var k :| 0 <= k < |hs| && hs[k] == HitOf(ds[i], ds[i].majorCities[j]);
      assert hs[k].cityName == ds[i].majorCities[j].name;
    }
  }

  /** Each kept hit is the hit of a matching city. */
  lemma ResultsFromMatchingCities(term: string, ds: seq<DynastyRecord>, u: seq<CityHit>)
    requires AllCityHits(term, ds).Some?
    requires forall k :: 0 <= k < |u| ==> FirstNamed(AllCityHits(term, ds).value, u[k].cityName) == Some(u[k])
    ensures forall k :: 0 <= k < |u| ==> FromMatchingCity(term, ds, u[k])
  {
    var hs := AllCityHits(term, ds).value;
    forall k | 0 <= k < |u|
      ensures FromMatchingCity(term, ds, u[k])
    {
      FirstNamedIn(hs, u[k].cityName);
      assert u[k] in hs;
    }
  }

  /** The first hit of a name is a hit. */
  lemma {:induction false} FirstNamedIn(hs: seq<CityHit>, name: string)
    ensures FirstNamed(hs, name).Some? ==> FirstNamed(hs, name).value in hs
  {
    if |hs| > 0 && hs[0].cityName != name {
      FirstNamedIn(hs[1..], name);
    }
  }

  /** A city without a modern name anywhere in the data makes every city search fail. */
  lemma MissingModernNameFailsEverySearch(ds: seq<DynastyRecord>, cityName: string, i: nat, j: nat)
    requires i < |ds| && j < |ds[i].majorCities| && ds[i].majorCities[j].modernName.None?
    ensures SearchHistoricalCity(ds, cityName).Err?
  {
    EmptyModernNameMatchesAll(Text.Strip(cityName), ds[i].majorCities[j]);
  }

  // ---------------------------------------------------------------- quick search

  /** A dynasty entry of the quick search. */
  datatype DynastyHit = DynastyHit(id: string, name: string, period: string)

  /** Query and name contain one another, or the period contains the query. */
  predicate DynastyMatches(term: string, d: DynastyRecord) {
    InIgnoringCase(term, d.name) || InIgnoringCase(d.name, term) || InIgnoringCase(term, d.period)
  }

  function DynastyHits(term: string, ds: seq<DynastyRecord>): (r: seq<DynastyHit>)
    ensures |r| <= |ds|
    ensures forall h :: h in r ==> exists d :: d in ds && DynastyMatches(term, d) && h == DynastyHit(d.id, d.name, d.period)
    ensures forall d :: d in ds && DynastyMatches(term, d) ==> DynastyHit(d.id, d.name, d.period) in r
  {
    if |ds| == 0 then []
    else
      var rest := DynastyHits(term, ds[1..]);
      assert forall x :: x in ds[1..] ==> x in ds;
      assert forall x :: x in ds && x != ds[0] ==> x in ds[1..];
      if DynastyMatches(term, ds[0]) then [DynastyHit(ds[0].id, ds[0].name, ds[0].period)] + rest else rest
  }

  datatype QuickResult = QuickResult(query: string, dynasties: seq<DynastyHit>, cities: seq<CityHit>, total: nat)

  /**
    `quick_search(query)`: nothing for an empty query or one shorter than two
    characters once stripped; otherwise the matching dynasties and the city search
    for the stripped query, whose failure is logged and leaves the city list empty.
   */
  function QuickSearch(ds: seq<DynastyRecord>, query: string): (r: QuickResult)
    ensures r.query == query
    ensures r.total == |r.dynasties| + |r.cities|
    ensures |Text.Strip(query)| < 2 ==> r.dynasties == [] && r.cities == [] && r.total == 0
    ensures |Text.Strip(query)| >= 2 ==> r.dynasties == DynastyHits(Text.Strip(query), ds)
    ensures |Text.Strip(query)| >= 2 ==>
      r.cities == match SearchHistoricalCity(ds, Text.Strip(query))
        case Ok(s) => s.results
        case Err(_, _) => []
  {
    if query == "" || |Text.Strip(query)| < 2 then QuickResult(query, [], [], 0)
    else
      var term := Text.Strip(query);
      var dyn := DynastyHits(term, ds);
      var cities := match SearchHistoricalCity(ds, term)
        case Ok(s) => s.results
        case Err(_, _) => [];
      QuickResult(query, dyn, cities, |dyn| + |cities|)
  }

  /** The quick search asks the city search for the stripped query, which strips it again to the same term. */
  lemma QuickSearchCityTerm(ds: seq<DynastyRecord>, query: string)
    requires |Text.Strip(query)| >= 2
    ensures SearchHistoricalCity(ds, Text.Strip(query)).Ok? ==>
      Names(QuickSearch(ds, query).cities) == Names(AllCityHits(Text.Strip(query), ds).value)
  {
    Text.StripIdempotent(query);
  }

  // ---------------------------------------------------------------- events

  /** The sort key; only consulted once every event is known to have a year. */
  function Year(e: HistoricalEvent): int {
    e.year.GetOr(0)
  }

  /** Every event has a year. */
  predicate AllDated(es: seq<HistoricalEvent>) {
    forall i :: 0 <= i < |es| ==> es[i].year.Some?
  }

  /** Events in non-decreasing year order. */
  ghost predicate SortedByYear(es: seq<HistoricalEvent>) {
    forall i, j :: 0 <= i < j < |es| ==> Year(es[i]) <= Year(es[j])
  }

  /** Inserts `e` after every element whose year is not greater than its own. */
  function Insert(sorted: seq<HistoricalEvent>, e: HistoricalEvent): (r: seq<HistoricalEvent>)
    ensures multiset(r) == multiset(sorted) + multiset{e}
  {
    if |sorted| == 0 then [e]
    else if Year(e) < Year(sorted[0]) then [e] + sorted
    else
      assert sorted == [sorted[0]] + sorted[1..];
      [sorted[0]] + Insert(sorted[1..], e)
  }

  /** Every event of `es` is from year `b` or later. */
  ghost predicate NotBefore(es: seq<HistoricalEvent>, b: int) {
    forall j :: 0 <= j < |es| ==> b <= Year(es[j])
  }

  /** The tail of a sorted list is sorted and not earlier than its head. */
  lemma TailSorted(s: seq<HistoricalEvent>)
    requires |s| > 0 && SortedByYear(s)
    ensures SortedByYear(s[1..]) && NotBefore(s[1..], Year(s[0]))
  {
    var t := s[1..];
    assert forall k :: 0 <= k < |t| ==> t[k] == s[k + 1];
  }

  /** An event no later than every event of a sorted list can go in front of it. */
  lemma ConsSorted(x: HistoricalEvent, s: seq<HistoricalEvent>)
    requires SortedByYear(s) && NotBefore(s, Year(x))
    ensures SortedByYear([x] + s)
  {
    var r := [x] + s;
    assert forall k :: 1 <= k < |r| ==> r[k] == s[k - 1];
  }

  /** Inserting an event keeps a lower bound that it and the list share. */
  lemma InsertNotBefore(s: seq<HistoricalEvent>, e: HistoricalEvent, b: int)
    requires NotBefore(s, b) && b <= Year(e)
    ensures NotBefore(Insert(s, e), b)
  {
    var r := Insert(s, e);
    forall j | 0 <= j < |r| ensures b <= Year(r[j]) {
      assert r[j] in multiset(r);
      if r[j] != e {
        assert r[j] in multiset(s);
        var k :| 0 <= k < |s| && s[k] == r[j];
      }
    }
  }

  /** Insertion keeps the order. */
  lemma {:induction false} InsertSorted(sorted: seq<HistoricalEvent>, e: HistoricalEvent)
    requires SortedByYear(sorted)
    ensures SortedByYear(Insert(sorted, e))
  {
    if |sorted| > 0 {
      TailSorted(sorted);
      if Year(e) >= Year(sorted[0]) {
        InsertSorted(sorted[1..], e);
        InsertNotBefore(sorted[1..], e, Year(sorted[0]));
        ConsSorted(sorted[0], Insert(sorted[1..], e));
      } else {
        ConsSorted(e, sorted);
      }
    }
  }

  /** `events.sort(key=lambda x: x["year"])` on events that all have a year. */
  function SortByYear(es: seq<HistoricalEvent>): (r: seq<HistoricalEvent>)
    ensures SortedByYear(r)
    ensures multiset(r) == multiset(es)
  {
    if |es| == 0 then []
    else
      var init := es[..|es| - 1];
      assert es == init + [es[|es| - 1]];
      var sortedInit := SortByYear(init);
      InsertSorted(sortedInit, es[|es| - 1]);
      Insert(sortedInit, es[|es| - 1])
  }

  /** Sorting keeps every event and its year. */
  lemma SortKeepsDates(es: seq<HistoricalEvent>)
    requires AllDated(es)
    ensures AllDated(SortByYear(es))
  {
    var r := SortByYear(es);
    forall i | 0 <= i < |r| ensures r[i].year.Some? {
      assert r[i] in multiset(es);
      var k :| 0 <= k < |es| && es[k] == r[i];
    }
  }

  datatype EventList = EventList(dynastyId: string, dynastyName: string, period: string, events: seq<HistoricalEvent>, eventCount: nat)

  /**
    `get_historical_events(dynasty_id)`: 404 for an unknown dynasty, 500 when an event
    has no year (the sort key raises `KeyError`), else the events in year order with
    their count.
   */
  function GetHistoricalEvents(ds: seq<DynastyRecord>, id: string): (r: Result<EventList>)
    ensures r.Err? ==> r == Err(404, DynastyNotFoundDetail(id)) || r == Err(500, MissingKeyDetail("year"))
    ensures GetDynasty(ds, id).Err? ==> r.Err? && r.status == 404
    ensures GetDynasty(ds, id).Ok? ==> (r.Ok? <==> AllDated(GetDynasty(ds, id).value.historicalEvents))
    ensures r.Ok? ==> SortedByYear(r.value.events) && AllDated(r.value.events)
    ensures r.Ok? ==> multiset(r.value.events) == multiset(GetDynasty(ds, id).value.historicalEvents)
    ensures r.Ok? ==> r.value.eventCount == |r.value.events| == |GetDynasty(ds, id).value.historicalEvents|
  {
    match GetDynasty(ds, id)
    case Err(s, d) => Err(s, d)
    case Ok(d) =>
      if !AllDated(d.historicalEvents) then Err(500, MissingKeyDetail("year"))
      else
        var es := SortByYear(d.historicalEvents);
        SortKeepsDates(d.historicalEvents);
        assert |es| == |multiset(es)| == |d.historicalEvents|;
        Ok(EventList(id, d.name, d.period, es, |es|))
  }
}

=== FILE: education.dfy ===
/**
  Assessment and progress bookkeeping of the teaching mode
  (static/js/educational-system.js): the four learning modules with their
  prerequisites and lessons, `AssessmentSystem.evaluate` with its score and grade,
  and the student profile updates made after each lesson.
 */
module Education {
  import opened Wrappers

  datatype ModuleId = AncientTactics | MedievalWarfare | ModernWarfare | TacticalAnalysis

  function ModuleName(m: ModuleId): string {
    match m
    case AncientTactics => "ancient_tactics"
    case MedievalWarfare => "medieval_warfare"
    case ModernWarfare => "modern_warfare"
    case TacticalAnalysis => "tactical_analysis"
  }

  /** Position of a module in the declaration order of `learningModules`. */
  function Order(m: ModuleId): nat {
    match m
    case AncientTactics => 0
    case MedievalWarfare => 1
    case ModernWarfare => 2
    case TacticalAnalysis => 3
  }

  function Prerequisites(m: ModuleId): seq<ModuleId> {
    match m
    case AncientTactics => []
    case MedievalWarfare => [AncientTactics]
    case ModernWarfare => [AncientTactics, MedievalWarfare]
    case TacticalAnalysis => [AncientTactics, MedievalWarfare, ModernWarfare]
  }

  function Lessons(m: ModuleId): seq<string> {
    match m
    case AncientTactics => ["phalanx_formation", "roman_tactics"]
    case MedievalWarfare => ["knight_tactics", "siege_warfare"]
    case ModernWarfare => ["napoleonic_tactics"]
    case TacticalAnalysis => ["terrain_analysis"]
  }

  /**
    Every prerequisite is declared before the module that needs it, so the
    prerequisite graph has no cycle; the first module needs nothing.
   */
  lemma PrerequisitesPrecede(m: ModuleId)
    ensures forall i :: 0 <= i < |Prerequisites(m)| ==> Order(Prerequisites(m)[i]) < Order(m)
    ensures m !in Prerequisites(m)
    ensures Prerequisites(AncientTactics) == []
  {
  }

  // ---------------------------------------------------------------- assessment

  /** A JavaScript number as it arises here: a real value, or NaN from 0/0. */
  datatype Score = Num(value: real) | NaN

  /** `score >= t`; every comparison with NaN is false. */
  predicate AtLeast(s: Score, t: real) {
    s.Num? && s.value >= t
  }

  /** How many of the answers were correct (`results.filter(r => r.correct).length`). */
  function CountCorrect(results: seq<bool>): (n: nat)
    ensures n <= |results|
    ensures n == |results| <==> forall i :: 0 <= i < |results| ==> results[i]
    ensures n == multiset(results)[true]
  {
    if |results| == 0 then 0
    else
      assert results == [results[0]] + results[1..];
      (if results[0] then 1 else 0) + CountCorrect(results[1..])
  }

  /** `calculateScore`: percentage of correct answers; an empty list gives 0/0. */
  function CalculateScore(results: seq<bool>): (s: Score)
    ensures |results| == 0 <==> s == NaN
    ensures s.Num? ==> 0.0 <= s.value <= 100.0
    ensures s.Num? ==> (s.value == 100.0 <==> forall i :: 0 <= i < |results| ==> results[i])
    ensures s.Num? ==> s.value == 100.0 * (multiset(results)[true] as real) / (|results| as real)
  {
    if |results| == 0 then NaN
    else
      var c := CountCorrect(results);
      var t := |results|;
      FractionBounds(c as real, t as real);
      PercentOf(c as real, t as real);
      Num((c as real / t as real) * 100.0)
  }

  /** A percentage computed as a fraction times 100 is 100 times the count over the total. */
  lemma PercentOf(c: real, t: real)
    requires t > 0.0
    ensures (c / t) * 100.0 == 100.0 * c / t
  {
    var q := c / t;
    assert q * t == c;
    assert (100.0 * c) / t == 100.0 * q;
  }

  /** A fraction of correct answers lies in [0, 1] and reaches 1 only when every answer is correct. */
  lemma FractionBounds(c: real, t: real)
    requires 0.0 <= c <= t && t > 0.0
    ensures 0.0 <= c / t <= 1.0
    ensures c / t == 1.0 <==> c == t
  {
    var q := c / t;
    assert q * t == c;
  }

  datatype Grade = A | B | C | D | F

  /** Letter rank, A best. */
  function Rank(g: Grade): nat {
    match g
    case A => 4
    case B => 3
    case C => 2
    case D => 1
    case F => 0
  }

  /** `getGrade(score)`: thresholds 90, 80, 70 and 60. */
  function GetGrade(s: Score): (g: Grade)
    ensures s == NaN ==> g == F
    ensures g == A <==> AtLeast(s, 90.0)
    ensures g == F <==> !AtLeast(s, 60.0)
    ensures s.Num? && 80.0 <= s.value < 90.0 ==> g == B
    ensures s.Num? && 70.0 <= s.value < 80.0 ==> g == C
    ensures s.Num? && 60.0 <= s.value < 70.0 ==> g == D
  {
    if AtLeast(s, 90.0) then A
    else if AtLeast(s, 80.0) then B
    else if AtLeast(s, 70.0) then C
    else if AtLeast(s, 60.0) then D
    else F
  }

  /** A higher score never earns a lower grade. */
  lemma GradeMonotone(a: real, b: real)
    requires a <= b
    ensures Rank(GetGrade(Num(a))) <= Rank(GetGrade(Num(b)))
  {
  }

  datatype Assessment = Assessment(score: Score, grade: Grade, completed: bool)

  /** `evaluate(results)`: score, grade, and the 70-point pass mark. */
  function Evaluate(results: seq<bool>): (a: Assessment)
    ensures a.score == CalculateScore(results) && a.grade == GetGrade(a.score)
    ensures a.completed <==> AtLeast(a.score, 70.0)
    ensures |results| == 0 ==> !a.completed && a.grade == F
  {
    var s := CalculateScore(results);
    Assessment(s, GetGrade(s), AtLeast(s, 70.0))
  }

  /** Passing is exactly earning A, B or C. */
  lemma PassIffGoodGrade(results: seq<bool>)
    ensures Evaluate(results).completed <==> Evaluate(results).grade in {A, B, C}
  {
  }

  // ---------------------------------------------------------------- profile

  /** The parts of `studentProfile` the progress logic reads and writes. */
  datatype Profile = Profile(
    completedModules: seq<ModuleId>,
    currentModule: Option<ModuleId>,
    completedLessons: seq<string>,
    score: Score)

  /** `initializeStudentProfile()`. */
  function InitialProfile(): (p: Profile)
    ensures p.completedModules == [] && p.currentModule == None && p.completedLessons == []
    ensures p.score == Num(0.0)
  {
    Profile([], None, [], Num(0.0))
  }

  /** Every element of `needed` occurs in `have`, checked front to back. */
  function AllIn(needed: seq<ModuleId>, have: seq<ModuleId>): (r: bool)
    ensures r <==> forall i :: 0 <= i < |needed| ==> needed[i] in have
  {
    if |needed| == 0 then true
    else if needed[0] !in have then false
    else AllIn(needed[1..], have)
  }

  /** `checkPrerequisites(module)`: all prerequisites are among the completed modules. */
  function CheckPrerequisites(p: Profile, m: ModuleId): (r: bool)
    ensures r <==> forall i :: 0 <= i < |Prerequisites(m)| ==> Prerequisites(m)[i] in p.completedModules
    ensures m == AncientTactics ==> r
  {
    AllIn(Prerequisites(m), p.completedModules)
  }

  /** A student who has completed every earlier module may take any module. */
  lemma EarlierModulesSuffice(p: Profile, m: ModuleId)
    requires forall k: ModuleId :: Order(k) < Order(m) ==> k in p.completedModules
    ensures CheckPrerequisites(p, m)
  {
    PrerequisitesPrecede(m);
  }

  /** `isModuleComplete()`: with a current module, at least as many recorded lessons as it has, duplicates included. */
  function IsModuleComplete(p: Profile): (r: bool)
    ensures p.currentModule == None ==> !r
    ensures p.currentModule.Some? ==> (r <==> |p.completedLessons| >= |Lessons(p.currentModule.value)|)
  {
    match p.currentModule
    case None => false
    case Some(m) => |p.completedLessons| >= |Lessons(m)|
  }

  /** The state change of `completeCurrentModule()` for module `m`: recorded once, never twice. */
  function CompleteModule(p: Profile, m: ModuleId): (r: Profile)
    ensures m in r.completedModules
    ensures m in p.completedModules ==> r == p
    ensures m !in p.completedModules ==> r.completedModules == p.completedModules + [m]
    ensures r == p.(completedModules := r.completedModules)
  {
    if m in p.completedModules then p else p.(completedModules := p.completedModules + [m])
  }

  /** No module id appears twice. */
  ghost predicate Distinct(ms: seq<ModuleId>) {
    forall i, j :: 0 <= i < j < |ms| ==> ms[i] != ms[j]
  }

  /** Completing a module keeps the completed list free of duplicates, however often it is repeated. */
  lemma CompleteModuleKeepsDistinct(p: Profile, m: ModuleId)
    requires Distinct(p.completedModules)
    ensures Distinct(CompleteModule(p, m).completedModules)
    ensures CompleteModule(CompleteModule(p, m), m) == CompleteModule(p, m)
  {
  }

  /** JavaScript `(a + b) / 2` on numbers that may be NaN. */
  function Average(a: Score, b: Score): (r: Score)
    ensures a == NaN || b == NaN <==> r == NaN
    ensures r.Num? ==> (r.value - a.value == b.value - r.value)
  {
    if a.Num? && b.Num? then Num((a.value + b.value) / 2.0) else NaN
  }

  /**
    `updateStudentProgress(lessonId, assessment)`. The flag reports the `TypeError`
    thrown once `completeCurrentModule` has recorded the module: the celebration
    method it then calls is not defined anywhere.
   */
  function UpdateStudentProgress(p: Profile, lessonId: string, a: Assessment): (out: (Profile, bool))
    ensures out.0.score == Average(p.score, a.score)
    ensures out.0.currentModule == p.currentModule
    ensures !a.completed ==> out == (p.(score := Average(p.score, a.score)), false)
    ensures a.completed ==> out.0.completedLessons == p.completedLessons + [lessonId]
    ensures out.1 <==> a.completed && IsModuleComplete(p.(completedLessons := p.completedLessons + [lessonId]))
    ensures out.1 ==> p.currentModule.value in out.0.completedModules
    ensures !out.1 ==> out.0.completedModules == p.completedModules
    ensures out.0.completedModules == p.completedModules || out.0.completedModules == p.completedModules + [p.currentModule.value]
  {
    var p1 := p.(score := Average(p.score, a.score));
    if !a.completed then (p1, false)
    else
      var p2 := p1.(completedLessons := p1.completedLessons + [lessonId]);
      if IsModuleComplete(p2) then (CompleteModule(p2, p2.currentModule.value), true)
      else (p2, false)
  }

  /** Repeating the same passed lesson is counted again: two passes of one lesson complete a two-lesson module. */
  lemma RepeatedLessonCounts(lessonId: string)
    ensures var p := InitialProfile().(currentModule := Some(AncientTactics));
      var pass := Evaluate([true]);
      var (p1, _) := UpdateStudentProgress(p, lessonId, pass);
      var (p2, threw) := UpdateStudentProgress(p1, lessonId, pass);
      threw && AncientTactics in p2.completedModules
  {
    var pass := Evaluate([true]);
    assert CountCorrect([true]) == 1;
    assert pass.completed;
  }
}

=== FILE: formation.dfy ===
/**
  Rule tables and bookkeeping of the formation animation system
  (static/js/formation-animations.js): the six formations with their keyframes and
  spacing, the transition-compatibility table, the grid and gather offsets, the
  JavaScript 32-bit string hash, and the registry of unit groups and running
  animations. Timers become explicit events that carry the animation record their
  closure captured; rendering is outside the model.
 */
module Formation {
  import opened Wrappers

  datatype FormationType = Phalanx | ShieldWall | CavalryWedge | LinearFormation | Volley | DefensiveCircle

  /** The key of a formation in `this.formations` and `this.transitionRules`. */
  function FormationName(f: FormationType): string {
    match f
    case Phalanx => "phalanx"
    case ShieldWall => "shield_wall"
    case CavalryWedge => "cavalry_wedge"
    case LinearFormation => "linear_formation"
    case Volley => "volley"
    case DefensiveCircle => "defensive_circle"
  }

  /** Looks a formation up by key; any other string (such as `"dispersed"`) has no entry. */
  function ParseFormation(name: string): (r: Option<FormationType>)
    ensures r.Some? ==> FormationName(r.value) == name
    ensures forall f :: FormationName(f) == name ==> r == Some(f)
  {
    if name == "phalanx" then Some(Phalanx)
    else if name == "shield_wall" then Some(ShieldWall)
    else if name == "cavalry_wedge" then Some(CavalryWedge)
    else if name == "linear_formation" then Some(LinearFormation)
    else if name == "volley" then Some(Volley)
    else if name == "defensive_circle" then Some(DefensiveCircle)
    else None
  }

  /** A keyframe: the offset in milliseconds at which it fires and the action it announces. */
  datatype Frame = Frame(time: nat, action: string)

  function SetupTime(f: FormationType): nat {
    match f
    case Phalanx => 3000
    case ShieldWall => 2000
    case CavalryWedge => 1500
    case LinearFormation => 2500
    case Volley => 1000
    case DefensiveCircle => 2000
  }

  function Frames(f: FormationType): seq<Frame> {
    match f
    case Phalanx =>
      [Frame(0, "dispersed"), Frame(1000, "gathering"), Frame(2000, "formation_setup"), Frame(3000, "ready")]
    case ShieldWall =>
      [Frame(0, "normal_line"), Frame(1000, "shield_raise"), Frame(2000, "wall_complete")]
    case CavalryWedge =>
      [Frame(0, "formation_line"), Frame(500, "wedge_shape"), Frame(1000, "charge_ready"), Frame(1500, "charge")]
    case LinearFormation =>
      [Frame(0, "column_march"), Frame(1000, "line_deploy"), Frame(2000, "ready_formation")]
    case Volley =>
      [Frame(0, "stand_ready"), Frame(300, "aim"), Frame(500, "release"), Frame(1000, "reload")]
    case DefensiveCircle =>
      [Frame(0, "scattered"), Frame(1000, "circle_form"), Frame(2000, "defense_ready")]
  }

  /** The completion timer is armed at the last keyframe's time. */
  function CompletionTime(f: FormationType): nat {
    var fs := Frames(f);
    fs[|fs| - 1].time
  }

  /**
    Keyframes start at 0 and strictly increase. Completion coincides with the
    declared setup time for every formation except `linear_formation`, which
    completes at 2000 although its setup time is 2500.
   */
  lemma KeyframesWellFormed(f: FormationType)
    ensures |Frames(f)| > 0 && Frames(f)[0].time == 0
    ensures forall i, j :: 0 <= i < j < |Frames(f)| ==> Frames(f)[i].time < Frames(f)[j].time
    ensures CompletionTime(f) == SetupTime(f) <==> f != LinearFormation
    ensures f == LinearFormation ==> CompletionTime(f) == 2000 && SetupTime(f) == 2500
  {
  }

  /** `unitSpacing` as (x, z). */
  function Spacing(f: FormationType): (real, real) {
    match f
    case Phalanx => (3.0, 3.0)
    case ShieldWall => (2.5, 2.5)
    case CavalryWedge => (8.0, 4.0)
    case LinearFormation => (4.0, 6.0)
    case Volley => (3.0, 4.0)
    case DefensiveCircle => (2.0, 2.0)
  }

  // ---------------------------------------------------------------- transitions

  function CompatibleWith(f: FormationType): seq<FormationType> {
    match f
    case Phalanx => [ShieldWall, LinearFormation]
    case ShieldWall => [Phalanx, DefensiveCircle]
    case CavalryWedge => [LinearFormation]
    case LinearFormation => [Phalanx, CavalryWedge, Volley]
    case Volley => [LinearFormation, DefensiveCircle]
    case DefensiveCircle => [ShieldWall, Volley]
  }

  /** The `incompatible` lists of the table; `isFormationCompatible` never reads them. */
  function IncompatibleWith(f: FormationType): seq<FormationType> {
    match f
    case Phalanx => [CavalryWedge, Volley]
    case ShieldWall => [CavalryWedge, LinearFormation]
    case CavalryWedge => [Phalanx, ShieldWall, Volley]
    case LinearFormation => [ShieldWall, DefensiveCircle]
    case Volley => [Phalanx, ShieldWall, CavalryWedge]
    case DefensiveCircle => [CavalryWedge, LinearFormation, Phalanx]
  }

  function CompatibleNames(f: FormationType): seq<string> {
    seq(|CompatibleWith(f)|, i requires 0 <= i < |CompatibleWith(f)| => FormationName(CompatibleWith(f)[i]))
  }

  /** `isFormationCompatible(from, to)`: permissive for a source with no rule, else a lookup in the compatible list. */
  function IsFormationCompatible(from: string, to: string): (r: bool)
    ensures ParseFormation(from).None? ==> r
    ensures forall f, t :: from == FormationName(f) && to == FormationName(t) ==> (r <==> t in CompatibleWith(f))
    ensures forall f :: from == FormationName(f) && ParseFormation(to).None? ==> !r
  {
    match ParseFormation(from)
    case None => true
    case Some(f) =>
      CompatibleNamesMatch(f, to);
      to in CompatibleNames(f)
  }

  /** A key is in a compatible-name list exactly when it names a listed formation. */
  lemma CompatibleNamesMatch(f: FormationType, to: string)
    ensures to in CompatibleNames(f) <==> ParseFormation(to).Some? && ParseFormation(to).value in CompatibleWith(f)
  {
    var names := CompatibleNames(f);
    if to in names {
      var i :| 0 <= i < |names| && names[i] == to;
      assert ParseFormation(to) == Some(CompatibleWith(f)[i]);
    }
    if ParseFormation(to).Some? && ParseFormation(to).value in CompatibleWith(f) {
      var i :| 0 <= i < |CompatibleWith(f)| && CompatibleWith(f)[i] == ParseFormation(to).value;
      assert names[i] == to;
    }
  }

  /** Each table entry is read through its key: the `incompatible` list plays no part in the answer. */
  lemma CompatibilityIgnoresIncompatibleList(f: FormationType, t: FormationType)
    ensures IsFormationCompatible(FormationName(f), FormationName(t)) <==> t in CompatibleWith(f)
  {
  }

  /** The compatible relation is symmetric and irreflexive, and never contradicts the incompatible list. */
  lemma CompatibilityTableShape(f: FormationType, t: FormationType)
    ensures t in CompatibleWith(f) <==> f in CompatibleWith(t)
    ensures f !in CompatibleWith(f)
    ensures !(t in CompatibleWith(f) && t in IncompatibleWith(f))
  {
  }

  // ---------------------------------------------------------------- offsets

  /** `Math.ceil(Math.sqrt(50))`: the least column count whose square reaches 50. */
  const Cols: nat := 8

  lemma ColsIsCeilSqrt50()
    ensures (Cols - 1) * (Cols - 1) < 50 <= Cols * Cols
  {
  }

  /** The grid offset of a unit: column and row counted from the centre (cols/2, cols/2), times the spacing. */
  function GridOffset(unitIndex: nat, f: FormationType): (r: (real, real))
    ensures r.0 == ((unitIndex % Cols) as int - 4) as real * Spacing(f).0
    ensures r.1 == ((unitIndex / Cols) as int - 4) as real * Spacing(f).1
  {
    var half := Cols as int / 2;
    (((unitIndex % Cols) as int - half) as real * Spacing(f).0, ((unitIndex / Cols) as int - half) as real * Spacing(f).1)
  }

  /** `calculateFormationOffset(index, type)`: a row-major grid for a known formation, the origin otherwise. */
  function FormationOffset(unitIndex: nat, formationType: string): (r: (real, real))
    ensures ParseFormation(formationType).None? ==> r == (0.0, 0.0)
    ensures ParseFormation(formationType).Some? ==> r == GridOffset(unitIndex, ParseFormation(formationType).value)
  {
    match ParseFormation(formationType)
    case None => (0.0, 0.0)
    case Some(f) => GridOffset(unitIndex, f)
  }

  /** The column multiplier ranges over [-4, 3], so x offsets stay within four spacings of the centre. */
  lemma FormationOffsetColumnRange(unitIndex: nat, f: FormationType)
    ensures -4 <= (unitIndex % Cols) as int - 4 <= 3
    ensures var (sx, _) := Spacing(f);
      -4.0 * sx <= FormationOffset(unitIndex, FormationName(f)).0 <= 3.0 * sx
  {
    var sx := Spacing(f).0;
    var k := (unitIndex % Cols) as int - 4;
    assert ParseFormation(FormationName(f)) == Some(f);
    assert FormationOffset(unitIndex, FormationName(f)).0 == k as real * sx;
    ScaledColumnRange(k, sx);
  }

  /** A multiplier in [-4, 3] scales a non-negative spacing into [-4, 3] spacings. */
  lemma ScaledColumnRange(k: int, sx: real)
    requires -4 <= k <= 3 && 0.0 <= sx
    ensures -4.0 * sx <= k as real * sx <= 3.0 * sx
  {
    assert 0.0 <= (k + 4) as real * sx;
    assert 0.0 <= (3 - k) as real * sx;
  }

  /** Units eight apart in index share a column and sit one row apart. */
  lemma FormationOffsetNextRow(unitIndex: nat, f: FormationType)
    ensures FormationOffset(unitIndex + Cols, FormationName(f)).0 == FormationOffset(unitIndex, FormationName(f)).0
    ensures FormationOffset(unitIndex + Cols, FormationName(f)).1 == FormationOffset(unitIndex, FormationName(f)).1 + Spacing(f).1
  {
    assert ParseFormation(FormationName(f)) == Some(f);
    assert (unitIndex + Cols) % Cols == unitIndex % Cols;
    assert (unitIndex + Cols) / Cols == unitIndex / Cols + 1;
  }

  // ---------------------------------------------------------------- hash

  const TwoTo32: int := 0x1_0000_0000
  const TwoTo31: int := 0x8000_0000

  /** ECMAScript ToInt32: the representative of `x` modulo 2^32 in [-2^31, 2^31). */
  function ToInt32(x: int): (r: int)
    ensures -TwoTo31 <= r < TwoTo31
    ensures (x - r) % TwoTo32 == 0
  {
    var m := x % TwoTo32;
    if m >= TwoTo31 then m - TwoTo32 else m
  }

  /** Values congruent modulo 2^32 have the same ToInt32. */
  lemma ToInt32Congruent(x: int, k: int)
    ensures ToInt32(x + k * TwoTo32) == ToInt32(x)
  {
    var q := x / TwoTo32;
    var m := x % TwoTo32;
    assert x + k * TwoTo32 == (q + k) * TwoTo32 + m;
    ModOfDecomposition(x + k * TwoTo32, q + k, m);
  }

  lemma ModOfDecomposition(a: int, q: int, m: int)
    requires 0 <= m < TwoTo32 && a == q * TwoTo32 + m
    ensures a % TwoTo32 == m
  {
  }

  /** One iteration of the loop as written: `hash = ((hash << 5) - hash) + char; hash = hash & hash`. */
  function HashStep(h: int, c: char): int {
    ToInt32(ToInt32(h * 32) - h + c as int)
  }

  /** The loop of `hashCode` before the final `Math.abs`. */
  function HashFold(s: string): (r: int)
    ensures -TwoTo31 <= r < TwoTo31
  {
    if |s| == 0 then 0 else HashStep(HashFold(s[..|s| - 1]), s[|s| - 1])
  }

  /** The mathematical polynomial hash, sum of code(s[i]) * 31^(n-1-i), without any wrap-around. */
  function PolyHash(s: string): int {
    if |s| == 0 then 0 else 31 * PolyHash(s[..|s| - 1]) + s[|s| - 1] as int
  }

  /** How many multiples of 2^32 ToInt32 takes away. */
  function Wraps(x: int): int {
    x / TwoTo32 + (if x % TwoTo32 >= TwoTo31 then 1 else 0)
  }

  /** ToInt32 subtracts a whole number of multiples of 2^32. */
  lemma ToInt32Wraps(x: int)
    ensures x == ToInt32(x) + Wraps(x) * TwoTo32
  {
  }

  /** The shift-and-mask step is 32-bit multiplication by 31. */
  lemma HashStepIsTimes31(h: int, c: char)
    ensures HashStep(h, c) == ToInt32(31 * h + c as int)
  {
    var k := Wraps(h * 32);
    ToInt32Wraps(h * 32);
    assert ToInt32(h * 32) - h + c as int == (31 * h + c as int) + (-k) * TwoTo32;
    ToInt32Congruent(31 * h + c as int, -k);
  }

  /** Hashing one more character preserves congruence modulo 2^32. */
  lemma StepCongruent(hp: int, pp: int, c: int, k: int)
    requires hp == pp + k * TwoTo32
    ensures ToInt32(31 * hp + c) == ToInt32(31 * pp + c)
  {
    assert 31 * hp + c == (31 * pp + c) + (31 * k) * TwoTo32;
    ToInt32Congruent(31 * pp + c, 31 * k);
  }

  /** Folding with wrap-around at every step gives the 32-bit truncation of the polynomial hash. */
  lemma {:induction false} HashFoldIsTruncatedPoly(s: string)
    ensures HashFold(s) == ToInt32(PolyHash(s))
  {
    if |s| > 0 {
      var p := s[..|s| - 1];
      var c := s[|s| - 1];
      HashFoldIsTruncatedPoly(p);
      HashStepIsTimes31(HashFold(p), c);
      ToInt32Wraps(PolyHash(p));
      StepCongruent(HashFold(p), PolyHash(p), c as int, -Wraps(PolyHash(p)));
      assert PolyHash(s) == 31 * PolyHash(p) + c as int;
    }
  }

  /** `hashCode(str)`: the absolute value of the folded hash (a JavaScript number, so |-2^31| = 2^31). */
  function HashCode(s: string): (r: nat)
    ensures r <= TwoTo31
    ensures r == ToInt32(PolyHash(s)) || r == -ToInt32(PolyHash(s))
    ensures |s| == 0 ==> r == 0
  {
    HashFoldIsTruncatedPoly(s);
    var h := HashFold(s);
    if h < 0 then -h else h
  }

  /** `calculateGatherOffset`: the angle in whole degrees and the radius, both derived from the unit id's hash. */
  function GatherPolar(unitId: string): (r: (int, int))
    ensures 0 <= r.0 <= 359
    ensures 50 <= r.1 <= 99
    ensures r.0 == HashCode(unitId) % 360 && r.1 == 50 + HashCode(unitId) % 50
  {
    var h := HashCode(unitId);
    (h % 360, 50 + h % 50)
  }

  // ---------------------------------------------------------------- speed

  /** `setAnimationSpeed(speed)`: `Math.max(0.1, Math.min(5.0, speed))`. */
  function ClampSpeed(speed: real): (r: real)
    ensures 0.1 <= r <= 5.0
    ensures 0.1 <= speed <= 5.0 ==> r == speed
    ensures speed < 0.1 ==> r == 0.1
    ensures speed > 5.0 ==> r == 5.0
  {
    if speed > 5.0 then 5.0 else if speed < 0.1 then 0.1 else speed
  }

  lemma ClampSpeedIdempotent(speed: real)
    ensures ClampSpeed(ClampSpeed(speed)) == ClampSpeed(speed)
  {
  }

  // ---------------------------------------------------------------- registry

  /** A unit group: its unit count, its formation key, its displayed frame (-1 when idle) and action. */
  datatype UnitGroup = UnitGroup(unitCount: nat, currentFormation: string, currentFrame: int, action: Option<string>)

  datatype Status = Transitioning | Completed

  /** A running formation animation as `createFormationAnimation` leaves it. */
  datatype Animation = Animation(
    id: nat,
    formation: FormationType,
    groupId: string,
    duration: nat,
    status: Status,
    currentFrame: nat,
    compatible: bool)

  datatype Registry = Registry(groups: map<string, UnitGroup>, animations: map<nat, Animation>, speed: real, nextId: nat) {
    ghost predicate Valid() {
      forall id :: id in animations ==> id < nextId && animations[id].id == id
    }
  }

  function EmptyRegistry(): (r: Registry)
    ensures r.Valid() && r.groups == map[] && r.animations == map[] && r.speed == 1.0
  {
    Registry(map[], map[], 1.0, 0)
  }

  /** `addUnitGroup(id, units)`: a new (or replacing) group in the dispersed state with no frame. */
  function AddUnitGroup(reg: Registry, groupId: string, unitCount: nat): (r: Registry)
    ensures groupId in r.groups && r.groups[groupId] == UnitGroup(unitCount, "dispersed", -1, None)
    ensures forall g :: g != groupId ==> (g in r.groups <==> g in reg.groups)
    ensures forall g :: g != groupId && g in reg.groups ==> r.groups[g] == reg.groups[g]
    ensures r == reg.(groups := r.groups)
  {
    reg.(groups := reg.groups[groupId := UnitGroup(unitCount, "dispersed", -1, None)])
  }

  /** `createFormationAnimation(groupId, type)`: null for an unknown type or group, else a transitioning animation. */
  function CreateFormationAnimation(reg: Registry, groupId: string, formationType: string): (out: (Registry, Option<Animation>))
    requires reg.Valid()
    ensures out.0.Valid()
    ensures ParseFormation(formationType).None? || groupId !in reg.groups ==> out == (reg, None)
    ensures out.1.Some? <==> ParseFormation(formationType).Some? && groupId in reg.groups
    ensures out.1.Some? ==>
      var a := out.1.value;
      var cur := reg.groups[groupId].currentFormation;
      && a.id !in reg.animations
      && out.0.animations == reg.animations[a.id := a]
      && out.0.groups == reg.groups
      && a.formation == ParseFormation(formationType).value
      && a.groupId == groupId
      && a.duration == SetupTime(a.formation)
      && a.status == Transitioning && a.currentFrame == 0
      && (a.compatible <==> cur == "" || IsFormationCompatible(cur, formationType))
  {
    match ParseFormation(formationType)
    case None => (reg, None)
    case Some(f) =>
      if groupId !in reg.groups then (reg, None)
      else
        var cur := reg.groups[groupId].currentFormation;
        var ok := !(cur != "" && !IsFormationCompatible(cur, formationType));
        var a := Animation(reg.nextId, f, groupId, SetupTime(f), Transitioning, 0, ok);
        (reg.(animations := reg.animations[a.id := a], nextId := reg.nextId + 1), Some(a))
  }

  /** A freshly added group accepts every formation without a compatibility penalty. */
  lemma DispersedAcceptsAnyFormation(reg: Registry, groupId: string, unitCount: nat, f: FormationType)
    requires reg.Valid()
    ensures var r1 := AddUnitGroup(reg, groupId, unitCount);
      var (_, a) := CreateFormationAnimation(r1, groupId, FormationName(f));
      a.Some? && a.value.compatible
  {
  }

  /**
    A frame throws part-way: with the group gone `unitGroup.units` fails, and a
    "gathering" frame over at least one unit reaches `animateGathering`, which
    reads the undeclared variable `position`.
   */
  predicate FrameThrows(reg: Registry, a: Animation, index: nat)
    requires index < |Frames(a.formation)|
  {
    a.groupId !in reg.groups ||
    (reg.groups[a.groupId].unitCount > 0 && Frames(a.formation)[index].action == "gathering")
  }

  /**
    The frame timer for keyframe `index` of `a`: the animation (if still registered)
    records the frame first; the group shows that frame index and action only when
    the per-unit step before it does not throw. The flag reports the throw.
   */
  function ExecuteFrame(reg: Registry, a: Animation, index: nat): (out: (Registry, bool))
    requires index < |Frames(a.formation)|
    ensures out.1 <==> FrameThrows(reg, a, index)
    ensures out.1 ==> out.0.groups == reg.groups
    ensures !out.1 ==>
      out.0.groups == reg.groups[a.groupId := reg.groups[a.groupId].(currentFrame := index,
                                               action := Some(Frames(a.formation)[index].action))]
    ensures a.id in reg.animations ==>
      out.0.animations == reg.animations[a.id := reg.animations[a.id].(currentFrame := index)]
    ensures a.id !in reg.animations ==> out.0.animations == reg.animations
    ensures out.0.nextId == reg.nextId && out.0.speed == reg.speed
  {
    var anims := if a.id in reg.animations
      then reg.animations[a.id := reg.animations[a.id].(currentFrame := index)]
      else reg.animations;
    var r1 := reg.(animations := anims);
    if a.groupId !in reg.groups then (r1, true)
    else
      var g := reg.groups[a.groupId];
      var action := Frames(a.formation)[index].action;
      if g.unitCount > 0 && action == "gathering" then (r1, true)
      else (r1.(groups := reg.groups[a.groupId := g.(currentFrame := index, action := Some(action))]), false)
  }

  /**
    The only frame that throws on a present group is the phalanx's second one,
    "gathering"; every other keyframe of every formation updates its group.
   */
  lemma OnlyPhalanxGatheringThrows(reg: Registry, a: Animation, index: nat)
    requires index < |Frames(a.formation)| && a.groupId in reg.groups
    ensures ExecuteFrame(reg, a, index).1 <==>
      a.formation == Phalanx && index == 1 && reg.groups[a.groupId].unitCount > 0
  {
  }

  /** An executed frame keeps the registry's invariant, whether or not it throws. */
  lemma ExecuteFrameKeepsValid(reg: Registry, a: Animation, index: nat)
    requires reg.Valid() && index < |Frames(a.formation)|
    ensures ExecuteFrame(reg, a, index).0.Valid()
  {
  }

  /** `completeFormationAnimation(a)`: the group (if any) adopts the formation and goes idle; the animation leaves the registry. */
  function CompleteFormationAnimation(reg: Registry, a: Animation): (r: Registry)
    requires reg.Valid()
    ensures r.Valid()
    ensures a.id !in r.animations
    ensures forall id :: id != a.id ==> (id in r.animations <==> id in reg.animations)
    ensures forall id :: id in r.animations ==> r.animations[id] == reg.animations[id]
    ensures a.groupId in reg.groups ==>
      r.groups == reg.groups[a.groupId := reg.groups[a.groupId].(
        currentFormation := FormationName(a.formation), currentFrame := -1, action := Some("completed"))]
    ensures a.groupId !in reg.groups ==> r.groups == reg.groups
  {
    var groups := if a.groupId in reg.groups
      then reg.groups[a.groupId := reg.groups[a.groupId].(
        currentFormation := FormationName(a.formation), currentFrame := -1, action := Some("completed"))]
      else reg.groups;
    reg.(groups := groups, animations := reg.animations - {a.id})
  }

  /** A created animation, once complete, leaves its group in the new formation and the animation map as before. */
  lemma CreateThenCompleteAdoptsFormation(reg: Registry, groupId: string, f: FormationType)
    requires reg.Valid() && groupId in reg.groups
    ensures var (r1, a) := CreateFormationAnimation(reg, groupId, FormationName(f));
      && a.Some?
      && var r2 := CompleteFormationAnimation(r1, a.value);
      && r2.animations == reg.animations
      && groupId in r2.groups
      && r2.groups[groupId].currentFormation == FormationName(f)
      && r2.groups[groupId].currentFrame == -1
  {
    var (r1, a) := CreateFormationAnimation(reg, groupId, FormationName(f));
    assert a.value.id !in reg.animations;
    var r2 := CompleteFormationAnimation(r1, a.value);
    assert r2.animations == reg.animations;
  }

  /** `removeUnitGroup(id)`: drops the group and exactly the animations that belong to it. */
  function RemoveUnitGroup(reg: Registry, groupId: string): (r: Registry)
    requires reg.Valid()
    ensures r.Valid()
    ensures groupId !in reg.groups ==> r == reg
    ensures groupId in reg.groups ==>
      && r.groups == reg.groups - {groupId}
      && (forall id :: id in r.animations <==> id in reg.animations && reg.animations[id].groupId != groupId)
      && (forall id :: id in r.animations ==> r.animations[id] == reg.animations[id])
  {
    if groupId !in reg.groups then reg
    else
      var kept := map id | id in reg.animations && reg.animations[id].groupId != groupId :: reg.animations[id];
      reg.(groups := reg.groups - {groupId}, animations := kept)
  }

  function SetAnimationSpeed(reg: Registry, speed: real): (r: Registry)
    ensures r.speed == ClampSpeed(speed) && r == reg.(speed := r.speed)
  {
    reg.(speed := ClampSpeed(speed))
  }

  /** `stopAllAnimations()`: the animation map is emptied; groups keep their state. */
  function StopAllAnimations(reg: Registry): (r: Registry)
    ensures r.animations == map[] && r.groups == reg.groups && r == reg.(animations := map[])
  {
    reg.(animations := map[])
  }
}

=== FILE: game_battle.dfy ===
/**
  The pure helpers of the game-style battle API (src/api/game_battle_api.py):
  battle lookup across periods, period validation for the unit data, the
  per-period game rules, tactic and formation summaries, key moments, terrain
  tables, the particle-effect switch, and scenario modifications. A battle is the
  already-parsed JSON record; a key that `dict.get` defaults is an `Option` or,
  for lists, the empty sequence.
 */
module GameBattle {
  import opened Wrappers
  import Text

  /** An element of a participant's `unit_types`; `None` is an absent key. */
  datatype UnitType = UnitType(formation: Option<string>, count: Option<int>)

  /** An element of `participants`; absent `tactics` or `unit_types` are empty. */
  datatype Participant = Participant(
    forceId: string,
    name: string,
    tactics: seq<string>,
    unitTypes: seq<UnitType>,
    composition: map<string, int>)

  /** An element of `battle_timeline`; `None` is an absent key. */
  datatype Event = Event(eventType: Option<string>, description: Option<string>, effects: Option<map<string, string>>)

  /** The fields of a battle record these helpers read. */
  datatype Battle = Battle(
    period: Option<string>,
    name: Option<string>,
    terrain: Option<string>,
    participants: seq<Participant>,
    timeline: seq<Event>)

  /** One entry of `battles_data["battles"]`: a period and its battles by id. */
  datatype PeriodBattles = PeriodBattles(period: string, battles: map<string, Battle>)

  /** `battles_data["battles"]`, in insertion order. */
  type Store = seq<PeriodBattles>

  // ---------------------------------------------------------------- lookup

  /** Index of the first period that holds `id`. */
  function FindPeriod(store: Store, id: string): (r: Option<nat>)
    ensures r.Some? ==> r.value < |store| && id in store[r.value].battles
    ensures r.Some? ==> forall j :: 0 <= j < r.value ==> id !in store[j].battles
    ensures r.None? <==> forall j :: 0 <= j < |store| ==> id !in store[j].battles
  {
    if |store| == 0 then None
    else if id in store[0].battles then Some(0)
    else match FindPeriod(store[1..], id)
      case None => None
      case Some(j) => Some(j + 1)
  }

  /** The 404 detail of `get_battle_details`, naming the id. */
  function BattleNotFoundDetail(id: string): string {
    "战役 " + id + " 不存在"
  }

  /** The 500 detail of `get_battle_details`. */
  const DetailsFailedDetail := "获取战役详情失败"

  /** The 500 detail of `analyze_battle_tactics`. */
  const AnalysisFailedDetail := "战术分析失败"

  /** The 400 detail of `get_units_by_period`, naming the period. */
  function UnsupportedPeriodDetail(period: string): string {
    "不支持的历史时期: " + period
  }

  /** The 500 detail of `simulate_battle_scenario`. */
  const SimulationFailedDetail := "战役模拟失败"

  /**
    `get_battle_details(battle_id)`: the battle of the first period holding the id,
    404 when no period does, and 500 when the battle has no `historical_period`
    (the `KeyError` raised by `get_game_info`).
   */
  function GetBattleDetails(store: Store, id: string): (r: Result<Battle>)
    ensures r.Err? ==> r == Err(404, BattleNotFoundDetail(id)) || r == Err(500, DetailsFailedDetail)
    ensures r.Err? && r.status == 404 <==> forall j :: 0 <= j < |store| ==> id !in store[j].battles
    ensures r.Ok? ==> exists j :: 0 <= j < |store| && id in store[j].battles && store[j].battles[id] == r.value
    ensures r.Ok? ==> r.value.period.Some?
  {
    match FindPeriod(store, id)
    case None => Err(404, BattleNotFoundDetail(id))
    case Some(j) =>
      var b := store[j].battles[id];
      if b.period.None? then Err(500, DetailsFailedDetail) else Ok(b)
  }

  /** Two periods holding the same id: the earlier one's battle is returned. */
  lemma EarlierPeriodWins(store: Store, id: string, i: nat)
    requires i < |store| && id in store[i].battles && store[i].battles[id].period.Some?
    requires forall j :: 0 <= j < i ==> id !in store[j].battles
    ensures GetBattleDetails(store, id) == Ok(store[i].battles[id])
  {
    FindPeriodIs(store, id, i);
  }

  /** The first period holding the id is the one found. */
  lemma {:induction false} FindPeriodIs(store: Store, id: string, i: nat)
    requires i < |store| && id in store[i].battles
    requires forall j :: 0 <= j < i ==> id !in store[j].battles
    ensures FindPeriod(store, id) == Some(i)
  {
    if i > 0 {
      assert forall j :: 0 <= j < i - 1 ==> store[1..][j] == store[j + 1];
      FindPeriodIs(store[1..], id, i - 1);
    }
  }

  /**
    The analysis, effects and simulation endpoints fetch the battle through
    `get_battle_details` inside a handler that turns every exception into 500, so
    a missing battle is reported there as 500 rather than 404.
   */
  function FetchForAnalysis(store: Store, id: string): (r: Result<Battle>)
    ensures r.Err? ==> r == Err(500, AnalysisFailedDetail)
    ensures r.Ok? <==> GetBattleDetails(store, id).Ok?
    ensures r.Ok? ==> r == GetBattleDetails(store, id)
  {
    match GetBattleDetails(store, id)
    case Ok(b) => Ok(b)
    case Err(_, _) => Err(500, AnalysisFailedDetail)
  }

  // ---------------------------------------------------------------- units and rules

  const ValidPeriods: seq<string> := ["ancient", "medieval", "modern"]

  /**
    `get_units_by_period(period)`: 400 for a period outside the three, else the
    `<period>_units` entry of the units data, or `empty` when absent.
   */
  function GetUnitsByPeriod<V>(unitsData: map<string, V>, empty: V, period: string): (r: Result<V>)
    ensures r.Ok? <==> period == "ancient" || period == "medieval" || period == "modern"
    ensures r.Err? ==> r == Err(400, UnsupportedPeriodDetail(period))
    ensures r.Ok? && period + "_units" in unitsData ==> r.value == unitsData[period + "_units"]
    ensures r.Ok? && period + "_units" !in unitsData ==> r.value == empty
  {
    if period !in ValidPeriods then Err(400, UnsupportedPeriodDetail(period))
    else Ok(if period + "_units" in unitsData then unitsData[period + "_units"] else empty)
  }

  /** The units data the API loads: four fixed keys, each an empty object. */
  function LoadedUnitsData<V>(empty: V): map<string, V> {
    map["ancient_units" := empty, "medieval_units" := empty, "modern_units" := empty, "unit_enums" := empty]
  }

  /** With the data the API loads, every accepted period answers with the empty object. */
  lemma UnitsAlwaysEmpty<V>(empty: V, period: string)
    ensures GetUnitsByPeriod(LoadedUnitsData(empty), empty, period).Ok? ==>
      GetUnitsByPeriod(LoadedUnitsData(empty), empty, period).value == empty
  {
  }

  /** The part of `get_game_info` that depends on the battle. */
  datatype GameInfo = GameInfo(difficulty: string, aiBehavior: string, specialRules: seq<string>)

  /** `get_game_info`: fixed difficulty and behaviour, three rules for a known period, none otherwise. */
  function GetGameInfo(period: string): (g: GameInfo)
    ensures g.difficulty == "medium" && g.aiBehavior == "historical_accurate"
    ensures |g.specialRules| == 3 <==> period in ValidPeriods
    ensures period !in ValidPeriods ==> g.specialRules == []
  {
    var rules :=
      if period == "ancient" then ["formation_bonus_system", "morale_impact_fire_weapons", "terrain_advantage_system"]
      else if period == "medieval" then ["feudal_morale_system", "cavalry_charge_bonus", "castle_wall_defense"]
      else if period == "modern" then ["artillery_barrage_system", "line_of_sight_rules", "mechanized_warfare"]
      else [];
    GameInfo("medium", "historical_accurate", rules)
  }

  /** No special rule belongs to two periods. */
  lemma RulesPerPeriodDisjoint(a: string, b: string, rule: string)
    requires a != b && rule in GetGameInfo(a).specialRules
    ensures rule !in GetGameInfo(b).specialRules
  {
  }

  // ---------------------------------------------------------------- tactics

  /** `extract_key_tactics`: `list(set(...))` of every participant's tactics, so the order is unspecified. */
  function ExtractKeyTactics(ps: seq<Participant>): (r: set<string>)
    ensures forall t :: t in r <==> exists i :: 0 <= i < |ps| && t in ps[i].tactics
  {
    if |ps| == 0 then {}
    else
      var rest := ExtractKeyTactics(ps[1..]);
      assert forall i :: 1 <= i < |ps| ==> ps[i] == ps[1..][i - 1];
      (set t | t in ps[0].tactics) + rest
  }

  /** How `analyze_tactical_elements` classifies a tactic name. */
  datatype Kind = Offensive | Defensive | Other

  function Classify(t: string): (k: Kind)
    ensures k == Offensive <==> Text.Contains(t, "charge") || Text.Contains(t, "assault") || Text.Contains(t, "attack")
    ensures k == Defensive <==>
      k != Offensive && (Text.Contains(t, "defense") || Text.Contains(t, "shield") || Text.Contains(t, "wall"))
  {
    if Text.Contains(t, "charge") || Text.Contains(t, "assault") || Text.Contains(t, "attack") then Offensive
    else if Text.Contains(t, "defense") || Text.Contains(t, "shield") || Text.Contains(t, "wall") then Defensive
    else Other
  }

  /** A tactic together with the participant using it. */
  datatype Use = Use(tactic: string, user: string)

  /** The tactics of `p`, each paired with `p`'s name. */
  function UsesOf(p: Participant): (r: seq<Use>)
    ensures |r| == |p.tactics|
    ensures forall k :: 0 <= k < |r| ==> r[k] == Use(p.tactics[k], p.name)
  {
    seq(|p.tactics|, k requires 0 <= k < |p.tactics| => Use(p.tactics[k], p.name))
  }

  /** All tactic uses, participant by participant, in list order. */
  function AllUses(ps: seq<Participant>): seq<Use> {
    if |ps| == 0 then [] else UsesOf(ps[0]) + AllUses(ps[1..])
  }

  /** The uses of one kind, in order. */
  function OfKind(us: seq<Use>, k: Kind): (r: seq<Use>)
    ensures |r| <= |us|
    ensures forall x :: x in r ==> x in us && Classify(x.tactic) == k
    ensures forall x :: x in us && Classify(x.tactic) == k ==> x in r
  {
    if |us| == 0 then []
    else if Classify(us[0].tactic) == k then [us[0]] + OfKind(us[1..], k)
    else OfKind(us[1..], k)
  }

  /** The four lists of the analysis; the last two are never filled. */
  datatype Analysis = Analysis(offensive: seq<Use>, defensive: seq<Use>, innovative: seq<Use>, success: seq<Use>)

  /** The classifying loop: one pass appending each use to at most one list. */
  function Partition(us: seq<Use>): (r: (seq<Use>, seq<Use>))
    ensures |r.0| + |r.1| <= |us|
  {
    if |us| == 0 then ([], [])
    else
      var rest := Partition(us[1..]);
      match Classify(us[0].tactic)
      case Offensive => ([us[0]] + rest.0, rest.1)
      case Defensive => (rest.0, [us[0]] + rest.1)
      case Other => rest
  }

  /** The single pass puts exactly the offensive uses in the first list and the defensive ones in the second. */
  lemma {:induction false} PartitionIsFilter(us: seq<Use>)
    ensures Partition(us) == (OfKind(us, Offensive), OfKind(us, Defensive))
  {
    if |us| > 0 {
      PartitionIsFilter(us[1..]);
    }
  }

  /** `analyze_tactical_elements(battle_data, focus_areas)`; the focus areas are not read. */
  function AnalyzeTacticalElements(ps: seq<Participant>): (a: Analysis)
    ensures a.offensive == OfKind(AllUses(ps), Offensive)
    ensures a.defensive == OfKind(AllUses(ps), Defensive)
    ensures forall x :: x in a.offensive ==> x !in a.defensive
    ensures a.innovative == [] && a.success == []
  {
    var us := AllUses(ps);
    PartitionIsFilter(us);
    var (off, def) := Partition(us);
    Analysis(off, def, [], [])
  }

  // ---------------------------------------------------------------- formations

  /** The formation a unit type is counted under: `"default"` when absent. */
  function FormationKey(u: UnitType): string {
    u.formation.GetOr("default")
  }

  /** The count a unit type adds: 0 when absent. */
  function CountOf(u: UnitType): int {
    u.count.GetOr(0)
  }

  /** A Python dict from formation to total, as its items in insertion order. */
  type Totals = seq<(string, int)>

  ghost predicate DistinctKeys(d: Totals) {
    forall i, j :: 0 <= i < j < |d| ==> d[i].0 != d[j].0
  }

  function Keys(d: Totals): set<string> {
    set i | 0 <= i < |d| :: d[i].0
  }

  /** The keys of a dict with one more item in front. */
  lemma KeysCons(x: (string, int), d: Totals)
    ensures Keys([x] + d) == {x.0} + Keys(d)
  {
    var r := [x] + d;
    forall k | k in Keys(r) ensures k in {x.0} + Keys(d) {
      var i :| 0 <= i < |r| && r[i].0 == k;
      if i > 0 { assert r[i] == d[i - 1]; }
    }
    forall k | k in Keys(d) ensures k in Keys(r) {
      var i :| 0 <= i < |d| && d[i].0 == k;
      assert r[i + 1] == d[i];
    }
    assert r[0] == x;
  }

  function Total(d: Totals): int {
    if |d| == 0 then 0 else d[0].1 + Total(d[1..])
  }

  /** The value a dict holds for `k` (its first item with that key), 0 when absent. */
  function ValueOf(d: Totals, k: string): int {
    if |d| == 0 then 0 else if d[0].0 == k then d[0].1 else ValueOf(d[1..], k)
  }

  /** The keys of a dict in insertion order. */
  function KeyList(d: Totals): (r: seq<string>)
    ensures |r| == |d| && forall i :: 0 <= i < |d| ==> r[i] == d[i].0
  {
    seq(|d|, i requires 0 <= i < |d| => d[i].0)
  }

  /**
    `formations[f] += c`, inserting `f` with 0 first when it is new: the value
    at `f` rises by `c`, every other value stays, a new key goes to the end and
    an existing key keeps its place.
   */
  function AddTo(d: Totals, f: string, c: int): (r: Totals)
    ensures Keys(r) == Keys(d) + {f}
    ensures Total(r) == Total(d) + c
    ensures DistinctKeys(d) ==> DistinctKeys(r)
    ensures ValueOf(r, f) == ValueOf(d, f) + c
    ensures forall k :: k != f ==> ValueOf(r, k) == ValueOf(d, k)
    ensures KeyList(r) == if f in Keys(d) then KeyList(d) else KeyList(d) + [f]
    decreases |d|
  {
    if |d| == 0 then
      AddToEmpty(f, c);
      [(f, c)]
    else if d[0].0 == f then
      var r := [(f, d[0].1 + c)] + d[1..];
      AddToHead(d, f, c, r);
      r
    else
      var rest := AddTo(d[1..], f, c);
      var r := [d[0]] + rest;
      AddToCons(d, f, c, rest, r);
      r
  }

  /** The first item of a fresh dict. */
  lemma AddToEmpty(f: string, c: int)
    ensures Keys([(f, c)]) == {f} && Total([(f, c)]) == c && DistinctKeys([(f, c)])
    ensures ValueOf([(f, c)], f) == c && forall k :: k != f ==> ValueOf([(f, c)], k) == 0
    ensures KeyList([(f, c)]) == [f]
  {
    KeysCons((f, c), []);
  }

  /** Adding to the head's key rewrites the head's value alone. */
  lemma AddToHead(d: Totals, f: string, c: int, r: Totals)
    requires |d| > 0 && d[0].0 == f && r == [(f, d[0].1 + c)] + d[1..]
    ensures Keys(r) == Keys(d) + {f}
    ensures Total(r) == Total(d) + c
    ensures DistinctKeys(d) ==> DistinctKeys(r)
    ensures ValueOf(r, f) == ValueOf(d, f) + c
    ensures forall k :: k != f ==> ValueOf(r, k) == ValueOf(d, k)
    ensures f in Keys(d) && KeyList(r) == KeyList(d)
  {
    assert r[1..] == d[1..];
    KeysCons(r[0], d[1..]);
    KeysCons(d[0], d[1..]);
    assert d == [d[0]] + d[1..];
    assert KeyList(r) == KeyList(d) by {
      forall i | 0 <= i < |d| ensures KeyList(r)[i] == KeyList(d)[i] {
        if i > 0 { assert r[i] == d[i]; }
      }
    }
  }

  /** Adding to a later key puts the head back in front of the tail's update. */
  lemma AddToCons(d: Totals, f: string, c: int, rest: Totals, r: Totals)
    requires |d| > 0 && d[0].0 != f && r == [d[0]] + rest
    requires Keys(rest) == Keys(d[1..]) + {f}
    requires Total(rest) == Total(d[1..]) + c
    requires DistinctKeys(d[1..]) ==> DistinctKeys(rest)
    requires ValueOf(rest, f) == ValueOf(d[1..], f) + c
    requires forall k :: k != f ==> ValueOf(rest, k) == ValueOf(d[1..], k)
    requires KeyList(rest) == if f in Keys(d[1..]) then KeyList(d[1..]) else KeyList(d[1..]) + [f]
    ensures Keys(r) == Keys(d) + {f}
    ensures Total(r) == Total(d) + c
    ensures DistinctKeys(d) ==> DistinctKeys(r)
    ensures ValueOf(r, f) == ValueOf(d, f) + c
    ensures forall k :: k != f ==> ValueOf(r, k) == ValueOf(d, k)
    ensures KeyList(r) == if f in Keys(d) then KeyList(d) else KeyList(d) + [f]
  {
    AddToConsKeys(d, f, c, rest, r);
    AddToConsDistinct(d, f, rest);
    AddToConsKeyList(d, f, rest);
    AddToConsValues(d, f, c, rest, r);
  }

  /** The keys and the total of the dict with its head put back. */
  lemma AddToConsKeys(d: Totals, f: string, c: int, rest: Totals, r: Totals)
    requires |d| > 0 && r == [d[0]] + rest
    requires Keys(rest) == Keys(d[1..]) + {f}
    requires Total(rest) == Total(d[1..]) + c
    ensures Keys(r) == Keys(d) + {f}
    ensures Total(r) == Total(d) + c
    ensures Keys(d) == {d[0].0} + Keys(d[1..])
  {
    assert r[1..] == rest;
    KeysCons(d[0], rest);
    KeysCons(d[0], d[1..]);
    assert d == [d[0]] + d[1..];
  }

  /** The head's value is read before the tail's, and the head's key is not `f`. */
  lemma AddToConsValues(d: Totals, f: string, c: int, rest: Totals, r: Totals)
    requires |d| > 0 && d[0].0 != f && r == [d[0]] + rest
    requires ValueOf(rest, f) == ValueOf(d[1..], f) + c
    requires forall k :: k != f ==> ValueOf(rest, k) == ValueOf(d[1..], k)
    ensures ValueOf(r, f) == ValueOf(d, f) + c
    ensures forall k :: k != f ==> ValueOf(r, k) == ValueOf(d, k)
  {
    assert r[1..] == rest;
  }

  /** Putting back the head of a dict keeps the key order of the tail's update. */
  lemma AddToConsKeyList(d: Totals, f: string, rest: Totals)
    requires |d| > 0 && d[0].0 != f
    requires Keys(d) == {d[0].0} + Keys(d[1..])
    requires KeyList(rest) == if f in Keys(d[1..]) then KeyList(d[1..]) else KeyList(d[1..]) + [f]
    ensures KeyList([d[0]] + rest) == if f in Keys(d) then KeyList(d) else KeyList(d) + [f]
  {
    var r := [d[0]] + rest;
    assert KeyList(r) == [d[0].0] + KeyList(rest);
    assert KeyList(d) == [d[0].0] + KeyList(d[1..]);
  }

  /** Putting back the head of a dict in front of the tail's update keeps distinct keys distinct. */
  lemma AddToConsDistinct(d: Totals, f: string, rest: Totals)
    requires |d| > 0 && d[0].0 != f
    requires Keys(rest) == Keys(d[1..]) + {f}
    requires DistinctKeys(d[1..]) ==> DistinctKeys(rest)
    ensures DistinctKeys(d) ==> DistinctKeys([d[0]] + rest)
  {
    if DistinctKeys(d) {
      TailDistinctTotals(d);
      ConsDistinctTotals(d[0], rest);
    }
  }

  /** The tail of a dict has distinct keys, none of them the head's. */
  lemma TailDistinctTotals(d: Totals)
    requires |d| > 0 && DistinctKeys(d)
    ensures DistinctKeys(d[1..]) && d[0].0 !in Keys(d[1..])
  {
    var t := d[1..];
    assert forall k :: 0 <= k < |t| ==> t[k] == d[k + 1];
  }

  /** An item whose key is new to a dict with distinct keys can go in front of it. */
  lemma ConsDistinctTotals(x: (string, int), d: Totals)
    requires DistinctKeys(d) && x.0 !in Keys(d)
    ensures DistinctKeys([x] + d)
  {
    var r := [x] + d;
    assert forall k :: 1 <= k < |r| ==> r[k] == d[k - 1];
    assert forall k :: 0 <= k < |d| ==> d[k].0 in Keys(d);
  }

  /** Every unit type of every participant, in order. */
  function AllUnitTypes(ps: seq<Participant>): seq<UnitType> {
    if |ps| == 0 then [] else ps[0].unitTypes + AllUnitTypes(ps[1..])
  }

  /** The counting loop over `us`, starting from the totals `d`. */
  function CountFormations(d: Totals, us: seq<UnitType>): (r: Totals)
    ensures DistinctKeys(d) ==> DistinctKeys(r)
    decreases |us|
  {
    if |us| == 0 then d else CountFormations(AddTo(d, FormationKey(us[0]), CountOf(us[0])), us[1..])
  }

  /** The sum of the counts of `us`. */
  function SumCounts(us: seq<UnitType>): int {
    if |us| == 0 then 0 else CountOf(us[0]) + SumCounts(us[1..])
  }

  /** The formation names used by `us`. */
  function FormationsUsed(us: seq<UnitType>): set<string> {
    set i | 0 <= i < |us| :: FormationKey(us[i])
  }

  /** Counting adds exactly the counts and the formation names of `us` to the totals. */
  lemma {:induction false} CountFormationsSums(d: Totals, us: seq<UnitType>)
    ensures Total(CountFormations(d, us)) == Total(d) + SumCounts(us)
    ensures Keys(CountFormations(d, us)) == Keys(d) + FormationsUsed(us)
    decreases |us|
  {
    if |us| > 0 {
      var d1 := AddTo(d, FormationKey(us[0]), CountOf(us[0]));
      CountFormationsSums(d1, us[1..]);
      FormationsUsedCons(us);
    }
  }

  /** The formations used by a list are the first one's and those of the rest. */
  lemma FormationsUsedCons(us: seq<UnitType>)
    requires |us| > 0
    ensures FormationsUsed(us) == {FormationKey(us[0])} + FormationsUsed(us[1..])
  {
    forall f | f in FormationsUsed(us) ensures f in {FormationKey(us[0])} + FormationsUsed(us[1..]) {
      var i :| 0 <= i < |us| && FormationKey(us[i]) == f;
      if i > 0 { assert us[i] == us[1..][i - 1]; }
    }
    forall f | f in FormationsUsed(us[1..]) ensures f in FormationsUsed(us) {
      var i :| 0 <= i < |us[1..]| && FormationKey(us[1..][i]) == f;
      assert us[1..][i] == us[i + 1];
    }
  }

  /** The sum of the counts of the unit types of `us` that use formation `f`. */
  function SumFor(us: seq<UnitType>, f: string): int {
    if |us| == 0 then 0 else (if FormationKey(us[0]) == f then CountOf(us[0]) else 0) + SumFor(us[1..], f)
  }

  /** `seen` followed by the names of `fs` not seen before, each at its first occurrence. */
  function FirstUses(seen: seq<string>, fs: seq<string>): seq<string>
    decreases |fs|
  {
    if |fs| == 0 then seen
    else FirstUses(if fs[0] in seen then seen else seen + [fs[0]], fs[1..])
  }

  /** The formation names of `us`, one per unit type, in order. */
  function FormationKeys(us: seq<UnitType>): (r: seq<string>)
    ensures |r| == |us| && forall i :: 0 <= i < |us| ==> r[i] == FormationKey(us[i])
  {
    seq(|us|, i requires 0 <= i < |us| => FormationKey(us[i]))
  }

  /** Counting adds, for every formation, exactly the counts of the unit types using it. */
  lemma {:induction false} CountFormationsValues(d: Totals, us: seq<UnitType>, f: string)
    ensures ValueOf(CountFormations(d, us), f) == ValueOf(d, f) + SumFor(us, f)
    decreases |us|
  {
    if |us| > 0 {
      var d1 := AddTo(d, FormationKey(us[0]), CountOf(us[0]));
      CountFormationsValues(d1, us[1..], f);
    }
  }

  /** Counting appends each formation name at its first use and never reorders the keys. */
  lemma {:induction false} CountFormationsOrder(d: Totals, us: seq<UnitType>)
    ensures KeyList(CountFormations(d, us)) == FirstUses(KeyList(d), FormationKeys(us))
    decreases |us|
  {
    if |us| > 0 {
      var k := FormationKey(us[0]);
      var d1 := AddTo(d, k, CountOf(us[0]));
      CountFormationsOrder(d1, us[1..]);
      FormationKeysTail(us);
      AddToKeyList(d, k, CountOf(us[0]));
      FirstUsesStep(KeyList(d), KeyList(d1), FormationKeys(us), k);
    }
  }

  /** The formation names of a list's tail are the tail of its formation names. */
  lemma FormationKeysTail(us: seq<UnitType>)
    requires |us| > 0
    ensures FormationKeys(us)[0] == FormationKey(us[0])
    ensures FormationKeys(us)[1..] == FormationKeys(us[1..])
  {
  }

  /** Adding to the totals keeps the key list, or appends a new key to it. */
  lemma AddToKeyList(d: Totals, f: string, c: int)
    ensures KeyList(AddTo(d, f, c)) == if f in KeyList(d) then KeyList(d) else KeyList(d) + [f]
  {
    KeyListKeys(d);
  }

  /** One step of `FirstUses`: the first name is appended unless already seen. */
  lemma FirstUsesStep(seen: seq<string>, seen1: seq<string>, fs: seq<string>, k: string)
    requires |fs| > 0 && fs[0] == k
    requires seen1 == if k in seen then seen else seen + [k]
    ensures FirstUses(seen, fs) == FirstUses(seen1, fs[1..])
  {
  }

  /** A key is in the key list exactly when it is a key. */
  lemma KeyListKeys(d: Totals)
    ensures forall k :: k in KeyList(d) <==> k in Keys(d)
  {
    forall k | k in Keys(d) ensures k in KeyList(d) {
      var i :| 0 <= i < |d| && d[i].0 == k;
      assert KeyList(d)[i] == k;
    }
  }

  /**
    `analyze_formations_in_battle`: one entry per formation used, keys distinct
    and in order of first use, each holding the sum of the counts of the unit
    types using that formation.
   */
  function AnalyzeFormations(ps: seq<Participant>): (r: Totals)
    ensures DistinctKeys(r)
    ensures Keys(r) == FormationsUsed(AllUnitTypes(ps))
    ensures Total(r) == SumCounts(AllUnitTypes(ps))
    ensures forall f :: ValueOf(r, f) == SumFor(AllUnitTypes(ps), f)
    ensures KeyList(r) == FirstUses([], FormationKeys(AllUnitTypes(ps)))
  {
    var us := AllUnitTypes(ps);
    CountFormationsSums([], us);
    CountFormationsOrder([], us);
    assert KeyList([]) == [];
    forall f ensures ValueOf(CountFormations([], us), f) == SumFor(us, f) {
      CountFormationsValues([], us, f);
    }
    CountFormations([], us)
  }

  // ---------------------------------------------------------------- timeline, terrain, effects

  /** The event types `extract_key_moments` keeps. */
  predicate IsKeyEvent(e: Event) {
    e.eventType == Some("decisive_maneuver") || e.eventType == Some("retreat") || e.eventType == Some("victory")
  }

  /** `event.get("description", "")`. */
  function DescriptionOf(e: Event): string {
    e.description.GetOr("")
  }

  /** The number of key events. */
  function CountKeyEvents(timeline: seq<Event>): nat {
    if |timeline| == 0 then 0
    else CountKeyEvents(timeline[..|timeline| - 1]) + (if IsKeyEvent(timeline[|timeline| - 1]) then 1 else 0)
  }

  /**
    `extract_key_moments`: the loop appends the description of each key event,
    so the key event at index `i` lands at the position that counts the key
    events before it.
   */
  function ExtractKeyMoments(timeline: seq<Event>): (r: seq<string>)
    ensures |r| == CountKeyEvents(timeline)
    ensures forall i :: 0 <= i < |timeline| && IsKeyEvent(timeline[i]) ==>
      CountKeyEvents(timeline[..i]) < |r| && r[CountKeyEvents(timeline[..i])] == DescriptionOf(timeline[i])
    ensures forall x :: x in r ==> exists e :: e in timeline && IsKeyEvent(e) && DescriptionOf(e) == x
  {
    if |timeline| == 0 then []
    else
      var n := |timeline| - 1;
      var prev := ExtractKeyMoments(timeline[..n]);
      var r := if IsKeyEvent(timeline[n]) then prev + [DescriptionOf(timeline[n])] else prev;
      ExtractKeyMomentsStep(timeline, prev, r);
      r
  }

  /** One more event appended to the timeline appends at most its own description. */
  lemma ExtractKeyMomentsStep(timeline: seq<Event>, prev: seq<string>, r: seq<string>)
    requires |timeline| > 0
    requires var t := timeline[..|timeline| - 1];
      && |prev| == CountKeyEvents(t)
      && (forall i :: 0 <= i < |t| && IsKeyEvent(t[i]) ==>
            CountKeyEvents(t[..i]) < |prev| && prev[CountKeyEvents(t[..i])] == DescriptionOf(t[i]))
      && (forall x :: x in prev ==> exists e :: e in t && IsKeyEvent(e) && DescriptionOf(e) == x)
    requires var n := |timeline| - 1;
      r == if IsKeyEvent(timeline[n]) then prev + [DescriptionOf(timeline[n])] else prev
    ensures |r| == CountKeyEvents(timeline)
    ensures forall i :: 0 <= i < |timeline| && IsKeyEvent(timeline[i]) ==>
      CountKeyEvents(timeline[..i]) < |r| && r[CountKeyEvents(timeline[..i])] == DescriptionOf(timeline[i])
    ensures forall x :: x in r ==> exists e :: e in timeline && IsKeyEvent(e) && DescriptionOf(e) == x
  {
    var n := |timeline| - 1;
    var t := timeline[..n];
    assert timeline[..n] == t;
    forall i | 0 <= i < |timeline| && IsKeyEvent(timeline[i])
      ensures CountKeyEvents(timeline[..i]) < |r| && r[CountKeyEvents(timeline[..i])] == DescriptionOf(timeline[i])
    {
      if i < n {
        assert t[i] == timeline[i] && t[..i] == timeline[..i];
      }
    }
    forall x | x in r ensures exists e :: e in timeline && IsKeyEvent(e) && DescriptionOf(e) == x {
      if x in prev {
        var e :| e in t && IsKeyEvent(e) && DescriptionOf(e) == x;
        assert e in timeline;
      } else {
        assert timeline[n] in timeline;
      }
    }
  }

  /** A timeline without key events yields no moments. */
  lemma {:induction false} NoKeyEventsNoMoments(timeline: seq<Event>)
    requires forall i :: 0 <= i < |timeline| ==> !IsKeyEvent(timeline[i])
    ensures ExtractKeyMoments(timeline) == []
    decreases |timeline|
  {
    if |timeline| > 0 {
      var n := |timeline| - 1;
      var prev := timeline[..n];
      assert forall i :: 0 <= i < |prev| ==> prev[i] == timeline[i];
      NoKeyEventsNoMoments(prev);
      assert !IsKeyEvent(timeline[n]);
    }
  }

  datatype TerrainImpact = TerrainImpact(advantages: seq<string>, disadvantages: seq<string>)

  /** The four terrain types with a table entry. */
  predicate KnownTerrain(t: string) {
    t == "river_bank" || t == "plains" || t == "hill_plains" || t == "hills_and_plains"
  }

  /** `analyze_terrain_impact`: the table entry of the terrain type, or two empty lists; a missing type is `"unknown"`. */
  function AnalyzeTerrainImpact(terrain: Option<string>): (r: TerrainImpact)
    ensures terrain.Some? && KnownTerrain(terrain.value) ==> |r.advantages| == 3 && |r.disadvantages| == 2
    ensures !(terrain.Some? && KnownTerrain(terrain.value)) ==> r == TerrainImpact([], [])
  {
    match terrain.GetOr("unknown")
    case "river_bank" =>
      TerrainImpact(["natural_barrier", "retreat_advantage", "naval_support"], ["limited_mobility", "bottleneck_risk"])
    case "plains" =>
      TerrainImpact(["cavalry_advantage", "open_battlefield", "maneuverability"], ["exposed_position", "defensive_difficulty"])
    case "hill_plains" =>
      TerrainImpact(["elevated_defense", "command_position", "strategic_overlook"], ["limited_cavalry_movement", "siege_complications"])
    case "hills_and_plains" =>
      TerrainImpact(["varied_tactics", "strategic_flexibility", "defensive_options"], ["complex_coordination", "supply_challenges"])
    case _ => TerrainImpact([], [])
  }

  /** The intensities `get_particle_effects_config` reports; every effect is enabled. */
  datatype Particles = Particles(explosions: string, fire: string, smoke: string, dust: string)

  /** The battle name mentions fire: it contains 火, or "fire" once lower-cased. */
  predicate FireNamed(name: string) {
    Text.Contains(name, "火") || Text.Contains(Text.Lower(name), "fire")
  }

  /** `get_particle_effects_config`: fire and smoke are raised exactly for a fire-named battle. */
  function ParticleEffects(name: Option<string>): (r: Particles)
    ensures r.explosions == "medium" && r.dust == "low"
    ensures r.fire == "very_high" <==> FireNamed(name.GetOr(""))
    ensures r.smoke == "high" <==> FireNamed(name.GetOr(""))
    ensures !FireNamed(name.GetOr("")) ==> r.fire == "high" && r.smoke == "medium"
  {
    if FireNamed(name.GetOr("")) then Particles("medium", "very_high", "high", "low")
    else Particles("medium", "high", "medium", "low")
  }

  /** Lower-casing the name first changes nothing about the fire switch. */
  lemma FireSwitchIgnoresCase(name: string)
    ensures FireNamed(Text.Lower(name)) ==> FireNamed(name)
  {
    Text.LowerIdempotent(name);
    if Text.Contains(Text.Lower(name), "火") {
      var i :| Text.OccursAt(Text.Lower(name), "火", i);
      assert Text.Lower(name)[i] == Text.LowerChar(name[i]);
      assert Text.OccursAt(name, "火", i);
    }
  }

  // ---------------------------------------------------------------- scenario modifications

  /** The two parts of `modifications` that are read. */
  datatype Modifications = Modifications(
    unitModifications: Option<map<string, map<string, int>>>,
    weatherChanges: Option<map<string, string>>)

  /** The unit changes for one participant: every listed unit count is overwritten. */
  function ModifyParticipant(p: Participant, unitMods: map<string, map<string, int>>): (r: Participant)
    ensures r.forceId == p.forceId && r.name == p.name && r.tactics == p.tactics && r.unitTypes == p.unitTypes
    ensures p.forceId !in unitMods ==> r.composition == p.composition
    ensures p.forceId in unitMods ==> forall u :: u in unitMods[p.forceId] ==> u in r.composition && r.composition[u] == unitMods[p.forceId][u]
    ensures p.forceId in unitMods ==> forall u :: u in p.composition && u !in unitMods[p.forceId] ==> u in r.composition && r.composition[u] == p.composition[u]
    ensures r.composition.Keys <= p.composition.Keys + (if p.forceId in unitMods then unitMods[p.forceId].Keys else {})
  {
    if p.forceId in unitMods then p.(composition := p.composition + unitMods[p.forceId]) else p
  }

  /** The weather change for one event: `event["effects"]["weather"] = w`, failing without `effects`. */
  function ModifyEvent(e: Event, w: string): (r: Option<Event>)
    ensures r.Some? <==> e.effects.Some?
    ensures r.Some? ==> r.value.effects.Some? && "weather" in r.value.effects.value && r.value.effects.value["weather"] == w
    ensures r.Some? ==> r.value.eventType == e.eventType && r.value.description == e.description
  {
    match e.effects
    case None => None
    case Some(fx) => Some(e.(effects := Some(fx["weather" := w])))
  }

  /** The weather loop over the timeline; `None` when some event has no `effects`. */
  function ModifyTimeline(timeline: seq<Event>, w: string): (r: Option<seq<Event>>)
    ensures r.Some? <==> forall i :: 0 <= i < |timeline| ==> timeline[i].effects.Some?
    ensures r.Some? ==> |r.value| == |timeline| && forall i :: 0 <= i < |timeline| ==> Some(r.value[i]) == ModifyEvent(timeline[i], w)
  {
    if |timeline| == 0 then Some([])
    else match (ModifyEvent(timeline[0], w), ModifyTimeline(timeline[1..], w))
      case (Some(e), Some(rest)) =>
        assert forall i :: 1 <= i < |timeline| ==> timeline[i] == timeline[1..][i - 1];
        Some([e] + rest)
      case (None, _) => None
      case (_, None) =>
        assert forall i :: 1 <= i < |timeline| ==> timeline[i] == timeline[1..][i - 1];
        None
  }

  /** The participants after the unit changes, when there are any. */
  function ModifiedParticipants(ps: seq<Participant>, um: Option<map<string, map<string, int>>>): (r: seq<Participant>)
    ensures |r| == |ps|
    ensures um.None? ==> r == ps
    ensures um.Some? ==> forall i :: 0 <= i < |ps| ==> r[i] == ModifyParticipant(ps[i], um.value)
  {
    match um
    case None => ps
    case Some(m) => seq(|ps|, i requires 0 <= i < |ps| => ModifyParticipant(ps[i], m))
  }

  /** The weather the changes write: `weather_changes["weather"]` when both are present. */
  function WeatherOf(m: Modifications): (w: Option<string>)
    ensures w.Some? <==> m.weatherChanges.Some? && "weather" in m.weatherChanges.value
    ensures w.Some? ==> w.value == m.weatherChanges.value["weather"]
  {
    match m.weatherChanges
    case None => None
    case Some(wc) => if "weather" in wc then Some(wc["weather"]) else None
  }

  /**
    `apply_scenario_modifications`: unit counts overwritten per matching force id,
    then the weather written into every event when the changes name one. An event
    without `effects` raises `KeyError`, reported by the endpoint as 500.
   */
  function ApplyScenarioModifications(b: Battle, m: Modifications): (r: Result<Battle>)
    ensures r.Err? ==> r == Err(500, SimulationFailedDetail)
    ensures m.unitModifications.None? && WeatherOf(m).None? ==> r == Ok(b)
    ensures r.Ok? ==> |r.value.participants| == |b.participants|
    ensures r.Ok? && m.unitModifications.Some? ==> forall i :: 0 <= i < |b.participants| ==>
      r.value.participants[i] == ModifyParticipant(b.participants[i], m.unitModifications.value)
    ensures r.Ok? ==> r.value.period == b.period && r.value.name == b.name && r.value.terrain == b.terrain
    ensures r.Ok? && WeatherOf(m).None? ==> r.value.timeline == b.timeline
    ensures r.Ok? && WeatherOf(m).Some? ==>
      && |r.value.timeline| == |b.timeline|
      && forall i :: 0 <= i < |b.timeline| ==> Some(r.value.timeline[i]) == ModifyEvent(b.timeline[i], WeatherOf(m).value)
    ensures r.Err? <==> WeatherOf(m).Some? && exists i :: 0 <= i < |b.timeline| && b.timeline[i].effects.None?
  {
    var b1 := b.(participants := ModifiedParticipants(b.participants, m.unitModifications));
    match WeatherOf(m)
    case None => Ok(b1)
    case Some(w) =>
      match ModifyTimeline(b.timeline, w)
      case None => Err(500, SimulationFailedDetail)
      case Some(tl) => Ok(b1.(timeline := tl))
  }

  /**
    The weather loop run in place: events take the new weather one by one, and
    the first event without `effects` stops the loop, leaving it and the events
    after it as they were.
   */
  function WriteWeather(timeline: seq<Event>, w: string): (r: seq<Event>)
    ensures |r| == |timeline|
    ensures forall i :: 0 <= i < |timeline| && (forall k :: 0 <= k <= i ==> timeline[k].effects.Some?) ==>
      Some(r[i]) == ModifyEvent(timeline[i], w)
    ensures forall i :: 0 <= i < |timeline| && (exists k :: 0 <= k <= i && timeline[k].effects.None?) ==>
      r[i] == timeline[i]
    ensures ModifyTimeline(timeline, w).Some? ==> r == ModifyTimeline(timeline, w).value
  {
    if |timeline| == 0 then []
    else match ModifyEvent(timeline[0], w)
      case None => timeline
      case Some(e) =>
        var rest := WriteWeather(timeline[1..], w);
        var r := [e] + rest;
        WriteWeatherStep(timeline, w, e, rest, r);
        r
  }

  /** The head takes the weather and the tail goes through the loop. */
  lemma WriteWeatherStep(timeline: seq<Event>, w: string, e: Event, rest: seq<Event>, r: seq<Event>)
    requires |timeline| > 0 && ModifyEvent(timeline[0], w) == Some(e) && r == [e] + rest
    requires var t := timeline[1..];
      && |rest| == |t|
      && (forall i :: 0 <= i < |t| && (forall k :: 0 <= k <= i ==> t[k].effects.Some?) ==> Some(rest[i]) == ModifyEvent(t[i], w))
      && (forall i :: 0 <= i < |t| && (exists k :: 0 <= k <= i && t[k].effects.None?) ==> rest[i] == t[i])
      && (ModifyTimeline(t, w).Some? ==> rest == ModifyTimeline(t, w).value)
    ensures |r| == |timeline|
    ensures forall i :: 0 <= i < |timeline| && (forall k :: 0 <= k <= i ==> timeline[k].effects.Some?) ==>
      Some(r[i]) == ModifyEvent(timeline[i], w)
    ensures forall i :: 0 <= i < |timeline| && (exists k :: 0 <= k <= i && timeline[k].effects.None?) ==>
      r[i] == timeline[i]
    ensures ModifyTimeline(timeline, w).Some? ==> r == ModifyTimeline(timeline, w).value
  {
    WriteWeatherWritten(timeline, w, e, rest, r);
    WriteWeatherKept(timeline, w, e, rest, r);
  }

  /** The events before the first one without `effects` carry the weather. */
  lemma WriteWeatherWritten(timeline: seq<Event>, w: string, e: Event, rest: seq<Event>, r: seq<Event>)
    requires |timeline| > 0 && ModifyEvent(timeline[0], w) == Some(e) && r == [e] + rest
    requires var t := timeline[1..];
      && |rest| == |t|
      && (forall i :: 0 <= i < |t| && (forall k :: 0 <= k <= i ==> t[k].effects.Some?) ==> Some(rest[i]) == ModifyEvent(t[i], w))
    ensures forall i :: 0 <= i < |timeline| && (forall k :: 0 <= k <= i ==> timeline[k].effects.Some?) ==>
      Some(r[i]) == ModifyEvent(timeline[i], w)
  {
    var t := timeline[1..];
    forall i | 0 <= i < |timeline| && (forall k :: 0 <= k <= i ==> timeline[k].effects.Some?)
      ensures Some(r[i]) == ModifyEvent(timeline[i], w)
    {
      if i > 0 {
        assert forall k :: 0 <= k <= i - 1 ==> t[k] == timeline[k + 1];
        assert r[i] == rest[i - 1];
      }
    }
  }

  /** The first event without `effects` and the later ones are left alone. */
  lemma WriteWeatherKept(timeline: seq<Event>, w: string, e: Event, rest: seq<Event>, r: seq<Event>)
    requires |timeline| > 0 && timeline[0].effects.Some? && r == [e] + rest
    requires var t := timeline[1..];
      && |rest| == |t|
      && (forall i :: 0 <= i < |t| && (exists k :: 0 <= k <= i && t[k].effects.None?) ==> rest[i] == t[i])
    ensures forall i :: 0 <= i < |timeline| && (exists k :: 0 <= k <= i && timeline[k].effects.None?) ==>
      r[i] == timeline[i]
  {
    var t := timeline[1..];
    forall i | 0 <= i < |timeline| && (exists k :: 0 <= k <= i && timeline[k].effects.None?)
      ensures r[i] == timeline[i]
    {
      var k :| 0 <= k <= i && timeline[k].effects.None?;
      assert k > 0;
      assert t[k - 1] == timeline[k] && t[i - 1] == timeline[i];
      assert r[i] == rest[i - 1];
    }
  }

  /**
    The battle as the in-place writes of `apply_scenario_modifications` leave it,
    whether or not the weather loop finishes: every participant change is made,
    then the weather reaches the events before the first one without `effects`.
   */
  function WrittenBattle(b: Battle, m: Modifications): (r: Battle)
    ensures r.period == b.period && r.name == b.name && r.terrain == b.terrain
    ensures r.participants == ModifiedParticipants(b.participants, m.unitModifications)
    ensures WeatherOf(m).None? ==> r.timeline == b.timeline
    ensures WeatherOf(m).Some? ==> r.timeline == WriteWeather(b.timeline, WeatherOf(m).value)
    ensures ApplyScenarioModifications(b, m).Ok? ==> ApplyScenarioModifications(b, m).value == r
  {
    var b1 := b.(participants := ModifiedParticipants(b.participants, m.unitModifications));
    match WeatherOf(m)
    case None => b1
    case Some(w) => b1.(timeline := WriteWeather(b.timeline, w))
  }

  /** The store with the battle `id` of period `j` replaced. */
  function Replace(store: Store, j: nat, id: string, b: Battle): (r: Store)
    requires j < |store|
    ensures |r| == |store|
  {
    store[j := store[j].(battles := store[j].battles[id := b])]
  }

  /**
    `simulate_battle_scenario` as written: `battle_data.copy()` is shallow, so the
    participants and timeline events the modifications write to are the stored
    battle's own. The store afterwards holds every write made before the result
    was decided, also when the weather loop raises.
   */
  function SimulateAsWritten(store: Store, id: string, m: Modifications): (r: (Result<Battle>, Store))
    ensures r.0.Err? ==> r.0 == Err(500, SimulationFailedDetail)
    ensures r.0.Ok? ==> GetBattleDetails(r.1, id) == r.0
    ensures r.0.Ok? <==> GetBattleDetails(store, id).Ok? && ApplyScenarioModifications(GetBattleDetails(store, id).value, m).Ok?
    ensures GetBattleDetails(store, id).Ok? ==>
      GetBattleDetails(r.1, id) == Ok(WrittenBattle(GetBattleDetails(store, id).value, m))
    ensures GetBattleDetails(store, id).Err? ==> r.1 == store
  {
    match FindPeriod(store, id)
    case None => (Err(500, SimulationFailedDetail), store)
    case Some(j) =>
      var b := store[j].battles[id];
      if b.period.None? then (Err(500, SimulationFailedDetail), store)
      else
        var st := Replace(store, j, id, WrittenBattle(b, m));
        assert forall k :: 0 <= k < j ==> st[k] == store[k];
        FindPeriodIs(st, id, j);
        match ApplyScenarioModifications(b, m)
        case Err(s, d) => (Err(s, d), st)
        case Ok(b1) => (Ok(b1), st)
  }

  /** A one-battle store whose battle has one participant with an empty composition. */
  function ExampleStore(): Store {
    [PeriodBattles("ancient", map["chibi" := Battle(Some("ancient"), None, None, [Participant("wei", "Wei", [], [], map[])], [])])]
  }

  /** A simulation that raises a unit count leaves the raised count in the stored battle. */
  lemma SimulationLeaksIntoStore()
    ensures var mods := Modifications(Some(map["wei" := map["infantry" := 1000]]), None);
      var (res, after) := SimulateAsWritten(ExampleStore(), "chibi", mods);
      && GetBattleDetails(ExampleStore(), "chibi").Ok?
      && GetBattleDetails(ExampleStore(), "chibi").value.participants[0].composition == map[]
      && GetBattleDetails(after, "chibi").Ok?
      && GetBattleDetails(after, "chibi").value.participants[0].composition == map["infantry" := 1000]
  {
    var mods := Modifications(Some(map["wei" := map["infantry" := 1000]]), None);
    var (res, after) := SimulateAsWritten(ExampleStore(), "chibi", mods);
    assert FindPeriod(ExampleStore(), "chibi") == Some(0);
    assert res.Ok?;
    assert res.value.participants[0] == ModifyParticipant(Participant("wei", "Wei", [], [], map[]), map["wei" := map["infantry" := 1000]]);
    assert map[] + map["infantry" := 1000] == map["infantry" := 1000];
  }

  /** A failed simulation still leaves its unit changes in the stored battle. */
  lemma FailedSimulationLeaksIntoStore()
    ensures var store := [PeriodBattles("ancient", map["chibi" :=
              Battle(Some("ancient"), None, None, [Participant("wei", "Wei", [], [], map[])], [Event(None, None, None)])])];
      var mods := Modifications(Some(map["wei" := map["infantry" := 1000]]), Some(map["weather" := "rain"]));
      var (res, after) := SimulateAsWritten(store, "chibi", mods);
      && res.Err? && res.status == 500
      && GetBattleDetails(after, "chibi").Ok?
      && GetBattleDetails(after, "chibi").value.participants[0].composition == map["infantry" := 1000]
  {
    var b := Battle(Some("ancient"), None, None, [Participant("wei", "Wei", [], [], map[])], [Event(None, None, None)]);
    var store := [PeriodBattles("ancient", map["chibi" := b])];
    var mods := Modifications(Some(map["wei" := map["infantry" := 1000]]), Some(map["weather" := "rain"]));
    assert GetBattleDetails(store, "chibi") == Ok(b) by { FindPeriodIs(store, "chibi", 0); }
    assert b.timeline[0].effects.None?;
    assert ApplyScenarioModifications(b, mods).Err?;
    assert WrittenBattle(b, mods).participants[0] == ModifyParticipant(b.participants[0], map["wei" := map["infantry" := 1000]]);
    assert map[] + map["infantry" := 1000] == map["infantry" := 1000];
  }

  /**
    Simulation on a copy: the modified battle is the result and the store is left
    as it was, so later requests see the battle unmodified.
   */
  function Simulate(store: Store, id: string, m: Modifications): (r: (Result<Battle>, Store))
    ensures r.1 == store
    ensures r.0.Err? ==> r.0 == Err(500, SimulationFailedDetail)
    ensures r.0.Ok? ==>
      && GetBattleDetails(store, id).Ok?
      && ApplyScenarioModifications(GetBattleDetails(store, id).value, m) == r.0
    ensures r.0.Ok? <==> GetBattleDetails(store, id).Ok? && ApplyScenarioModifications(GetBattleDetails(store, id).value, m).Ok?
  {
    match FetchForAnalysis(store, id)
    case Err(_, _) => (Err(500, SimulationFailedDetail), store)
    case Ok(b) => (ApplyScenarioModifications(b, m), store)
  }

  /** With the copying simulation, any number of simulations leave every battle lookup as it was. */
  lemma SimulateKeepsLookups(store: Store, id: string, m: Modifications, other: string)
    ensures GetBattleDetails(Simulate(store, id, m).1, other) == GetBattleDetails(store, other)
  {
  }
}

=== FILE: image_generation.dfy ===
/**
  The image generation service (src/ai_agent/image_generation_service.py). Only the
  mock path exists: a non-blank prompt becomes a placeholder-image URL whose text
  is the trimmed prompt with spaces percent-encoded and colons dropped. The real
  back-end is an unimplemented stub.
 */
module ImageGeneration {
  import opened Text

  datatype ImageResult =
    | Url(url: string)
    /** "Prompt cannot be empty". */
    | ValueError
    /** The real back-end stub. */
    | NotImplementedError

  /** The service is constructed in mock mode. */
  const DefaultUseMock := true

  const PlaceholderPrefix := "https://placehold.co/600x400/1a2a6c/white?text="

  /** The trimmed prompt with every ' ' written "%20" and every ':' deleted. */
  function SafePrompt(prompt: string): (r: string)
    ensures ' ' !in r && ':' !in r
  {
    var t := Strip(prompt);
    var spaced := ReplaceAll(t, " ", "%20");
    var r := ReplaceAll(spaced, ":", "");
    EncodedHasNoSpaceOrColon(t, spaced, r);
    r
  }

  /** Encoding the spaces and then deleting the colons leaves neither behind. */
  lemma EncodedHasNoSpaceOrColon(t: string, spaced: string, r: string)
    requires spaced == ReplaceAll(t, [' '], "%20")
    requires r == ReplaceAll(spaced, [':'], [])
    ensures ' ' !in r && ':' !in r
  {
    ReplaceCharRemoves(t, ' ', "%20");
    ReplaceCharRemoves(spaced, ':', []);
    ReplaceKeepsAbsent(spaced, [':'], [], ' ');
  }

  /** `generate(prompt, style, size)` of a service whose mode is `useMock`. */
  function Generate(prompt: string, style: string, size: string, useMock: bool): (r: ImageResult)
    ensures r.ValueError? <==> Strip(prompt) == ""
    ensures r.NotImplementedError? <==> Strip(prompt) != "" && !useMock
    ensures r.Url? ==>
      && StartsWith(r.url, PlaceholderPrefix)
      && ' ' !in r.url[|PlaceholderPrefix|..]
      && ':' !in r.url[|PlaceholderPrefix|..]
  {
    if Strip(prompt) == "" then ValueError
    else if useMock then
      var url := PlaceholderPrefix + SafePrompt(prompt);
      assert url[|PlaceholderPrefix|..] == SafePrompt(prompt);
      Url(url)
    else NotImplementedError
  }

  /** A prompt that is only white space is refused, in either mode. */
  lemma BlankPromptRefused(prompt: string, style: string, size: string, useMock: bool)
    requires forall k :: 0 <= k < |prompt| ==> IsSpace(prompt[k])
    ensures Generate(prompt, style, size, useMock) == ValueError
  {
    StripEmptyIff(prompt);
  }

  /** With the default mode every non-blank prompt yields a URL. */
  lemma DefaultModeYieldsUrl(prompt: string, style: string, size: string)
    requires exists k :: 0 <= k < |prompt| && !IsSpace(prompt[k])
    ensures Generate(prompt, style, size, DefaultUseMock).Url?
  {
    StripEmptyIff(prompt);
  }

  /** Style and size have no effect on the result. */
  lemma StyleAndSizeIgnored(prompt: string, s1: string, z1: string, s2: string, z2: string, useMock: bool)
    ensures Generate(prompt, s1, z1, useMock) == Generate(prompt, s2, z2, useMock)
  {
  }

  /** A trimmed prompt without spaces or colons appears in the URL unchanged. */
  lemma PlainPromptVerbatim(prompt: string)
    requires |prompt| > 0 && !IsSpace(prompt[0]) && !IsSpace(prompt[|prompt| - 1])
    requires ' ' !in prompt && ':' !in prompt
    ensures Generate(prompt, "realistic", "1024x1024", true) == Url(PlaceholderPrefix + prompt)
  {
    StripUnpadded(prompt);
    NoCharNoOccurrence(prompt, ' ');
    ReplaceAbsent(prompt, " ", "%20");
    NoCharNoOccurrence(prompt, ':');
    ReplaceAbsent(prompt, ":", "");
  }

  /** A character that does not occur in `s` does not occur as a one-character substring. */
  lemma NoCharNoOccurrence(s: string, c: char)
    requires c !in s
    ensures !Contains(s, [c])
  {
    forall i | 0 <= i < |s| ensures !OccursAt(s, [c], i) {
      assert s[i] in s;
    }
  }
  // ---------------------------------------------------------------- decoding

  /** `s` with every `c` deleted. */
  function DropChar(s: string, c: char): (r: string)
    ensures forall x :: x in r ==> x in s && x != c
  {
    if |s| == 0 then []
    else
      assert forall x :: x in s[1..] ==> x in s;
      (if s[0] == c then [] else [s[0]]) + DropChar(s[1..], c)
  }

  /** Decoding the URL text: every "%20" read back as a space. */
  function DecodeSpaces(u: string): string {
    ReplaceAll(u, "%20", " ")
  }

  /**
    The URL text decodes to the prompt it came from: for a prompt without '%',
    reading every "%20" back as a space gives the trimmed prompt with its colons
    deleted.
   */
  lemma GenerateDecodes(prompt: string, style: string, size: string)
    requires Strip(prompt) != "" && '%' !in Strip(prompt)
    ensures Generate(prompt, style, size, true).Url?
    ensures DecodeSpaces(Generate(prompt, style, size, true).url[|PlaceholderPrefix|..]) == DropChar(Strip(prompt), ':')
  {
    var t := Strip(prompt);
    var spaced := ReplaceAll(t, " ", "%20");
    var u := Generate(prompt, style, size, true).url[|PlaceholderPrefix|..];
    assert u == ReplaceAll(spaced, ":", "");
    DeleteIsDrop(spaced, ':');
    DropCommutesWithEncode(t);
    EncodeThenDecode(DropChar(t, ':'));
  }

  /** Replacing a character by nothing deletes it. */
  lemma {:induction false} DeleteIsDrop(s: string, c: char)
    ensures ReplaceAll(s, [c], []) == DropChar(s, c)
    decreases |s|
  {
    if |s| > 0 {
      DeleteIsDrop(s[1..], c);
      if s[0] == c {
        assert StartsWith(s, [c]) && s[|[c]|..] == s[1..];
      } else {
        assert !StartsWith(s, [c]) by { assert s[..1][0] == s[0]; }
      }
    }
  }

  /** Deleting the colons before or after encoding the spaces gives the same text. */
  lemma {:induction false} DropCommutesWithEncode(t: string)
    ensures DropChar(ReplaceAll(t, " ", "%20"), ':') == ReplaceAll(DropChar(t, ':'), " ", "%20")
    decreases |t|
  {
    if |t| > 0 {
      DropCommutesWithEncode(t[1..]);
      var rest := ReplaceAll(t[1..], " ", "%20");
      if t[0] == ' ' {
        assert StartsWith(t, " ") && t[|" "|..] == t[1..];
        assert ReplaceAll(t, " ", "%20") == "%20" + rest;
        DropAppend("%20", rest, ':');
        var d := DropChar(t, ':');
        assert d == " " + DropChar(t[1..], ':');
        assert StartsWith(d, " ") && d[|" "|..] == DropChar(t[1..], ':');
      } else {
        assert !StartsWith(t, " ") by { assert t[..1][0] == t[0]; }
        assert ReplaceAll(t, " ", "%20") == [t[0]] + rest;
        var e := [t[0]] + rest;
        assert e[0] == t[0] && e[1..] == rest;
        if t[0] != ':' {
          assert DropChar(e, ':') == [t[0]] + DropChar(rest, ':');
          var d := DropChar(t, ':');
          assert d == [t[0]] + DropChar(t[1..], ':');
          assert !StartsWith(d, " ") by { assert d[..1][0] == t[0]; }
          assert d[1..] == DropChar(t[1..], ':');
          assert ReplaceAll(d, " ", "%20") == [t[0]] + ReplaceAll(DropChar(t[1..], ':'), " ", "%20");
        } else {
          assert DropChar(e, ':') == DropChar(rest, ':');
          assert DropChar(t, ':') == DropChar(t[1..], ':');
        }
      }
    }
  }

  /** Deleting from a concatenation deletes from each part. */
  lemma {:induction false} DropAppend(a: string, b: string, c: char)
    ensures DropChar(a + b, c) == DropChar(a, c) + DropChar(b, c)
    decreases |a|
  {
    if |a| > 0 {
      DropAppend(a[1..], b, c);
      assert (a + b)[1..] == a[1..] + b;
    } else {
      assert a + b == b;
    }
  }

  /** Text without '%' comes back unchanged from encoding its spaces and decoding them. */
  lemma {:induction false} EncodeThenDecode(u: string)
    requires '%' !in u
    ensures DecodeSpaces(ReplaceAll(u, " ", "%20")) == u
    decreases |u|
  {
    if |u| > 0 {
      assert '%' !in u[1..] by { assert forall x :: x in u[1..] ==> x in u; }
      EncodeThenDecode(u[1..]);
      var rest := ReplaceAll(u[1..], " ", "%20");
      if u[0] == ' ' {
        assert StartsWith(u, " ") && u[|" "|..] == u[1..];
        var e := "%20" + rest;
        assert StartsWith(e, "%20") && e[|"%20"|..] == rest;
        assert DecodeSpaces(e) == " " + DecodeSpaces(rest);
      } else {
        assert !StartsWith(u, " ") by { assert u[..1][0] == u[0]; }
        var e := [u[0]] + rest;
        assert u[0] != '%' by { assert u[0] in u; }
        assert !StartsWith(e, "%20") by { if |e| >= 3 { assert e[..3][0] == u[0]; } }
        assert e[1..] == rest;
        assert DecodeSpaces(e) == [u[0]] + DecodeSpaces(rest);
      }
    }
  }
}

=== FILE: json.dfy ===
/**
  A parsed JSON document, the value Python's `json.load` hands to the loaders of
  src/ai_agent/military_knowledge_base.py and that `json.loads` returns in
  src/api/deduction_api.py. Objects keep their keys in document order; the parser
  has already merged duplicate keys, so `Get` returns the first binding.
 */
module Json {
  import opened Wrappers

  datatype Json =
    | JNull
    | JBool(b: bool)
    | JNum(n: real)
    | JStr(s: string)
    | JArr(items: seq<Json>)
    | JObj(fields: seq<(string, Json)>)

  /** Python's `key in obj`. */
  predicate Has(fields: seq<(string, Json)>, key: string) {
    exists i :: 0 <= i < |fields| && fields[i].0 == key
  }

  /** Python's `obj[key]`: the value bound to `key`, if any. */
  function Get(fields: seq<(string, Json)>, key: string): (r: Option<Json>)
    ensures r.Some? <==> Has(fields, key)
    ensures r.Some? ==> exists i :: 0 <= i < |fields| && fields[i] == (key, r.value)
  {
    if |fields| == 0 then None
    else if fields[0].0 == key then
      assert fields[0] == (key, fields[0].1);
      Some(fields[0].1)
    else
      var r := Get(fields[1..], key);
      assert forall i :: 0 <= i < |fields[1..]| ==> fields[1..][i] == fields[i + 1];
      r
  }

  /** Python's `obj.get(key, default)`. */
  function GetOrDefault(fields: seq<(string, Json)>, key: string, default: Json): (r: Json)
    ensures !Has(fields, key) ==> r == default
    ensures Has(fields, key) ==> Get(fields, key) == Some(r)
  {
    Get(fields, key).GetOr(default)
  }
}

=== FILE: knowledge_base.dfy ===
/**
  The loaders and searches of the military knowledge base
  (src/ai_agent/military_knowledge_base.py). Each loader receives the already
  parsed document, or nothing when the file is missing or does not decode,
  dispatches on its shape, and keys every object entry by its lower-cased name in
  a dictionary that keeps insertion order. Searches return the first entry whose
  key contains the lower-cased query.
 */
module KnowledgeBase {
  import opened Wrappers
  import opened Text
  import opened Json

  /** A stored entry: the `name` string it was keyed by and the object it came from. */
  datatype Record = Record(name: string, fields: seq<(string, Json)>)

  /** A Python dict from key to record, in insertion order. */
  type Store = seq<(string, Record)>

  predicate DistinctKeys(d: Store) {
    forall i, j :: 0 <= i < j < |d| ==> d[i].0 != d[j].0
  }

  /** Every key is the lower-cased name of its record (`battles[battle.name.lower()] = battle`). */
  predicate KeyedByName(d: Store) {
    forall i :: 0 <= i < |d| ==> d[i].0 == Lower(d[i].1.name)
  }

  predicate NoEmptyKey(d: Store) {
    forall i :: 0 <= i < |d| ==> d[i].0 != ""
  }

  /** Python's `d.get(k)`. */
  function Lookup(d: Store, k: string): (r: Option<Record>)
    ensures r.Some? ==> exists i :: 0 <= i < |d| && d[i] == (k, r.value)
    ensures r.None? <==> forall i :: 0 <= i < |d| ==> d[i].0 != k
  {
    if |d| == 0 then None
    else if d[0].0 == k then
      assert d[0] == (k, d[0].1);
      Some(d[0].1)
    else
      var r := Lookup(d[1..], k);
      assert forall i :: 0 <= i < |d[1..]| ==> d[1..][i] == d[i + 1];
      r
  }

  /** The keys in insertion order. */
  function Keys(d: Store): seq<string> {
    seq(|d|, i requires 0 <= i < |d| => d[i].0)
  }

  /**
    Python's `d[k] = v`: an existing key keeps its place and takes the new value,
    a new key is appended.
   */
  function Put(d: Store, k: string, v: Record): (r: Store)
    requires DistinctKeys(d)
    ensures DistinctKeys(r)
    ensures Lookup(d, k).Some? ==> |r| == |d| && forall i :: 0 <= i < |d| ==> r[i].0 == d[i].0
    ensures Lookup(d, k).None? ==> r == d + [(k, v)]
    ensures forall i :: 0 <= i < |r| ==> r[i] == (k, v) || r[i] in d
  {
    if |d| == 0 then [(k, v)]
    else if d[0].0 == k then
      var r := [(k, v)] + d[1..];
      assert forall i :: 1 <= i < |r| ==> r[i] == d[i];
      r
    else
      TailDistinct(d);
      var rest := Put(d[1..], k, v);
      PutCons(d, k, v, rest);
      [d[0]] + rest
  }

  /** The tail of a store without repeated keys has none either, and none of its keys is the head's. */
  lemma TailDistinct(d: Store)
    requires |d| > 0 && DistinctKeys(d)
    ensures DistinctKeys(d[1..])
    ensures forall x :: x in d[1..] ==> x.0 != d[0].0
  {
    assert forall i :: 0 <= i < |d[1..]| ==> d[1..][i] == d[i + 1];
  }

  /** Putting the head back in front of the tail's update gives the update of the whole store. */
  lemma PutCons(d: Store, k: string, v: Record, rest: Store)
    requires |d| > 0 && DistinctKeys(d) && d[0].0 != k
    requires DistinctKeys(rest)
    requires Lookup(d[1..], k).Some? ==> |rest| == |d| - 1 && forall i :: 0 <= i < |d| - 1 ==> rest[i].0 == d[1..][i].0
    requires Lookup(d[1..], k).None? ==> rest == d[1..] + [(k, v)]
    requires forall i :: 0 <= i < |rest| ==> rest[i] == (k, v) || rest[i] in d[1..]
    ensures Lookup(d, k) == Lookup(d[1..], k)
    ensures DistinctKeys([d[0]] + rest)
    ensures Lookup(d, k).Some? ==> |[d[0]] + rest| == |d| && forall i :: 0 <= i < |d| ==> ([d[0]] + rest)[i].0 == d[i].0
    ensures Lookup(d, k).None? ==> [d[0]] + rest == d + [(k, v)]
    ensures forall i :: 0 <= i < |[d[0]] + rest| ==> ([d[0]] + rest)[i] == (k, v) || ([d[0]] + rest)[i] in d
  {
    ConsDistinct(d, k, v, rest);
    if Lookup(d[1..], k).Some? {
      ConsSameKeys(d, rest);
    } else {
      ConsAppended(d, (k, v), rest);
    }
  }

  /** The head in front of a list with the tail's keys has the keys of the whole store. */
  lemma ConsSameKeys(d: Store, rest: Store)
    requires |d| > 0 && |rest| == |d| - 1
    requires forall i :: 0 <= i < |d| - 1 ==> rest[i].0 == d[1..][i].0
    ensures |[d[0]] + rest| == |d| && forall i :: 0 <= i < |d| ==> ([d[0]] + rest)[i].0 == d[i].0
  {
    var r := [d[0]] + rest;
    assert forall i :: 1 <= i < |d| ==> r[i] == rest[i - 1] && d[1..][i - 1] == d[i];
  }

  /** The head in front of the tail with an entry appended is the whole store with it appended. */
  lemma ConsAppended(d: Store, e: (string, Record), rest: Store)
    requires |d| > 0 && rest == d[1..] + [e]
    ensures [d[0]] + rest == d + [e]
  {
    assert d == [d[0]] + d[1..];
  }

  /** The head's key is new to the tail's update, so putting it in front keeps the keys distinct. */
  lemma ConsDistinct(d: Store, k: string, v: Record, rest: Store)
    requires |d| > 0 && DistinctKeys(d) && d[0].0 != k
    requires DistinctKeys(rest)
    requires forall i :: 0 <= i < |rest| ==> rest[i] == (k, v) || rest[i] in d[1..]
    ensures DistinctKeys([d[0]] + rest)
    ensures forall i :: 0 <= i < |[d[0]] + rest| ==> ([d[0]] + rest)[i] == (k, v) || ([d[0]] + rest)[i] in d
  {
    TailDistinct(d);
    var r := [d[0]] + rest;
    assert forall i :: 1 <= i < |r| ==> r[i] == rest[i - 1];
    assert forall x :: x in rest ==> x.0 != d[0].0;
    assert forall x :: x in d[1..] ==> x in d;
  }

  /** After storing, the key reads the new value and every other key reads what it did before. */
  lemma {:induction false} PutLookup(d: Store, k: string, v: Record, x: string)
    requires DistinctKeys(d)
    ensures Lookup(Put(d, k, v), x) == if x == k then Some(v) else Lookup(d, x)
  {
    if |d| > 0 && d[0].0 != k {
      PutLookup(d[1..], k, v, x);
    }
  }

  /** Reference reading of a store as a mathematical map; the earliest binding of a key counts. */
  function ToMap(d: Store): map<string, Record> {
    if |d| == 0 then map[] else ToMap(d[1..])[d[0].0 := d[0].1]
  }

  /** Looking a key up in the store agrees with the map it denotes. */
  lemma {:induction false} LookupIsToMap(d: Store, k: string)
    ensures Lookup(d, k) == if k in ToMap(d) then Some(ToMap(d)[k]) else None
  {
    if |d| > 0 && d[0].0 != k {
      LookupIsToMap(d[1..], k);
    }
  }

  /** Storing under a key is the map update. */
  lemma PutIsUpdate(d: Store, k: string, v: Record)
    requires DistinctKeys(d)
    ensures ToMap(Put(d, k, v)) == ToMap(d)[k := v]
  {
    var r, m := Put(d, k, v), ToMap(d)[k := v];
    forall x ensures (x in ToMap(r)) == (x in m) && (x in m ==> ToMap(r)[x] == m[x]) {
      LookupIsToMap(r, x);
      LookupIsToMap(d, x);
      PutLookup(d, k, v, x);
    }
  }

  // ---------------------------------------------------------------- loading

  /**
    The shape parameters of one loader: the preferred and the fallback list key of
    a top-level object, and whether entries with an empty name are skipped.
   */
  datatype Collection = Collection(primary: string, secondary: string, skipNameless: bool)

  /** `_load_battles`: `major_battles`, else `battles`; a nameless battle is stored under "". */
  const Battles := Collection("major_battles", "battles", false)

  /** `_load_weapons`: `tanks`, else `weapons`. */
  const Weapons := Collection("tanks", "weapons", false)

  /** `_load_figures`: `historical_figures`, else `figures`; nameless figures are skipped. */
  const Figures := Collection("historical_figures", "figures", true)

  /**
    Python's `for x in v`: list items, object keys, string characters; iterating
    null, a number or a boolean raises TypeError (None here).
   */
  function Iterate(v: Json): (r: Option<seq<Json>>)
    ensures r.None? <==> v.JNull? || v.JBool? || v.JNum?
    ensures r.Some? && !v.JArr? ==> forall i :: 0 <= i < |r.value| ==> r.value[i].JStr?
  {
    match v
    case JArr(items) => Some(items)
    case JObj(fs) => Some(seq(|fs|, i requires 0 <= i < |fs| => JStr(fs[i].0)))
    case JStr(s) => Some(seq(|s|, i requires 0 <= i < |s| => JStr([s[i]])))
    case _ => None
  }

  /** The entry list a loader walks, or None when walking it raises. */
  function Entries(data: Json, c: Collection): Option<seq<Json>> {
    match data
    case JObj(fs) =>
      if Has(fs, c.primary) then Iterate(Get(fs, c.primary).value)
      else if Has(fs, c.secondary) then Iterate(Get(fs, c.secondary).value)
      else Some([data])
    case JArr(items) => Some(items)
    case _ => Some([])
  }

  /** `entry.get('name', '')` when `.lower()` can be applied to it; None where it raises. */
  function NameOf(fs: seq<(string, Json)>): (r: Option<string>)
    ensures !Has(fs, "name") ==> r == Some("")
    ensures Has(fs, "name") ==> (r.Some? <==> Get(fs, "name").value.JStr?)
  {
    if !Has(fs, "name") then Some("")
    else match Get(fs, "name").value
      case JStr(s) => Some(s)
      case _ => None
  }

  /**
    The loader's loop: object entries are stored under their lower-cased name,
    other entries skipped; an entry whose name cannot be lower-cased ends the loop,
    and the exception handler keeps what was stored so far.
   */
  function Insert(es: seq<Json>, d: Store, c: Collection): (r: Store)
    requires DistinctKeys(d)
    ensures DistinctKeys(r)
    ensures KeyedByName(d) ==> KeyedByName(r)
    ensures c.skipNameless && NoEmptyKey(d) ==> NoEmptyKey(r)
    decreases |es|
  {
    if |es| == 0 then d
    else match es[0]
      case JObj(fs) =>
        (match NameOf(fs)
         case None => d
         case Some(n) =>
           var k := Lower(n);
           if c.skipNameless && k == "" then Insert(es[1..], d, c)
           else Insert(es[1..], Put(d, k, Record(n, fs)), c))
      case _ => Insert(es[1..], d, c)
  }

  /**
    A loader: nothing when the file is missing or its JSON does not decode, nothing
    when walking the entry list raises, else the entries stored in order.
   */
  function Load(file: Option<Json>, c: Collection): (r: Store)
    ensures DistinctKeys(r) && KeyedByName(r)
    ensures c.skipNameless ==> NoEmptyKey(r)
    ensures file.None? ==> r == []
  {
    match file
    case None => []
    case Some(data) =>
      match Entries(data, c)
      case None => []
      case Some(es) => Insert(es, [], c)
  }

  /** Reference definition of the loop over a mathematical map, where a later update of a key overrides. */
  function Updates(es: seq<Json>, m: map<string, Record>, c: Collection): map<string, Record>
    decreases |es|
  {
    if |es| == 0 then m
    else match es[0]
      case JObj(fs) =>
        (match NameOf(fs)
         case None => m
         case Some(n) =>
           if c.skipNameless && Lower(n) == "" then Updates(es[1..], m, c)
           else Updates(es[1..], m[Lower(n) := Record(n, fs)], c))
      case _ => Updates(es[1..], m, c)
  }

  /** The ordered store denotes the map that successive updates build: a later duplicate replaces an earlier one. */
  lemma {:induction false} InsertIsUpdates(es: seq<Json>, d: Store, c: Collection)
    requires DistinctKeys(d)
    ensures ToMap(Insert(es, d, c)) == Updates(es, ToMap(d), c)
    decreases |es|
  {
    if |es| > 0 {
      match es[0]
      case JObj(fs) => {
        match NameOf(fs)
        case None =>
        case Some(n) =>
          if c.skipNameless && Lower(n) == "" {
            InsertIsUpdates(es[1..], d, c);
          } else {
            var d' := Put(d, Lower(n), Record(n, fs));
            PutIsUpdate(d, Lower(n), Record(n, fs));
            InsertIsUpdates(es[1..], d', c);
          }
      }
      case _ =>
        InsertIsUpdates(es[1..], d, c);
    }
  }

  /** A named object entry at the front is stored, and the loop goes on with the rest. */
  lemma InsertNamed(fs: seq<(string, Json)>, n: string, rest: seq<Json>, d: Store, c: Collection)
    requires DistinctKeys(d)
    requires NameOf(fs) == Some(n) && !(c.skipNameless && Lower(n) == "")
    ensures Insert([JObj(fs)] + rest, d, c) == Insert(rest, Put(d, Lower(n), Record(n, fs)), c)
  {
    assert ([JObj(fs)] + rest)[1..] == rest;
  }

  /** Two entries with the same lower-cased name leave one key, holding the later entry. */
  lemma LaterDuplicateReplaces(a: seq<(string, Json)>, b: seq<(string, Json)>, na: string, nb: string, c: Collection)
    requires NameOf(a) == Some(na) && NameOf(b) == Some(nb)
    requires Lower(na) == Lower(nb) && !(c.skipNameless && Lower(na) == "")
    ensures Load(Some(JArr([JObj(a), JObj(b)])), c) == [(Lower(nb), Record(nb, b))]
  {
    var k := Lower(nb);
    var d1 := Put([], k, Record(na, a));
    var d2 := Put(d1, k, Record(nb, b));
    var l := [JObj(a), JObj(b)];
    assert Load(Some(JArr(l)), c) == Insert(l, [], c);
    assert l == [JObj(a)] + [JObj(b)];
    InsertNamed(a, na, [JObj(b)], [], c);
    assert [JObj(b)] == [JObj(b)] + [];
    InsertNamed(b, nb, [], d1, c);
    assert Insert([], d2, c) == d2;
    PutTwice(k, Record(na, a), Record(nb, b));
  }

  /** Storing twice under one key into an empty store keeps only the second value. */
  lemma PutTwice(k: string, v: Record, w: Record)
    ensures Put(Put([], k, v), k, w) == [(k, w)]
  {
    var d1 := Put([], k, v);
    assert d1 == [(k, v)];
    assert d1[1..] == [];
  }

  /** Entries that are not objects are skipped. */
  lemma {:induction false} NonObjectsSkipped(es: seq<Json>, d: Store, c: Collection)
    requires DistinctKeys(d)
    requires forall i :: 0 <= i < |es| ==> !es[i].JObj?
    ensures Insert(es, d, c) == d
    decreases |es|
  {
    if |es| > 0 {
      NonObjectsSkipped(es[1..], d, c);
    }
  }

  /** An object holding the preferred list key is read from that list, whatever the fallback key holds. */
  lemma PrimaryKeyWins(fs: seq<(string, Json)>, items: seq<Json>, c: Collection)
    requires Get(fs, c.primary) == Some(JArr(items))
    ensures Load(Some(JObj(fs)), c) == Insert(items, [], c)
  {
    assert Has(fs, c.primary);
    assert Entries(JObj(fs), c) == Some(items);
  }

  /** A list value under the list key that is not a JSON array contributes no entries. */
  lemma NonArrayListLoadsNothing(fs: seq<(string, Json)>, c: Collection)
    requires Has(fs, c.primary) && !Get(fs, c.primary).value.JArr?
    ensures Load(Some(JObj(fs)), c) == []
  {
    var v := Get(fs, c.primary).value;
    assert Entries(JObj(fs), c) == Iterate(v);
    if Iterate(v).Some? {
      NonObjectsSkipped(Iterate(v).value, [], c);
    }
  }

  /** An object with neither list key is a single entry. */
  lemma SingleObjectIsOneEntry(fs: seq<(string, Json)>, n: string, c: Collection)
    requires !Has(fs, c.primary) && !Has(fs, c.secondary)
    requires NameOf(fs) == Some(n) && !(c.skipNameless && Lower(n) == "")
    ensures Load(Some(JObj(fs)), c) == [(Lower(n), Record(n, fs))]
  {
    assert [JObj(fs)][1..] == [];
    assert Entries(JObj(fs), c) == Some([JObj(fs)]);
    var d := Put([], Lower(n), Record(n, fs));
    assert d == [(Lower(n), Record(n, fs))];
    assert Insert([JObj(fs)], [], c) == Insert([], d, c);
  }

  /** A top-level scalar loads nothing. */
  lemma ScalarLoadsNothing(data: Json, c: Collection)
    requires !data.JObj? && !data.JArr?
    ensures Load(Some(data), c) == []
  {
  }

  // ---------------------------------------------------------------- search

  /** `query_lower in name or query_lower in record.name.lower()`. */
  predicate Matches(entry: (string, Record), queryLower: string) {
    Contains(entry.0, queryLower) || Contains(Lower(entry.1.name), queryLower)
  }

  /** The position of the first entry the query matches. */
  function SearchIndex(d: Store, queryLower: string): (r: Option<nat>)
    ensures r.Some? ==> r.value < |d| && Matches(d[r.value], queryLower)
    ensures r.Some? ==> forall j :: 0 <= j < r.value ==> !Matches(d[j], queryLower)
    ensures r.None? <==> forall j :: 0 <= j < |d| ==> !Matches(d[j], queryLower)
  {
    if |d| == 0 then None
    else if Matches(d[0], queryLower) then Some(0)
    else match SearchIndex(d[1..], queryLower)
      case None => None
      case Some(i) => Some(i + 1)
  }

  /** `search_battle`, `search_weapon`, `search_figure`. */
  function Search(d: Store, query: string): (r: Option<Record>)
    ensures r.None? <==> forall j :: 0 <= j < |d| ==> !Matches(d[j], Lower(query))
    ensures r.Some? ==> exists i ::
      && 0 <= i < |d| && r.value == d[i].1 && Matches(d[i], Lower(query))
      && forall j :: 0 <= j < i ==> !Matches(d[j], Lower(query))
  {
    match SearchIndex(d, Lower(query))
    case None => None
    case Some(i) => Some(d[i].1)
  }

  /** A search for a stored name (in any letter case) finds an entry. */
  lemma StoredNameIsFound(d: Store, query: string)
    requires Lookup(d, Lower(query)).Some?
    ensures Search(d, query).Some?
  {
    var i :| 0 <= i < |d| && d[i].0 == Lower(query);
    assert OccursAt(d[i].0, Lower(query), 0);
  }

  /** In a loaded store the name test repeats the key test: a hit's own name contains the query. */
  lemma {:induction false} SearchHitContainsQuery(d: Store, query: string)
    requires KeyedByName(d) && Search(d, query).Some?
    ensures Contains(Lower(Search(d, query).value.name), Lower(query))
  {
  }

  /** The empty query matches the first entry. */
  lemma EmptyQueryFindsFirst(d: Store)
    requires |d| > 0
    ensures Search(d, "") == Some(d[0].1)
  {
    assert OccursAt(d[0].0, "", 0);
  }

  // ---------------------------------------------------------------- analysis

  datatype BattleAnalysis =
    | NotFound(error: string)
    | Found(name: string, date: Json, location: Json, participants: string, outcome: Json,
            significance: Json, casualties: Json, tactics: string, sources: string)
    | JoinFailed

  /** The strings of `items`, if every item is a string. */
  function Strings(items: seq<Json>): (r: Option<seq<string>>)
    ensures r.Some? <==> forall i :: 0 <= i < |items| ==> items[i].JStr?
    ensures r.Some? ==> |r.value| == |items| && forall i :: 0 <= i < |items| ==> items[i] == JStr(r.value[i])
  {
    if |items| == 0 then Some([])
    else match items[0]
      case JStr(s) =>
        (match Strings(items[1..])
         case None => None
         case Some(rest) => Some([s] + rest))
      case _ => None
  }

  /** `", ".join(record.get(key, []))`; None where the join raises TypeError. */
  function JoinField(fs: seq<(string, Json)>, key: string): (r: Option<string>)
    ensures !Has(fs, key) ==> r == Some("")
    ensures Get(fs, key) == Some(JNull) ==> r.None?
  {
    match Iterate(GetOrDefault(fs, key, JArr([])))
    case None => None
    case Some(items) =>
      match Strings(items)
      case None => None
      case Some(ss) => Some(Join(ss, ", "))
  }

  /** The error text of an unsuccessful analysis. */
  function NotFoundMessage(battleName: string): (r: string)
    ensures Contains(r, battleName)
  {
    var r := "未找到关于 " + battleName + " 的战役信息";
    assert OccursAt(r, battleName, 6);
    r
  }

  /** `get_battle_analysis`. */
  function GetBattleAnalysis(d: Store, battleName: string): (r: BattleAnalysis)
    ensures r.NotFound? <==> Search(d, battleName).None?
    ensures r.NotFound? ==> Contains(r.error, battleName)
    ensures r.Found? ==>
      var rec := Search(d, battleName).value;
      && r.name == rec.name
      && r.date == GetOrDefault(rec.fields, "date", JStr(""))
      && r.location == GetOrDefault(rec.fields, "location", JStr(""))
      && r.outcome == GetOrDefault(rec.fields, "outcome", JStr(""))
      && r.significance == GetOrDefault(rec.fields, "significance", JStr(""))
      && r.casualties == GetOrDefault(rec.fields, "casualties", JObj([]))
      && Some(r.participants) == JoinField(rec.fields, "participants")
      && Some(r.tactics) == JoinField(rec.fields, "tactics")
      && Some(r.sources) == JoinField(rec.fields, "sources")
    ensures r.JoinFailed? <==>
      && Search(d, battleName).Some?
      && (var fs := Search(d, battleName).value.fields;
          JoinField(fs, "participants").None? || JoinField(fs, "tactics").None? || JoinField(fs, "sources").None?)
  {
    match Search(d, battleName)
    case None => NotFound(NotFoundMessage(battleName))
    case Some(rec) =>
      var fs := rec.fields;
      match (JoinField(fs, "participants"), JoinField(fs, "tactics"), JoinField(fs, "sources"))
      case (Some(p), Some(t), Some(s)) =>
        Found(rec.name, GetOrDefault(fs, "date", JStr("")), GetOrDefault(fs, "location", JStr("")), p,
              GetOrDefault(fs, "outcome", JStr("")), GetOrDefault(fs, "significance", JStr("")),
              GetOrDefault(fs, "casualties", JObj([])), t, s)
      case _ => JoinFailed
  }

  /** A list of two participant names is rendered as "a, b". */
  lemma TwoParticipantsJoin(fs: seq<(string, Json)>, a: string, b: string)
    requires Get(fs, "participants") == Some(JArr([JStr(a), JStr(b)]))
    ensures JoinField(fs, "participants") == Some(a + ", " + b)
  {
    var items := [JStr(a), JStr(b)];
    var last := [JStr(b)];
    assert items[1..] == last;
    assert last[1..] == [];
    assert Strings(last[1..]) == Some([]);
    assert [b] + [] == [b];
    assert Strings(last) == Some([b]);
    assert [a] + [b] == [a, b];
    assert Strings(items) == Some([a, b]);
    assert Join([a, b], ", ") == a + ", " + Join([b], ", ");
  }
}

=== FILE: large_scale.dfy ===
/**
  The bookkeeping of the large-scale battle view (static/js/large-scale-rendering.js):
  the per-army unit lists built by `createArmyUnits`, the guards of
  `applyUnitMovements`, and the progress value of `animateEntityMove`. Entities,
  billboards and positions on the globe are not modelled; a unit list entry keeps
  its id, its type and where the type was found in the unit tables.
 */
module LargeScale {
  import opened Wrappers
  import Text
  import UnitCatalog

  /** One element of `armyData.units`; an absent or empty `id` is falsy. */
  datatype UnitEntry = UnitEntry(id: Option<string>, unitType: string)

  /** One element of `battleArmies[armyName]`. */
  datatype ArmyUnit = ArmyUnit(id: string, unitType: string, data: UnitCatalog.Location)

  /** `battleArmies`: army name to its unit list. */
  type Armies = map<string, seq<ArmyUnit>>

  /** The id stored for the unit at input position `index`: `unit.id || `${armyName}_${index}``. */
  function UnitId(armyName: string, u: UnitEntry, index: nat): (r: string)
    ensures u.id.Some? && u.id.value != "" ==> r == u.id.value
    ensures u.id == None || u.id == Some("") ==> r == armyName + "_" + Text.NatToString(index)
    ensures r != ""
  {
    match u.id
    case Some(id) => if id != "" then id else armyName + "_" + Text.NatToString(index)
    case None => armyName + "_" + Text.NatToString(index)
  }

  /** The unit list entry made for an input unit whose type was found at `loc`. */
  function Entry(armyName: string, u: UnitEntry, index: nat, loc: UnitCatalog.Location): ArmyUnit {
    ArmyUnit(UnitId(armyName, u, index), u.unitType, loc)
  }

  /** A unit-type lookup: `getUnitTypeData` with the unit tables present or absent. */
  type Lookup = string -> Option<UnitCatalog.Location>

  /** The input unit at position `index` yields `x`: its type is known and `x` is its entry. */
  ghost predicate Yields(lookup: Lookup, armyName: string, u: UnitEntry, index: nat, x: ArmyUnit) {
    lookup(u.unitType).Some? && x == Entry(armyName, u, index, lookup(u.unitType).value)
  }

  /**
    The `forEach` over `units[start..]`, with `start` the index of `units[0]` in the
    input: input units whose type the lookup does not know are skipped, the others pushed
    in order.
   */
  function BuildUnits(lookup: Lookup, armyName: string, units: seq<UnitEntry>, start: nat): (r: seq<ArmyUnit>)
    ensures |r| <= |units|
    ensures forall k :: 0 <= k < |r| ==> lookup(r[k].unitType) == Some(r[k].data)
    ensures (forall t :: lookup(t).None?) ==> r == []
    decreases |units|
  {
    if |units| == 0 then []
    else
      var rest := BuildUnits(lookup, armyName, units[1..], start + 1);
      match lookup(units[0].unitType)
      case None => rest
      case Some(loc) => [Entry(armyName, units[0], start, loc)] + rest
  }

  /** The lookup `createArmyUnits` uses. */
  function UnitTypeLookup(tablesLoaded: bool): (f: Lookup)
    ensures forall t :: f(t) == UnitCatalog.GetUnitTypeData(tablesLoaded, t)
  {
    t => UnitCatalog.GetUnitTypeData(tablesLoaded, t)
  }

  /**
    `createArmyUnits(armyName, armyData)`: the army's list is reset, stays empty when
    `armyData.units` is missing or the unit tables are absent, and otherwise holds the
    entries of the known types.
   */
  function CreateArmyUnits(armies: Armies, tablesLoaded: bool, armyName: string, units: Option<seq<UnitEntry>>): (r: Armies)
    ensures armyName in r && r.Keys == armies.Keys + {armyName}
    ensures forall a :: a in armies && a != armyName ==> r[a] == armies[a]
    ensures units.None? || !tablesLoaded ==> r[armyName] == []
    ensures units.Some? ==> r[armyName] == BuildUnits(UnitTypeLookup(tablesLoaded), armyName, units.value, 0)
    ensures forall k :: 0 <= k < |r[armyName]| ==>
      UnitCatalog.GetUnitTypeData(tablesLoaded, r[armyName][k].unitType) == Some(r[armyName][k].data)
  {
    match units
    case None => armies[armyName := []]
    case Some(us) => armies[armyName := BuildUnits(UnitTypeLookup(tablesLoaded), armyName, us, 0)]
  }

  /** Every entry of the list comes from some input unit, at that unit's input position. */
  lemma {:induction false} BuildUnitsSound(lookup: Lookup, armyName: string, units: seq<UnitEntry>, start: nat, k: nat)
    returns (i: nat)
    requires k < |BuildUnits(lookup, armyName, units, start)|
    ensures i < |units| && Yields(lookup, armyName, units[i], start + i, BuildUnits(lookup, armyName, units, start)[k])
    decreases |units|
  {
    var r := BuildUnits(lookup, armyName, units, start);
    var rest := BuildUnits(lookup, armyName, units[1..], start + 1);
    var off := |r| - |rest|;
    if k < off {
      i := 0;
    } else {
      assert r[k] == rest[k - off];
      var j := BuildUnitsSound(lookup, armyName, units[1..], start + 1, k - off);
      assert units[1..][j] == units[j + 1];
      i := j + 1;
    }
  }

  /** Every input unit of a known type has its entry in the list. */
  lemma {:induction false} BuildUnitsComplete(lookup: Lookup, armyName: string, units: seq<UnitEntry>, start: nat, i: nat)
    requires i < |units| && lookup(units[i].unitType).Some?
    ensures Entry(armyName, units[i], start + i, lookup(units[i].unitType).value) in BuildUnits(lookup, armyName, units, start)
    decreases |units|
  {
    if i > 0 {
      assert units[1..][i - 1] == units[i];
      BuildUnitsComplete(lookup, armyName, units[1..], start + 1, i - 1);
    }
  }

  /** No two entries of a unit list share an id. */
  ghost predicate IdsDistinct(r: seq<ArmyUnit>) {
    forall k, l :: 0 <= k < l < |r| ==> r[k].id != r[l].id
  }

  /**
    With no input unit carrying its own id, the default ids in the list are pairwise
    distinct, because each carries its input unit's position.
   */
  lemma {:induction false} DefaultIdsDistinct(lookup: Lookup, armyName: string, units: seq<UnitEntry>, start: nat)
    requires forall i :: 0 <= i < |units| ==> units[i].id == None
    ensures IdsDistinct(BuildUnits(lookup, armyName, units, start))
    decreases |units|
  {
    if |units| > 0 {
      var rest := BuildUnits(lookup, armyName, units[1..], start + 1);
      DefaultIdsDistinct(lookup, armyName, units[1..], start + 1);
      if lookup(units[0].unitType).Some? {
        var e := Entry(armyName, units[0], start, lookup(units[0].unitType).value);
        forall l | 0 <= l < |rest| ensures e.id != rest[l].id {
          DefaultIdAfter(lookup, armyName, units, start, l);
        }
        PrependDistinct(e, rest);
      }
    }
  }

  /** An entry built after input position `start` does not carry the default id of `start`. */
  lemma DefaultIdAfter(lookup: Lookup, armyName: string, units: seq<UnitEntry>, start: nat, l: nat)
    requires 0 < |units| && forall i :: 0 <= i < |units| ==> units[i].id == None
    requires l < |BuildUnits(lookup, armyName, units[1..], start + 1)|
    ensures BuildUnits(lookup, armyName, units[1..], start + 1)[l].id != armyName + "_" + Text.NatToString(start)
  {
    var i := BuildUnitsSound(lookup, armyName, units[1..], start + 1, l);
    assert units[1..][i].id == None;
    IndexSuffixDiffers(armyName, start, start + 1 + i);
  }

  /** Putting an entry with a new id in front of a list without repeated ids keeps it so. */
  lemma PrependDistinct(e: ArmyUnit, rest: seq<ArmyUnit>)
    requires IdsDistinct(rest) && forall l :: 0 <= l < |rest| ==> e.id != rest[l].id
    ensures IdsDistinct([e] + rest)
  {
    var r := [e] + rest;
    forall k, l | 0 <= k < l < |r| ensures r[k].id != r[l].id {
      if k > 0 {
        assert r[k] == rest[k - 1] && r[l] == rest[l - 1];
      }
    }
  }

  /** Two default ids of one army with different indices differ. */
  lemma IndexSuffixDiffers(armyName: string, a: nat, b: nat)
    requires a != b
    ensures armyName + "_" + Text.NatToString(a) != armyName + "_" + Text.NatToString(b)
  {
    var p := armyName + "_";
    if p + Text.NatToString(a) == p + Text.NatToString(b) {
      assert Text.NatToString(a) == (p + Text.NatToString(a))[|p|..];
      assert Text.NatToString(b) == (p + Text.NatToString(b))[|p|..];
      Text.NatToStringInjective(a, b);
    }
  }

  // ---------------------------------------------------------------- movements

  /** A move's `unit_index`: absent (`undefined`), JSON `null`, or a number. */
  datatype UnitIndex = Absent | Null | Index(i: int)

  /** One element of `movements`; `to` may be absent. */
  datatype Move = Move(army: string, unitIndex: UnitIndex, to: Option<(real, real)>)

  /** An animation started by `applyUnitMovements`, for the unit at `index` of `army`. */
  datatype Started = Started(army: string, index: nat, lon: real, lat: real)

  /**
    The number `unitIndex >= armyUnits.length` compares: an absent index becomes 0
    through `!== undefined ? … : 0`, and `null` compares as 0.
   */
  function IndexOf(m: Move): int {
    match m.unitIndex
    case Absent => 0
    case Null => 0
    case Index(i) => i
  }

  /** The move gets past the army lookup and the length test. */
  predicate Reached(armies: Armies, m: Move) {
    m.army in armies && IndexOf(m) < |armies[m.army]|
  }

  /**
    A reached move then throws: a negative or `null` index reads `undefined`, whose
    `entity` throws, and a missing `to` throws at `dest.lon`.
   */
  predicate Throws(m: Move) {
    m.unitIndex.Null? || IndexOf(m) < 0 || m.to.None?
  }

  /** A move that animates its unit: reached and not throwing. */
  predicate Animates(armies: Armies, m: Move) {
    && m.army in armies
    && 0 <= IndexOf(m) < |armies[m.army]|
    && !m.unitIndex.Null?
    && m.to.Some?
  }

  /**
    `applyUnitMovements(movements, duration)`: the animations started, in order, and
    whether the loop was cut short. An unknown army or an index at or past the end of
    the army's list is skipped; the first reached move that throws ends the `forEach`.
   */
  function ApplyUnitMovements(armies: Armies, moves: seq<Move>): (r: (seq<Started>, bool))
    ensures |r.0| <= |moves|
    ensures forall k :: 0 <= k < |r.0| ==> r.0[k].army in armies && r.0[k].index < |armies[r.0[k].army]|
    ensures r.1 <==> exists i :: 0 <= i < |moves| && Reached(armies, moves[i]) && Throws(moves[i])
    ensures (forall i :: 0 <= i < |moves| ==> moves[i].army !in armies) ==> r == ([], false)
  {
    if |moves| == 0 then ([], false)
    else
      var m := moves[0];
      assert forall i :: 1 <= i < |moves| ==> moves[i] == moves[1..][i - 1];
      if !Reached(armies, m) then
        var rest := ApplyUnitMovements(armies, moves[1..]);
        AbortInTail(armies, moves, rest.1);
        rest
      else if Throws(m) then ([], true)
      else
        var rest := ApplyUnitMovements(armies, moves[1..]);
        AbortInTail(armies, moves, rest.1);
        ([Started(m.army, IndexOf(m), m.to.value.0, m.to.value.1)] + rest.0, rest.1)
  }

  /** An abort found in the tail is an abort of the whole list. */
  lemma AbortInTail(armies: Armies, moves: seq<Move>, tailAborts: bool)
    requires |moves| > 0
    requires tailAborts ==> exists i :: 0 <= i < |moves[1..]| && Reached(armies, moves[1..][i]) && Throws(moves[1..][i])
    ensures tailAborts ==> exists i :: 0 <= i < |moves| && Reached(armies, moves[i]) && Throws(moves[i])
  {
    if tailAborts {
      var i :| 0 <= i < |moves[1..]| && Reached(armies, moves[1..][i]) && Throws(moves[1..][i]);
      assert moves[i + 1] == moves[1..][i];
    }
  }

  /**
    Independent statement of which moves are animated when none throws: exactly
    those naming a known army, an index inside its list and a destination, in order.
   */
  function Animated(armies: Armies, moves: seq<Move>): seq<Started> {
    if |moves| == 0 then []
    else
      var m := moves[0];
      var rest := Animated(armies, moves[1..]);
      if Animates(armies, m) then
        [Started(m.army, IndexOf(m), m.to.value.0, m.to.value.1)] + rest
      else rest
  }

  /** With no reached move throwing, every valid move is animated and the loop runs to the end. */
  lemma {:induction false} ApplyWithoutThrows(armies: Armies, moves: seq<Move>)
    requires forall i :: 0 <= i < |moves| ==> !(Reached(armies, moves[i]) && Throws(moves[i]))
    ensures ApplyUnitMovements(armies, moves) == (Animated(armies, moves), false)
  {
    if |moves| > 0 {
      assert forall i :: 0 <= i < |moves[1..]| ==> moves[1..][i] == moves[i + 1];
      ApplyWithoutThrows(armies, moves[1..]);
    }
  }

  /** A missing `unit_index` moves the first unit of the army, if it has one. */
  lemma MissingIndexMovesFirst(armies: Armies, m: Move)
    requires m.unitIndex.Absent? && m.to.Some? && m.army in armies && |armies[m.army]| > 0
    ensures ApplyUnitMovements(armies, [m]) == ([Started(m.army, 0, m.to.value.0, m.to.value.1)], false)
  {
    assert IndexOf(m) == 0;
    ApplyWithoutThrows(armies, [m]);
    assert [m][1..] == [];
    assert Animated(armies, [m][1..]) == [];
    assert Animates(armies, m);
    assert Animated(armies, [m]) == [Started(m.army, 0, m.to.value.0, m.to.value.1)];
  }

  /** A `null` index for a non-empty army, or a move without `to`, ends the loop before anything moves. */
  lemma ThrowingMoveAborts(armies: Armies, m: Move, later: seq<Move>)
    requires m.army in armies && |armies[m.army]| > 0
    requires m.unitIndex.Null? || (m.unitIndex.Index? && 0 <= m.unitIndex.i < |armies[m.army]| && m.to.None?)
    ensures ApplyUnitMovements(armies, [m] + later) == ([], true)
  {
    assert ([m] + later)[0] == m;
  }

  // ---------------------------------------------------------------- progress

  /** A JavaScript number as `animateEntityMove` can produce it: finite, or NaN from 0/0. */
  datatype Progress = Finite(value: real) | NaN

  /**
    `Math.min((now - startTime) / durationMs, 1.0)` for a non-negative elapsed time.
    A zero duration divides to +Infinity (clamped to 1) or, with nothing elapsed, to NaN.
   */
  function ProgressAt(elapsed: real, durationMs: real): (t: Progress)
    requires elapsed >= 0.0
    ensures durationMs > 0.0 ==> t.Finite? && 0.0 <= t.value <= 1.0
    ensures durationMs > 0.0 ==> (t.value == 1.0 <==> elapsed >= durationMs)
    ensures durationMs > 0.0 && elapsed < durationMs ==> t.value * durationMs == elapsed
    ensures durationMs < 0.0 ==> t.Finite? && t.value <= 0.0
    ensures durationMs == 0.0 ==> (t == NaN <==> elapsed == 0.0)
  {
    if durationMs == 0.0 then (if elapsed == 0.0 then NaN else Finite(1.0))
    else
      var q := elapsed / durationMs;
      assert q * durationMs == elapsed;
      Finite(if q < 1.0 then q else 1.0)
  }

  /** `if (t < 1.0) requestAnimationFrame(update)`: another frame is requested. */
  predicate Continues(t: Progress) {
    t.Finite? && t.value < 1.0
  }

  /**
    With a positive duration, updates continue exactly until the duration has
    elapsed; a negative duration keeps them going for ever, and a zero duration
    stops after the first frame.
   */
  lemma ProgressStops(elapsed: real, durationMs: real)
    requires elapsed >= 0.0
    ensures durationMs > 0.0 ==> (Continues(ProgressAt(elapsed, durationMs)) <==> elapsed < durationMs)
    ensures durationMs < 0.0 ==> Continues(ProgressAt(elapsed, durationMs))
    ensures durationMs == 0.0 ==> !Continues(ProgressAt(elapsed, durationMs))
  {
  }
}

=== FILE: tactical.dfy ===
/**
  Rule tables and bookkeeping of the tactical animation system
  (static/js/tactical-animations.js): the six tactics with their durations,
  requirement lists and keyframe sequences, the requirement validator with its
  eight field checks, and the registry of executing tactics. The completion timer
  and frame timers are explicit events; rendering and the per-action frame
  dispatch are outside the model.
 */
module Tactical {
  import opened Wrappers
  import Text

  datatype Tactic = FireAttack | PhalanxCharge | FeignedRetreat | CavalryWedge | VolleyFire | ArtilleryBarrage

  function TacticName(t: Tactic): string {
    match t
    case FireAttack => "fire_attack"
    case PhalanxCharge => "phalanx_charge"
    case FeignedRetreat => "feigned_retreat"
    case CavalryWedge => "cavalry_wedge"
    case VolleyFire => "volley_fire"
    case ArtilleryBarrage => "artillery_barrage"
  }

  /** Looks a tactic up by its key in `this.tacticalEffects`. */
  function ParseTactic(name: string): (r: Option<Tactic>)
    ensures r.Some? ==> TacticName(r.value) == name
    ensures forall t :: TacticName(t) == name ==> r == Some(t)
  {
    if name == "fire_attack" then Some(FireAttack)
    else if name == "phalanx_charge" then Some(PhalanxCharge)
    else if name == "feigned_retreat" then Some(FeignedRetreat)
    else if name == "cavalry_wedge" then Some(CavalryWedge)
    else if name == "volley_fire" then Some(VolleyFire)
    else if name == "artillery_barrage" then Some(ArtilleryBarrage)
    else None
  }

  function Duration(t: Tactic): nat {
    match t
    case FireAttack => 15000
    case PhalanxCharge => 8000
    case FeignedRetreat => 12000
    case CavalryWedge => 6000
    case VolleyFire => 4000
    case ArtilleryBarrage => 10000
  }

  function Requirements(t: Tactic): seq<string> {
    match t
    case FireAttack => ["wind_direction", "dry_weather"]
    case PhalanxCharge => ["flat_terrain", "enemy_proximity"]
    case FeignedRetreat => ["enemy_engagement", "retreat_route"]
    case CavalryWedge => ["open_terrain", "enemy_vulnerability"]
    case VolleyFire => ["clear_los", "enemy_concentration"]
    case ArtilleryBarrage => ["enemy_position", "artillery_advantage"]
  }

  datatype Step = Step(time: nat, action: string)

  /** `animation_sequence` of each tactic. */
  function Sequence(t: Tactic): seq<Step> {
    match t
    case FireAttack =>
      [Step(0, "preparation"), Step(2000, "ignition"), Step(5000, "spread"),
       Step(10000, "conflagration"), Step(15000, "destruction")]
    case PhalanxCharge =>
      [Step(0, "formation_ready"), Step(1000, "advance"), Step(3000, "charge"),
       Step(6000, "impact"), Step(8000, "breakthrough")]
    case FeignedRetreat =>
      [Step(0, "fake_weakness"), Step(2000, "strategic_retreat"), Step(5000, "enemy_pursuit"),
       Step(8000, "trap_setup"), Step(10000, "counter_charge"), Step(12000, "envelopment")]
    case CavalryWedge =>
      [Step(0, "wedge_formation"), Step(500, "acceleration"), Step(2000, "full_charge"),
       Step(4000, "enemy_contact"), Step(6000, "breakthrough")]
    case VolleyFire =>
      [Step(0, "aim"), Step(500, "release_volley"), Step(1000, "projectile_flight"),
       Step(2000, "impact"), Step(3000, "reload"), Step(4000, "next_volley")]
    case ArtilleryBarrage =>
      [Step(0, "target_locking"), Step(2000, "barrage_fire"), Step(4000, "shell_arrival"),
       Step(6000, "explosion"), Step(8000, "secondary_effects"), Step(10000, "area_destruction")]
  }

  /**
    Every sequence starts at 0, strictly increases, and ends exactly at the tactic's
    duration, which is when the completion timer fires.
   */
  lemma SequencesWellFormed(t: Tactic)
    ensures |Sequence(t)| > 0 && Sequence(t)[0].time == 0
    ensures forall i, j :: 0 <= i < j < |Sequence(t)| ==> Sequence(t)[i].time < Sequence(t)[j].time
    ensures Sequence(t)[|Sequence(t)| - 1].time == Duration(t)
  {
  }

  // ---------------------------------------------------------------- requirements

  /** The `parameters` fields the validator reads; each may be missing. */
  datatype Params = Params(
    windDirection: Option<string>,
    weather: Option<string>,
    terrain: Option<string>,
    distance: Option<real>,
    engagement: Option<string>,
    lineOfSight: Option<string>,
    concentration: Option<real>)

  /** JavaScript truthiness of an optional string: present and non-empty. */
  predicate Present(s: Option<string>) {
    s.Some? && s.value != ""
  }

  /** `checkWindDirection`: a south-east wind is required. */
  function CheckWindDirection(direction: Option<string>): (r: bool)
    ensures r <==> direction.Some? && Text.Contains(direction.value, "southeast")
    ensures !Present(direction) ==> !r
  {
    Present(direction) && Text.Contains(direction.value, "southeast")
  }

  /** `checkDryWeather`: the weather mentions `clear` or `dry`. */
  function CheckDryWeather(weather: Option<string>): (r: bool)
    ensures r <==> weather.Some? && (Text.Contains(weather.value, "clear") || Text.Contains(weather.value, "dry"))
    ensures !Present(weather) ==> !r
  {
    Present(weather) && (Text.Contains(weather.value, "clear") || Text.Contains(weather.value, "dry"))
  }

  /** `checkFlatTerrain`: the terrain mentions `plain` or `flat`. */
  function CheckFlatTerrain(terrain: Option<string>): (r: bool)
    ensures r <==> terrain.Some? && (Text.Contains(terrain.value, "plain") || Text.Contains(terrain.value, "flat"))
    ensures !Present(terrain) ==> !r
  {
    Present(terrain) && (Text.Contains(terrain.value, "plain") || Text.Contains(terrain.value, "flat"))
  }

  /** `checkOpenTerrain`: the terrain mentions `open` or `field`. */
  function CheckOpenTerrain(terrain: Option<string>): (r: bool)
    ensures r <==> terrain.Some? && (Text.Contains(terrain.value, "open") || Text.Contains(terrain.value, "field"))
    ensures !Present(terrain) ==> !r
  {
    Present(terrain) && (Text.Contains(terrain.value, "open") || Text.Contains(terrain.value, "field"))
  }

  /** `checkEnemyProximity`: `distance && distance < 200`, so a distance of 0 is falsy and fails. */
  function CheckEnemyProximity(distance: Option<real>): (r: bool)
    ensures r <==> distance.Some? && distance.value != 0.0 && distance.value < 200.0
    ensures distance == Some(0.0) ==> !r
  {
    distance.Some? && distance.value != 0.0 && distance.value < 200.0
  }

  /** `checkEnemyEngagement`: strict equality with `'active'`. */
  function CheckEnemyEngagement(engagement: Option<string>): (r: bool)
    ensures r <==> engagement == Some("active")
  {
    engagement == Some("active")
  }

  /** `checkLineOfSight`: strict equality with `'clear'`. */
  function CheckLineOfSight(lineOfSight: Option<string>): (r: bool)
    ensures r <==> lineOfSight == Some("clear")
  {
    lineOfSight == Some("clear")
  }

  /** `checkEnemyConcentration`: present, truthy and strictly above 0.7. */
  function CheckEnemyConcentration(concentration: Option<real>): (r: bool)
    ensures r <==> concentration.Some? && concentration.value > 0.7
  {
    concentration.Some? && concentration.value != 0.0 && concentration.value > 0.7
  }

  /** The requirement names the validator's `switch` recognises. */
  predicate Recognised(req: string) {
    req in {"wind_direction", "dry_weather", "flat_terrain", "enemy_proximity",
            "enemy_engagement", "open_terrain", "clear_los", "enemy_concentration"}
  }

  /** One case of the `switch`; a name with no case imposes nothing. */
  function CheckRequirement(req: string, p: Params): (r: bool)
    ensures !Recognised(req) ==> r
  {
    if req == "wind_direction" then CheckWindDirection(p.windDirection)
    else if req == "dry_weather" then CheckDryWeather(p.weather)
    else if req == "flat_terrain" then CheckFlatTerrain(p.terrain)
    else if req == "enemy_proximity" then CheckEnemyProximity(p.distance)
    else if req == "enemy_engagement" then CheckEnemyEngagement(p.engagement)
    else if req == "open_terrain" then CheckOpenTerrain(p.terrain)
    else if req == "clear_los" then CheckLineOfSight(p.lineOfSight)
    else if req == "enemy_concentration" then CheckEnemyConcentration(p.concentration)
    else true
  }

  /** The validator's meaning: every listed requirement holds. */
  ghost predicate AllRequirementsMet(reqs: seq<string>, p: Params) {
    forall i :: 0 <= i < |reqs| ==> CheckRequirement(reqs[i], p)
  }

  /** `checkTacticRequirements`: scans the list and stops at the first failing requirement. */
  method CheckTacticRequirements(reqs: seq<string>, p: Params) returns (ok: bool)
    ensures ok <==> AllRequirementsMet(reqs, p)
    ensures ok <==> forall i :: 0 <= i < |reqs| && Recognised(reqs[i]) ==> CheckRequirement(reqs[i], p)
  {
    var i := 0;
    while i < |reqs|
      invariant 0 <= i <= |reqs|
      invariant forall k :: 0 <= k < i ==> CheckRequirement(reqs[k], p)
    {
      if !CheckRequirement(reqs[i], p) {
        return false;
      }
      i := i + 1;
    }
    return true;
  }

  /** Requirement check of a whole tactic, as used by `executeTacticalAnimation`. */
  function TacticRequirementsMet(t: Tactic, p: Params): (r: bool)
    ensures r <==> AllRequirementsMet(Requirements(t), p)
  {
    var reqs := Requirements(t);
    CheckRequirement(reqs[0], p) && CheckRequirement(reqs[1], p)
  }

  /**
    What each tactic really demands. Four of the listed names (`retreat_route`,
    `enemy_vulnerability`, `enemy_position`, `artillery_advantage`) have no case
    in the validator, so they impose nothing and the artillery barrage always passes.
   */
  lemma TacticRequirementsMeaning(t: Tactic, p: Params)
    ensures t == FireAttack ==> (TacticRequirementsMet(t, p) <==> CheckWindDirection(p.windDirection) && CheckDryWeather(p.weather))
    ensures t == PhalanxCharge ==> (TacticRequirementsMet(t, p) <==> CheckFlatTerrain(p.terrain) && CheckEnemyProximity(p.distance))
    ensures t == FeignedRetreat ==> (TacticRequirementsMet(t, p) <==> CheckEnemyEngagement(p.engagement))
    ensures t == CavalryWedge ==> (TacticRequirementsMet(t, p) <==> CheckOpenTerrain(p.terrain))
    ensures t == VolleyFire ==> (TacticRequirementsMet(t, p) <==> CheckLineOfSight(p.lineOfSight) && CheckEnemyConcentration(p.concentration))
    ensures t == ArtilleryBarrage ==> TacticRequirementsMet(t, p)
  {
  }

  // ---------------------------------------------------------------- registry

  datatype Status = Executing | Failed | Completed

  /** A tactic run as `executeTacticalAnimation` builds it. */
  datatype TacticRun = TacticRun(
    id: nat,
    tactic: Tactic,
    duration: nat,
    status: Status,
    failureReason: Option<string>,
    currentFrame: Option<nat>)

  datatype Registry = Registry(active: map<nat, TacticRun>, nextId: nat) {
    ghost predicate Valid() {
      forall id :: id in active ==> id < nextId && active[id].id == id && active[id].status == Executing
    }
  }

  /**
    `executeTacticalAnimation(type, parameters)`: null for an unknown type; a failed
    record that is not registered when the requirements fail; otherwise an executing
    record under a fresh id.
   */
  function ExecuteTacticalAnimation(reg: Registry, tacticType: string, p: Params): (out: (Registry, Option<TacticRun>))
    requires reg.Valid()
    ensures out.0.Valid()
    ensures ParseTactic(tacticType).None? ==> out == (reg, None)
    ensures out.1.Some? <==> ParseTactic(tacticType).Some?
    ensures out.1.Some? ==>
      var a := out.1.value;
      && a.tactic == ParseTactic(tacticType).value
      && a.duration == Duration(a.tactic)
      && a.id !in reg.active
      && a.currentFrame == None
      && (TacticRequirementsMet(a.tactic, p) ==>
            a.status == Executing && a.failureReason == None && out.0.active == reg.active[a.id := a])
      && (!TacticRequirementsMet(a.tactic, p) ==>
            a.status == Failed && a.failureReason == Some("requirements_not_met") && out.0.active == reg.active)
  {
    match ParseTactic(tacticType)
    case None => (reg, None)
    case Some(t) =>
      var id := reg.nextId;
      var reg1 := reg.(nextId := id + 1);
      var a := TacticRun(id, t, Duration(t), Executing, None, None);
      if !TacticRequirementsMet(t, p) then
        (reg1, Some(a.(status := Failed, failureReason := Some("requirements_not_met"))))
      else
        (reg1.(active := reg.active[id := a]), Some(a))
  }

  /** The frame timer for step `index` of a run: a still-registered run shows that step. */
  function ExecuteTacticalFrame(reg: Registry, a: TacticRun, index: nat): (r: Registry)
    requires reg.Valid() && index < |Sequence(a.tactic)|
    ensures r.Valid()
    ensures r.active.Keys == reg.active.Keys
    ensures a.id in reg.active ==> r.active[a.id] == reg.active[a.id].(currentFrame := Some(index))
    ensures forall id :: id in reg.active && id != a.id ==> r.active[id] == reg.active[id]
  {
    if a.id in reg.active then
      reg.(active := reg.active[a.id := reg.active[a.id].(currentFrame := Some(index))])
    else reg
  }

  /** `completeTacticalAnimation(a)`: the record is marked completed and leaves the active map. */
  function CompleteTacticalAnimation(reg: Registry, a: TacticRun): (out: (Registry, TacticRun))
    requires reg.Valid()
    ensures out.0.Valid()
    ensures out.1 == a.(status := Completed)
    ensures a.id !in out.0.active
    ensures forall id :: id != a.id ==> (id in out.0.active <==> id in reg.active)
    ensures forall id :: id in out.0.active ==> out.0.active[id] == reg.active[id]
  {
    (reg.(active := reg.active - {a.id}), a.(status := Completed))
  }

  /** A started run that completes leaves the active map exactly as it was. */
  lemma ExecuteThenCompleteRestores(reg: Registry, tacticType: string, p: Params)
    requires reg.Valid()
    ensures var (r1, a) := ExecuteTacticalAnimation(reg, tacticType, p);
      a.Some? ==> CompleteTacticalAnimation(r1, a.value).0.active == reg.active
  {
    var (r1, a) := ExecuteTacticalAnimation(reg, tacticType, p);
    if a.Some? {
      assert a.value.id !in reg.active;
    }
  }

  /** `stopTacticalAnimation(id)`: unknown ids are ignored; a live id is removed and nothing else. */
  function StopTacticalAnimation(reg: Registry, id: nat): (r: Registry)
    requires reg.Valid()
    ensures r.Valid()
    ensures id !in reg.active ==> r == reg
    ensures id !in r.active
    ensures forall k :: k != id ==> (k in r.active <==> k in reg.active)
    ensures forall k :: k in r.active ==> r.active[k] == reg.active[k]
  {
    if id in reg.active then reg.(active := reg.active - {id}) else reg
  }

  function StopAllTacticalAnimations(reg: Registry): (r: Registry)
    ensures r.active == map[] && r.nextId == reg.nextId
  {
    reg.(active := map[])
  }
}

=== FILE: text.dfy ===
/**
  String primitives that the JavaScript and Python sources use: substring tests
  (`includes`, `in`), prefix/suffix tests, lower-casing, Python's `str.strip`,
  left-to-right `replace`, and `join`.
 */
module Text {

  predicate StartsWith(s: string, p: string) {
    |p| <= |s| && s[..|p|] == p
  }

  predicate EndsWith(s: string, p: string) {
    |p| <= |s| && s[|s| - |p|..] == p
  }

  /** `sub` occurs in `s` starting at index `i`. */
  ghost predicate OccursAt(s: string, sub: string, i: int) {
    0 <= i && i + |sub| <= |s| && s[i..i + |sub|] == sub
  }

  /** The substring test: JavaScript `s.includes(sub)`, Python `sub in s`. */
  function Contains(s: string, sub: string): (r: bool)
    ensures r <==> exists i :: OccursAt(s, sub, i)
    decreases |s|
  {
    if StartsWith(s, sub) then
      assert OccursAt(s, sub, 0);
      true
    else if |s| == 0 then
      false
    else
      var r := Contains(s[1..], sub);
      ShiftOccurrence(s, sub);
      r
  }

  /** Occurrences in `s[1..]` are exactly the occurrences in `s` past index 0. */
  lemma ShiftOccurrence(s: string, sub: string)
    requires |s| > 0 && !StartsWith(s, sub)
    ensures (exists i :: OccursAt(s[1..], sub, i)) <==> (exists i :: OccursAt(s, sub, i))
  {
    if exists i :: OccursAt(s[1..], sub, i) {
      var i :| OccursAt(s[1..], sub, i);
      assert s[1..][i..i + |sub|] == s[i + 1..i + 1 + |sub|];
      assert OccursAt(s, sub, i + 1);
    }
    if exists i :: OccursAt(s, sub, i) {
      var i :| OccursAt(s, sub, i);
      assert i != 0;
      assert s[1..][i - 1..i - 1 + |sub|] == s[i..i + |sub|];
      assert OccursAt(s[1..], sub, i - 1);
    }
  }

  /** ASCII upper-case letters are mapped to lower case; every other character is kept. */
  function LowerChar(c: char): char {
    if 'A' <= c <= 'Z' then (c as int + 32) as char else c
  }

  /** Lower-casing, character by character. */
  function Lower(s: string): (r: string)
    ensures |r| == |s|
  {
    seq(|s|, i requires 0 <= i < |s| => LowerChar(s[i]))
  }

  /** No ASCII upper-case letter survives lower-casing. */
  lemma LowerHasNoUpper(s: string, c: char)
    requires 'A' <= c <= 'Z'
    ensures c !in Lower(s)
  {
  }

  lemma LowerIdempotent(s: string)
    ensures Lower(Lower(s)) == Lower(s)
  {
  }

  /** Python's `str.isspace` for a single character. */
  predicate IsSpace(c: char) {
    c in {' ', '\t', '\n', '\r', '\U{0B}', '\U{0C}', '\U{1C}', '\U{1D}', '\U{1E}', '\U{1F}',
          '\U{85}', '\U{A0}', '\U{1680}', '\U{2000}', '\U{2001}', '\U{2002}', '\U{2003}',
          '\U{2004}', '\U{2005}', '\U{2006}', '\U{2007}', '\U{2008}', '\U{2009}', '\U{200A}',
          '\U{2028}', '\U{2029}', '\U{202F}', '\U{205F}', '\U{3000}'}
  }

  /** Drops the leading white space: the result is a suffix of `s` starting at a non-space. */
  function TrimStart(s: string): (r: string)
    ensures |r| <= |s| && r == s[|s| - |r|..]
    ensures forall i :: 0 <= i < |s| - |r| ==> IsSpace(s[i])
    ensures |r| > 0 ==> !IsSpace(r[0])
  {
    if |s| > 0 && IsSpace(s[0]) then TrimStart(s[1..]) else s
  }

  /** Drops the trailing white space: the result is a prefix of `s` ending at a non-space. */
  function TrimEnd(s: string): (r: string)
    ensures |r| <= |s| && r == s[..|r|]
    ensures forall i :: |r| <= i < |s| ==> IsSpace(s[i])
    ensures |r| > 0 ==> !IsSpace(r[|r| - 1])
  {
    if |s| > 0 && IsSpace(s[|s| - 1]) then TrimEnd(s[..|s| - 1]) else s
  }

  /** `r` is `s[i..]` cut down to its non-space core, with only white space around it. */
  ghost predicate StripAt(r: string, s: string, i: int) {
    && 0 <= i && i + |r| <= |s| && s[i..i + |r|] == r
    && (forall k :: 0 <= k < i ==> IsSpace(s[k]))
    && (forall k :: i + |r| <= k < |s| ==> IsSpace(s[k]))
    && (|r| > 0 ==> !IsSpace(r[0]) && !IsSpace(r[|r| - 1]))
  }

  /** `r` is `s` with its leading and trailing white space removed. */
  ghost predicate IsStripOf(r: string, s: string) {
    exists i :: StripAt(r, s, i)
  }

  /** Python's `str.strip()` with no argument. */
  function Strip(s: string): (r: string)
    ensures IsStripOf(r, s)
  {
    var t := TrimStart(s);
    var r := TrimEnd(t);
    TrimsStrip(s, t, r);
    r
  }

  /** Trimming the front and then the back cuts `s` down to its core at the offset the front trim removed. */
  lemma TrimsStrip(s: string, t: string, r: string)
    requires |t| <= |s| && t == s[|s| - |t|..]
    requires (forall k :: 0 <= k < |s| - |t| ==> IsSpace(s[k])) && (|t| > 0 ==> !IsSpace(t[0]))
    requires |r| <= |t| && r == t[..|r|]
    requires (forall k :: |r| <= k < |t| ==> IsSpace(t[k])) && (|r| > 0 ==> !IsSpace(r[|r| - 1]))
    ensures StripAt(r, s, |s| - |t|)
  {
    var i := |s| - |t|;
    SliceOfSuffix(s, t, r);
    TrailingSpace(s, t, r);
    assert forall k :: 0 <= k < i ==> IsSpace(s[k]);
    if |r| > 0 {
      assert r[0] == t[0];
      assert !IsSpace(r[0]) && !IsSpace(r[|r| - 1]);
    }
  }

  /** The core sits in `s` at the offset where the suffix `t` starts. */
  lemma SliceOfSuffix(s: string, t: string, r: string)
    requires |t| <= |s| && t == s[|s| - |t|..]
    requires |r| <= |t| && r == t[..|r|]
    ensures s[|s| - |t|..|s| - |t| + |r|] == r
  {
    var i := |s| - |t|;
    forall k | 0 <= k < |r| ensures s[i..i + |r|][k] == r[k] {
      assert s[i..i + |r|][k] == s[i + k] == t[k];
    }
  }

  /** What the back trim removed from the suffix `t` is trailing white space of `s`. */
  lemma TrailingSpace(s: string, t: string, r: string)
    requires |t| <= |s| && t == s[|s| - |t|..]
    requires |r| <= |t| && forall k :: |r| <= k < |t| ==> IsSpace(t[k])
    ensures forall k :: |s| - |t| + |r| <= k < |s| ==> IsSpace(s[k])
  {
    var i := |s| - |t|;
    forall k | i + |r| <= k < |s|
      ensures IsSpace(s[k])
    {
      assert s[k] == t[k - i];
    }
  }

  /** A stripped string is empty exactly when the input is all white space. */
  lemma StripEmptyIff(s: string)
    ensures Strip(s) == [] <==> forall k :: 0 <= k < |s| ==> IsSpace(s[k])
  {
    var r := Strip(s);
    if r != [] {
      var i :| StripAt(r, s, i);
      assert s[i] == r[0];
    }
  }

  /** Text that neither starts nor ends with white space is its own strip. */
  lemma StripUnpadded(s: string)
    requires |s| > 0 && !IsSpace(s[0]) && !IsSpace(s[|s| - 1])
    ensures Strip(s) == s
  {
    assert TrimStart(s) == s;
  }

  /** Stripping twice is stripping once. */
  lemma StripIdempotent(s: string)
    ensures Strip(Strip(s)) == Strip(s)
  {
    var r := Strip(s);
    if |r| > 0 {
      var i :| StripAt(r, s, i);
      assert TrimStart(r) == r;
      assert TrimEnd(r) == r;
    }
  }

  /** Left-to-right, non-overlapping replacement of every `pat` by `rep` (JavaScript and Python `replace` with a global scope). */
  function ReplaceAll(s: string, pat: string, rep: string): string
    requires |pat| > 0
    decreases |s|
  {
    if |s| == 0 then []
    else if StartsWith(s, pat) then rep + ReplaceAll(s[|pat|..], pat, rep)
    else [s[0]] + ReplaceAll(s[1..], pat, rep)
  }

  /** Replacing a single character by text that does not contain it leaves none of it behind. */
  lemma {:induction false} ReplaceCharRemoves(s: string, c: char, rep: string)
    requires c !in rep
    ensures c !in ReplaceAll(s, [c], rep)
    decreases |s|
  {
    if |s| > 0 {
      ReplaceCharRemoves(s[1..], c, rep);
      if StartsWith(s, [c]) {
        assert s[1..] == s[|[c]|..];
      } else {
        assert s[0] == s[..1][0];
      }
    }
  }

  /** A character absent from both the input and the replacement is absent from the output. */
  lemma {:induction false} ReplaceKeepsAbsent(s: string, pat: string, rep: string, d: char)
    requires |pat| > 0 && d !in s && d !in rep
    ensures d !in ReplaceAll(s, pat, rep)
    decreases |s|
  {
    if |s| > 0 {
      if StartsWith(s, pat) {
        ReplaceKeepsAbsent(s[|pat|..], pat, rep, d);
      } else {
        ReplaceKeepsAbsent(s[1..], pat, rep, d);
      }
    }
  }

  /** Text without an occurrence of `pat` is left untouched. */
  lemma {:induction false} ReplaceAbsent(s: string, pat: string, rep: string)
    requires |pat| > 0 && !Contains(s, pat)
    ensures ReplaceAll(s, pat, rep) == s
    decreases |s|
  {
    if |s| > 0 {
      assert !OccursAt(s, pat, 0);
      ShiftOccurrence(s, pat);
      ReplaceAbsent(s[1..], pat, rep);
    }
  }

  /** A decimal digit character. */
  predicate IsDigit(c: char) {
    '0' <= c <= '9'
  }

  /** The decimal numeral of `n`, as JavaScript template literals and Python `str` print it. */
  function NatToString(n: nat): (r: string)
    ensures |r| > 0 && forall i :: 0 <= i < |r| ==> IsDigit(r[i])
    ensures n < 10 ==> |r| == 1
    ensures n >= 10 ==> r[0] != '0'
  {
    var d := ['0' + (n % 10) as char];
    if n < 10 then d else NatToString(n / 10) + d
  }

  /** Different numbers print differently: the numeral determines the number. */
  lemma {:induction false} NatToStringInjective(a: nat, b: nat)
    requires NatToString(a) == NatToString(b)
    ensures a == b
  {
    var ra, rb := NatToString(a), NatToString(b);
    assert ra[|ra| - 1] == '0' + (a % 10) as char;
    assert rb[|rb| - 1] == '0' + (b % 10) as char;
    if a >= 10 && b >= 10 {
      assert ra[..|ra| - 1] == NatToString(a / 10);
      assert rb[..|rb| - 1] == NatToString(b / 10);
      NatToStringInjective(a / 10, b / 10);
    }
  }

  /** Python's `sep.join(parts)`. */
  function Join(parts: seq<string>, sep: string): (r: string)
    ensures |parts| == 0 ==> r == []
    ensures |parts| == 1 ==> r == parts[0]
  {
    if |parts| == 0 then []
    else if |parts| == 1 then parts[0]
    else parts[0] + sep + Join(parts[1..], sep)
  }
}

=== FILE: unit_catalog.dfy ===
/**
  The unit-type keys of the three period tables in static/js/unit-system.js and
  the lookup `getUnitTypeData` performs over them (static/js/large-scale-rendering.js).
  Only the keys and their place in the tables are modelled; the per-unit data
  records are not.
 */
module UnitCatalog {
  import opened Wrappers

  datatype Period = Ancient | Medieval | Modern

  /** Scan order of `getUnitTypeData`: ancient, medieval, modern. */
  const Periods: seq<Period> := [Ancient, Medieval, Modern]

  /** A subcategory of a period table with its unit keys, in declaration order. */
  datatype Subcategory = Subcategory(name: string, units: seq<string>)

  function Table(p: Period): seq<Subcategory> {
    match p
    case Ancient => [
      Subcategory("infantry", ["hoplite", "legionnaire", "archer", "peltast"]),
      Subcategory("cavalry", ["heavy_cavalry", "horse_archer", "cataphract"]),
      Subcategory("special", ["war_elephant", "scythed_chariot", "ballista"])]
    case Medieval => [
      Subcategory("heavy_infantry", ["knight", "man_at_arms"]),
      Subcategory("ranged", ["longbowman", "crossbowman"]),
      Subcategory("light_infantry", ["scout", "peasant_militia"])]
    case Modern => [
      Subcategory("infantry", ["line_infantry", "rifled_infantry", "storm_trooper"]),
      Subcategory("vehicles", ["horse_artillery", "field_artillery", "tank"]),
      Subcategory("aircraft", ["fighter_plane", "bomber"])]
  }

  /** Where a unit key was found. */
  datatype Location = Location(period: Period, subcategory: string)

  /** A unit key sits at this location of the tables. */
  predicate At(key: string, loc: Location) {
    exists s :: s in Table(loc.period) && s.name == loc.subcategory && key in s.units
  }

  /** The first subcategory of `subs` holding `key`. */
  function FindInSubcategories(subs: seq<Subcategory>, key: string): (r: Option<string>)
    ensures r.Some? ==> exists s :: s in subs && s.name == r.value && key in s.units
    ensures r.None? ==> forall s :: s in subs ==> key !in s.units
  {
    if |subs| == 0 then None
    else if key in subs[0].units then Some(subs[0].name)
    else FindInSubcategories(subs[1..], key)
  }

  /** The first period (in scan order from `ps`) whose table holds `key`. */
  function FindInPeriods(ps: seq<Period>, key: string): (r: Option<Location>)
    ensures r.Some? ==> r.value.period in ps && At(key, r.value)
    ensures r.None? ==> forall p, s :: p in ps && s in Table(p) ==> key !in s.units
  {
    if |ps| == 0 then None
    else match FindInSubcategories(Table(ps[0]), key)
      case Some(sub) => Some(Location(ps[0], sub))
      case None => FindInPeriods(ps[1..], key)
  }

  /** `getUnitTypeData(type)`: nothing without the unit tables, else the first match in scan order. */
  function GetUnitTypeData(tablesLoaded: bool, key: string): (r: Option<Location>)
    ensures !tablesLoaded ==> r == None
    ensures r.Some? ==> At(key, r.value)
    ensures tablesLoaded && r.None? ==> forall p, s :: s in Table(p) ==> key !in s.units
  {
    if !tablesLoaded then None
    else
      var r := FindInPeriods(Periods, key);
      AllPeriodsScanned();
      r
  }

  /** The scan visits every period. */
  lemma AllPeriodsScanned()
    ensures forall p: Period :: p in Periods
  {
    forall p: Period ensures p in Periods {
      match p
      case Ancient => assert Periods[0] == p;
      case Medieval => assert Periods[1] == p;
      case Modern => assert Periods[2] == p;
    }
  }

  /**
    Reference definition: the location of each unit key, read off the tables
    subcategory by subcategory.
   */
  function LocationOf(key: string): Option<Location> {
    if key in ["hoplite", "legionnaire", "archer", "peltast"] then Some(Location(Ancient, "infantry"))
    else if key in ["heavy_cavalry", "horse_archer", "cataphract"] then Some(Location(Ancient, "cavalry"))
    else if key in ["war_elephant", "scythed_chariot", "ballista"] then Some(Location(Ancient, "special"))
    else if key in ["knight", "man_at_arms"] then Some(Location(Medieval, "heavy_infantry"))
    else if key in ["longbowman", "crossbowman"] then Some(Location(Medieval, "ranged"))
    else if key in ["scout", "peasant_militia"] then Some(Location(Medieval, "light_infantry"))
    else if key in ["line_infantry", "rifled_infantry", "storm_trooper"] then Some(Location(Modern, "infantry"))
    else if key in ["horse_artillery", "field_artillery", "tank"] then Some(Location(Modern, "vehicles"))
    else if key in ["fighter_plane", "bomber"] then Some(Location(Modern, "aircraft"))
    else None
  }

  /** Whatever the reference definition names is a place of the key in the tables. */
  lemma LocationOfIsAt(key: string)
    ensures LocationOf(key).Some? ==> At(key, LocationOf(key).value)
  {
    var a, m, n := Table(Ancient), Table(Medieval), Table(Modern);
    if key in a[0].units { SubcategoryAt(key, Ancient, 0); }
    else if key in a[1].units { SubcategoryAt(key, Ancient, 1); }
    else if key in a[2].units { SubcategoryAt(key, Ancient, 2); }
    else if key in m[0].units { SubcategoryAt(key, Medieval, 0); }
    else if key in m[1].units { SubcategoryAt(key, Medieval, 1); }
    else if key in m[2].units { SubcategoryAt(key, Medieval, 2); }
    else if key in n[0].units { SubcategoryAt(key, Modern, 0); }
    else if key in n[1].units { SubcategoryAt(key, Modern, 1); }
    else if key in n[2].units { SubcategoryAt(key, Modern, 2); }
  }

  /** A key listed in a subcategory sits at that subcategory. */
  lemma SubcategoryAt(key: string, p: Period, i: nat)
    requires i < |Table(p)| && key in Table(p)[i].units
    ensures At(key, Location(p, Table(p)[i].name))
  {
    assert Table(p)[i] in Table(p);
  }

  /** Every place of a key in the ancient table is the one the reference definition names. */
  lemma AncientAt(key: string, s: Subcategory)
    requires s in Table(Ancient) && key in s.units
    ensures LocationOf(key) == Some(Location(Ancient, s.name))
  {
    var t := Table(Ancient);
    assert s == t[0] || s == t[1] || s == t[2];
  }

  /** Every place of a key in the medieval table is the one the reference definition names. */
  lemma MedievalAt(key: string, s: Subcategory)
    requires s in Table(Medieval) && key in s.units
    ensures LocationOf(key) == Some(Location(Medieval, s.name))
  {
    var t := Table(Medieval);
    assert s == t[0] || s == t[1] || s == t[2];
  }

  /** Every place of a key in the modern table is the one the reference definition names. */
  lemma ModernAt(key: string, s: Subcategory)
    requires s in Table(Modern) && key in s.units
    ensures LocationOf(key) == Some(Location(Modern, s.name))
  {
    var t := Table(Modern);
    if s == t[0] {
      ModernInfantryAt(key);
    } else if s == t[1] {
      ModernVehiclesAt(key);
    } else {
      assert s == t[2];
      ModernAircraftAt(key);
    }
  }

  /** The modern infantry keys are found nowhere earlier in the reference definition. */
  lemma ModernInfantryAt(key: string)
    requires key in Table(Modern)[0].units
    ensures LocationOf(key) == Some(Location(Modern, "infantry"))
  {
  }

  /** The modern vehicle keys are found nowhere earlier in the reference definition. */
  lemma ModernVehiclesAt(key: string)
    requires key in Table(Modern)[1].units
    ensures LocationOf(key) == Some(Location(Modern, "vehicles"))
  {
  }

  /** The modern aircraft keys are found nowhere earlier in the reference definition. */
  lemma ModernAircraftAt(key: string)
    requires key in Table(Modern)[2].units
    ensures LocationOf(key) == Some(Location(Modern, "aircraft"))
  {
  }

  /** A key sits at `loc` exactly when the reference definition names `loc`. */
  lemma AtIffLocationOf(key: string, loc: Location)
    ensures At(key, loc) <==> LocationOf(key) == Some(loc)
  {
    LocationOfIsAt(key);
    if At(key, loc) {
      var s :| s in Table(loc.period) && s.name == loc.subcategory && key in s.units;
      match loc.period
      case Ancient => AncientAt(key, s);
      case Medieval => MedievalAt(key, s);
      case Modern => ModernAt(key, s);
    }
  }

  /**
    A key has at most one location, so the answer of the lookup does not depend on
    the order in which periods and subcategories are scanned.
   */
  lemma LocationUnique(key: string, a: Location, b: Location)
    requires At(key, a) && At(key, b)
    ensures a == b
  {
    AtIffLocationOf(key, a);
    AtIffLocationOf(key, b);
  }

  /** With the tables loaded, the scanning lookup agrees with the reference definition. */
  lemma GetUnitTypeDataIsLocationOf(key: string)
    ensures GetUnitTypeData(true, key) == LocationOf(key)
  {
    var r := GetUnitTypeData(true, key);
    LocationOfIsAt(key);
    if r.Some? {
      AtIffLocationOf(key, r.value);
    }
  }
}

=== FILE: windows.dfy ===
/**
  The floating-panel manager (static/js/window-manager.js): registration of page
  elements as windows, minimise/close/restore with a dock of minimised windows, the
  z-order counter, and the viewport and size clamps applied while dragging and
  resizing. The page is a map from element id to the element's display state.
 */
module Windows {
  import opened Wrappers

  datatype Display = Unset | Hidden | Shown

  /** The style properties of a page element the manager writes. */
  datatype Element = Element(display: Display, zIndex: Option<int>, left: real, top: real, width: real, height: real)

  datatype Window = Window(id: string, title: string, icon: string)

  datatype DockItem = DockItem(id: string, icon: string, title: string)

  /**
    The manager's state. `raised` records the elements whose z-index the manager
    itself has written; other elements keep whatever z-index the page gave them.
   */
  datatype Manager = Manager(page: map<string, Element>, windows: seq<Window>, dock: seq<DockItem>, zCounter: int, raised: set<string>) {
    /**
      Registered windows are page elements, the dock holds each id once, and every
      z-index the manager wrote is at most the counter, which never drops below 100.
     */
    ghost predicate Valid() {
      && zCounter >= 100
      && (forall i :: 0 <= i < |windows| ==> windows[i].id in page)
      && DistinctIds(dock)
      && (forall id :: id in raised ==> id in page && page[id].zIndex.Some? && page[id].zIndex.value <= zCounter)
    }
  }

  /** The constructor: no windows, an empty dock, the counter at 100, and no z-index written yet. */
  function NewManager(page: map<string, Element>): (m: Manager)
    ensures m.Valid() && m.windows == [] && m.dock == [] && m.zCounter == 100
    ensures m.page == page && m.raised == {}
  {
    Manager(page, [], [], 100, {})
  }

  /** `windows.find(w => w.id === id)`: the first registered window with that id. */
  function Find(ws: seq<Window>, id: string): (r: Option<Window>)
    ensures r.Some? ==> r.value in ws && r.value.id == id
    ensures r.Some? ==> exists i :: 0 <= i < |ws| && ws[i] == r.value && forall j :: 0 <= j < i ==> ws[j].id != id
    ensures r.None? ==> forall i :: 0 <= i < |ws| ==> ws[i].id != id
  {
    if |ws| == 0 then None
    else if ws[0].id == id then Some(ws[0])
    else
      var r := Find(ws[1..], id);
      if r.Some? then
        var i :| 0 <= i < |ws[1..]| && ws[1..][i] == r.value && forall j :: 0 <= j < i ==> ws[1..][j].id != id;
        assert ws[i + 1] == r.value;
        assert forall j :: 0 <= j < i + 1 ==> ws[j].id != id by {
          forall j | 0 <= j < i + 1 ensures ws[j].id != id {
            if j > 0 { assert ws[j] == ws[1..][j - 1]; }
          }
        }
        r
      else r
  }

  /** The icon `register` uses when none is passed. */
  const DefaultIcon := "📦"

  /**
    `register(id, title, icon = '📦')`: nothing without a page element, else one more
    window record; `None` is an icon argument left undefined.
   */
  function Register(m: Manager, id: string, title: string, icon: Option<string>): (r: Manager)
    requires m.Valid()
    ensures r.Valid()
    ensures id !in m.page ==> r == m
    ensures id in m.page ==> |r.windows| == |m.windows| + 1 && r.windows[..|m.windows|] == m.windows
    ensures id in m.page ==> r == m.(windows := r.windows)
    ensures id in m.page ==> r.windows[|m.windows|].id == id && r.windows[|m.windows|].title == title
    ensures id in m.page && icon.Some? ==> r.windows[|m.windows|].icon == icon.value
    ensures id in m.page && icon.None? ==> r.windows[|m.windows|].icon == DefaultIcon
  {
    if id !in m.page then m else m.(windows := m.windows + [Window(id, title, icon.GetOr(DefaultIcon))])
  }

  /**
    `bringToFront(element)`: the counter goes up by one and becomes the element's
    z-index, above every other z-index the manager has written.
   */
  function BringToFront(m: Manager, id: string): (r: Manager)
    requires m.Valid() && id in m.page
    ensures r.Valid()
    ensures r.zCounter == m.zCounter + 1
    ensures r.page == m.page[id := m.page[id].(zIndex := Some(m.zCounter + 1))]
    ensures r.raised == m.raised + {id}
    ensures forall other :: other in r.raised && other != id ==>
      r.page[other].zIndex.Some? && r.page[other].zIndex.value < r.page[id].zIndex.value
    ensures r.windows == m.windows && r.dock == m.dock
  {
    var z := m.zCounter + 1;
    m.(zCounter := z, page := m.page[id := m.page[id].(zIndex := Some(z))], raised := m.raised + {id})
  }

  /** The first window brought to the front gets z-index 101. */
  lemma FirstFrontIs101(page: map<string, Element>, id: string)
    requires id in page
    ensures BringToFront(NewManager(page), id).page[id].zIndex == Some(101)
  {
  }

  /** `addToDock(win)`: appends a dock item unless one with the same id is there. */
  function AddToDock(m: Manager, w: Window): (r: Manager)
    requires m.Valid()
    ensures r.Valid()
    ensures (exists i :: 0 <= i < |m.dock| && m.dock[i].id == w.id) ==> r == m
    ensures (forall i :: 0 <= i < |m.dock| ==> m.dock[i].id != w.id) ==>
      r == m.(dock := m.dock + [DockItem(w.id, w.icon, w.title)])
    ensures exists i :: 0 <= i < |r.dock| && r.dock[i].id == w.id
  {
    if exists i :: 0 <= i < |m.dock| && m.dock[i].id == w.id then m
    else
      var r := m.(dock := m.dock + [DockItem(w.id, w.icon, w.title)]);
      assert r.dock[|m.dock|].id == w.id;
      r
  }

  /** `minimize(id)`: an unknown id is ignored, else the element is hidden and docked. */
  function Minimize(m: Manager, id: string): (r: Manager)
    requires m.Valid()
    ensures r.Valid()
    ensures Find(m.windows, id).None? ==> r == m
    ensures Find(m.windows, id).Some? ==>
      && id in r.page && r.page[id].display == Hidden
      && (exists i :: 0 <= i < |r.dock| && r.dock[i].id == id)
      && r.windows == m.windows && r.zCounter == m.zCounter
    ensures Find(m.windows, id).Some? ==>
      && r.page.Keys == m.page.Keys
      && r.page[id] == m.page[id].(display := Hidden)
      && (forall k :: k in m.page && k != id ==> r.page[k] == m.page[k])
      && (var w := Find(m.windows, id).value;
          r.dock == m.dock || r.dock == m.dock + [DockItem(id, w.icon, w.title)])
  {
    match Find(m.windows, id)
    case None => m
    case Some(w) =>
      var m1 := m.(page := m.page[id := m.page[id].(display := Hidden)]);
      AddToDock(m1, w)
  }

  /** `close(id)`: the element is hidden but not docked. */
  function Close(m: Manager, id: string): (r: Manager)
    requires m.Valid()
    ensures r.Valid()
    ensures Find(m.windows, id).None? ==> r == m
    ensures Find(m.windows, id).Some? ==>
      r == m.(page := m.page[id := m.page[id].(display := Hidden)])
    ensures r.dock == m.dock
  {
    match Find(m.windows, id)
    case None => m
    case Some(_) => m.(page := m.page[id := m.page[id].(display := Hidden)])
  }

  /** The dock without the first item whose id matches (`querySelector(...).remove()`). */
  function RemoveDockItem(dock: seq<DockItem>, id: string): (r: seq<DockItem>)
    ensures |r| <= |dock|
    ensures (forall i :: 0 <= i < |dock| ==> dock[i].id != id) ==> r == dock
    ensures forall x :: x in r ==> x in dock
    ensures forall x :: x in dock && x.id != id ==> x in r
  {
    if |dock| == 0 then []
    else if dock[0].id == id then dock[1..]
    else [dock[0]] + RemoveDockItem(dock[1..], id)
  }

  /** No two dock items share an id. */
  ghost predicate DistinctIds(dock: seq<DockItem>) {
    forall i, j :: 0 <= i < j < |dock| ==> dock[i].id != dock[j].id
  }

  /** The tail of a dock with distinct ids has distinct ids, none of them the head's. */
  lemma TailDistinctIds(dock: seq<DockItem>)
    requires |dock| > 0 && DistinctIds(dock)
    ensures DistinctIds(dock[1..])
    ensures forall x :: x in dock[1..] ==> x.id != dock[0].id
    ensures forall i :: 0 <= i < |dock[1..]| ==> dock[1..][i].id != dock[0].id
  {
    var rest := dock[1..];
    assert forall k :: 0 <= k < |rest| ==> rest[k] == dock[k + 1];
  }

  /** An item whose id is new to a dock with distinct ids can go in front of it. */
  lemma ConsDistinctIds(x: DockItem, dock: seq<DockItem>, id: string)
    requires DistinctIds(dock) && forall y :: y in dock ==> y.id != x.id
    requires x.id != id && forall i :: 0 <= i < |dock| ==> dock[i].id != id
    ensures DistinctIds([x] + dock)
    ensures forall i :: 0 <= i < |[x] + dock| ==> ([x] + dock)[i].id != id
  {
    var r := [x] + dock;
    assert forall k :: 1 <= k < |r| ==> r[k] == dock[k - 1];
  }

  /** With distinct dock ids, removing the item for `id` leaves none behind, and the ids stay distinct. */
  lemma {:induction false} RemoveDockItemClears(dock: seq<DockItem>, id: string)
    requires DistinctIds(dock)
    ensures forall i :: 0 <= i < |RemoveDockItem(dock, id)| ==> RemoveDockItem(dock, id)[i].id != id
    ensures DistinctIds(RemoveDockItem(dock, id))
  {
    if |dock| > 0 {
      TailDistinctIds(dock);
      if dock[0].id != id {
        RemoveDockItemClears(dock[1..], id);
        ConsDistinctIds(dock[0], RemoveDockItem(dock[1..], id), id);
      }
    }
  }

  /** `restore(id)`: the element is shown, its dock item removed, and it comes to the front. */
  function Restore(m: Manager, id: string): (r: Manager)
    requires m.Valid()
    ensures r.Valid()
    ensures Find(m.windows, id).None? ==> r == m
    ensures Find(m.windows, id).Some? ==>
      && id in r.page && r.page[id].display == Shown
      && r.page[id].zIndex == Some(m.zCounter + 1) && r.zCounter == m.zCounter + 1
      && (forall i :: 0 <= i < |r.dock| ==> r.dock[i].id != id)
      && r.windows == m.windows
    ensures Find(m.windows, id).Some? ==>
      && r.page.Keys == m.page.Keys
      && r.page[id] == m.page[id].(display := Shown, zIndex := Some(m.zCounter + 1))
      && r.raised == m.raised + {id}
      && (forall k :: k in m.page && k != id ==> r.page[k] == m.page[k])
      && (forall x :: x in m.dock && x.id != id ==> x in r.dock)
      && (forall x :: x in r.dock ==> x in m.dock)
  {
    match Find(m.windows, id)
    case None => m
    case Some(w) =>
      RemoveDockItemClears(m.dock, id);
      var m1 := m.(page := m.page[id := m.page[id].(display := Shown)], dock := RemoveDockItem(m.dock, id));
      BringToFront(m1, id)
  }

  /** Minimising and then restoring a window leaves it shown, undocked, and frontmost. */
  lemma MinimizeThenRestore(m: Manager, id: string)
    requires m.Valid() && Find(m.windows, id).Some?
    ensures var r := Restore(Minimize(m, id), id);
      && r.page[id].display == Shown
      && (forall i :: 0 <= i < |r.dock| ==> r.dock[i].id != id)
      && r.zCounter == m.zCounter + 1
  {
  }

  // ---------------------------------------------------------------- clamps

  /**
    The drag constraint: `max(0, min(v, limit))` with limit `innerWidth - 100` for
    the left edge or `innerHeight - 50` for the top edge.
   */
  function ClampEdge(v: real, limit: real): (r: real)
    ensures 0.0 <= r
    ensures r <= if limit > 0.0 then limit else 0.0
    ensures 0.0 <= v <= limit ==> r == v
  {
    var inner := if v < limit then v else limit;
    if inner > 0.0 then inner else 0.0
  }

  /** The new left and top of an element dragged by (dx, dy) inside a viewport of the given size. */
  function DragPosition(offsetLeft: real, offsetTop: real, dx: real, dy: real, innerWidth: real, innerHeight: real): (r: (real, real))
    ensures 0.0 <= r.0 <= (if innerWidth - 100.0 > 0.0 then innerWidth - 100.0 else 0.0)
    ensures 0.0 <= r.1 <= (if innerHeight - 50.0 > 0.0 then innerHeight - 50.0 else 0.0)
    ensures 0.0 <= offsetLeft + dx <= innerWidth - 100.0 ==> r.0 == offsetLeft + dx
    ensures 0.0 <= offsetTop + dy <= innerHeight - 50.0 ==> r.1 == offsetTop + dy
  {
    (ClampEdge(offsetLeft + dx, innerWidth - 100.0), ClampEdge(offsetTop + dy, innerHeight - 50.0))
  }

  /** The resize constraint: never narrower than 300 nor lower than 200. */
  function ResizeDimensions(newWidth: real, newHeight: real): (r: (real, real))
    ensures r.0 >= 300.0 && r.1 >= 200.0
    ensures newWidth >= 300.0 ==> r.0 == newWidth
    ensures newHeight >= 200.0 ==> r.1 == newHeight
    ensures newWidth < 300.0 ==> r.0 == 300.0
    ensures newHeight < 200.0 ==> r.1 == 200.0
  {
    (if newWidth > 300.0 then newWidth else 300.0, if newHeight > 200.0 then newHeight else 200.0)
  }
}

=== FILE: wrappers.dfy ===
/** Failure-carrying result types shared by every module of the model. */
module Wrappers {

  /** A value that may be absent: JavaScript's `null`/`undefined`, Python's `None`. */
  datatype Option<+T> = None | Some(value: T) {

    /** The carried value, or `default` when absent. */
    function GetOr(default: T): T {
      match this
      case Some(v) => v
      case None => default
    }
  }

  /** An HTTP-style outcome: a value, or an error status with its detail text. */
  datatype Result<+T> = Ok(value: T) | Err(status: nat, detail: string)
}
